=== FILE: README.md ===
# crawsiz feature, label and accounting core in Dafny

crawsiz is a foreign-exchange toolkit. It ingests daily price files and stores them per currency pair. Each day's price history becomes a fixed-length feature vector. Every day gets a "higher"/"lower" label for the next highs and lows. A linear (pseudo-inverse) classifier and a two-class Bayesian classifier are then trained on the vectors, and a report shows their predictions and accuracies.

This project models the parts of that pipeline that are exact arithmetic over sequences. Prices are exact `real` numbers, and Python exceptions become `Result` values carrying a `Fault` (`ValueError`, `IndexError`, `ZeroDivisionError`, `KeyError`, `TypeError`, `AttributeError`, or `Exit` for the logging layer's "log and die").

| file | module | models |
|---|---|---|
| wrappers.dfy | Wrappers | `Result`, `Option` and the `Fault` kinds |
| pyseq.dfy | PySeq | list semantics used by the code: slices with negative bounds, `[-1]`, `list.index`, `max`, `min`, `sum` |
| pystr.dfy | PyStr | `str.replace`, `str.split(c)`, `str.join`, and `' '.join(s.split())` |
| sorting.dfy | Sorting | `sorted()` as an insertion sort, and the fact that the ordered permutation is unique |
| arith.dfy | Arith | small real-arithmetic facts shared by the proofs |
| quantize.dfy | Quantize | `Decimal.quantize` with `ROUND_DOWN` / `ROUND_UP` to k decimal places |
| series.dfy | Series | the aligned price lists of one pair |
| feature.dfy | Feature, FeatureHistory | `Feature` window, ratio, ATR and psychological-level features; `vector` |
| label.dfy | Label | `Classify._classify`, in its Kessler (`[1]`/`[-1]`) and packed-integer forms |
| extract.dfy | Extract | the `Extract.__init__` anchor loop, `last_vector`, `last_timestamp` |
| legacy.dfy | Legacy | the older `main/classify.py` `Classify`, with its unit-test series |
| linear.dfy | Linear | `kessler_to_number`, design-matrix augmentation, the linear prediction |
| bayes.dfy | Bayes | posterior normalisation, the two-class decision, `_get_data` |
| tally.dfy | Tally | `Bayesian.accuracy` (both the fraction and the percent variant) |
| facets.dfy | Facets | the accuracy facets of `machine/accuracy.py` |
| ingest.dfy | Ingest | the filename check, `valid()`, the row filter and max-timestamp fold, `_last_updated` |
| config.dfy | Config | `_key_sub_key`, `pairs`, `valid_pair`, `timeframes` over a YAML value tree |
| counter.dfy | Counter | the start/stop clamp, `_counter` (counter-to-rate conversion), `_d3_converter` |
| report.dfy | Report | `_text`, `_html_table`, the historical window extremes, prediction rows, facet selection |

Details of the code that the model follows:
- The feature vector has 50 entries: 16 for each of the 20, 40 and 60-day windows, plus the two 200-day means.
- The psychological-level grid gets finer, from 1 to 5 decimal places.
- The label is one comparison of the value `lookahead` days ahead with the anchor's value. A multi-step loop is commented out at crawsiz/main/feature.py:107-112.
- The Bayesian accuracy leaves `None` predictions out of both the hit tally and the class count.

Some behaviours of the code are modelled as written and worth knowing:
- `Config.pairs` sorts the configured names before upper-casing them, so its output need not be in order (`Config.PairsOrderCounterexample`: `["B", "a"]` gives `["B", "A"]`).
- `Bayesian.accuracy` visits the `None` key of its own tally, which doubles both totals; the ratio is unchanged (`Tally.NoneKeyDoubled`, `Tally.ScaledDouble`).
- The `machine/accuracy.py` `Linear` facets divide by confusion-matrix column sums, as written (`Facets.LowerFacet`, `Facets.HigherFacet`). The matrix has one row and column per label that occurs, so when only one class occurs it is 1x1: `lowerhighs` and `highs` raise IndexError there, while `higherhighs` gives 1.0 (`Facets.OneLabelFacets`).
- The ingest filename pattern has an unescaped `.`, so any character is accepted there. A name may also end in one newline, because `$` matches before a final newline (`Ingest.NameMatch`).

## Model

| member | source | states |
|---|---|---|
| PySeq.SliceBound | crawsiz/main/feature.py:259-278 | a slice bound is clamped into `[0, n]`, and a negative bound counts from the end |
| PySeq.Slice | crawsiz/main/feature.py:277-278 | `values[start:stop]` has the clamped length, is the plain subsequence for in-range bounds, and is empty when `stop <= start` |
| PySeq.SliceElements | crawsiz/main/feature.py:277-278 | element k of a slice is element `start' + k` of the list, where `start'` is the clamped start |
| PySeq.SlicePrefix | crawsiz/main/feature.py:277-278 | a slice inside the first n entries does not depend on later entries |
| PySeq.At | crawsiz/main/feature.py:380 | `s[i]` succeeds exactly for `-len <= i < len`, counting negative i from the end; otherwise it is an IndexError |
| PySeq.IndexOf | crawsiz/main/feature.py:57 | `list.index(x)` is the first position holding x, and a ValueError when x is absent |
| PySeq.IndexOfDistinct | crawsiz/main/feature.py:256 | in a list without repeats, `index` of the i-th element is i |
| PySeq.Max | crawsiz/main/feature.py:348 | `max` of a non-empty list is one of its elements and bounds every element from above |
| PySeq.Min | crawsiz/main/feature.py:364 | `min` of a non-empty list is one of its elements and bounds every element from below |
| PySeq.SumBetween | crawsiz/main/feature.py:202 | a sum of n values between lo and hi lies between `n*lo` and `n*hi` |
| Quantize.DownTicks | crawsiz/main/feature.py:512-514 | the whole number of 10^-k steps kept is x * 10^k truncated toward zero: on the side of zero, within one step, same sign |
| Quantize.UpTicks | crawsiz/main/feature.py:539-541 | the whole number of 10^-k steps reached is x * 10^k rounded away from zero: on the far side, within one step, same sign |
| Quantize.RoundDown | crawsiz/main/feature.py:512-514 | ROUND_DOWN to k places lands on the 10^-k grid and moves toward zero by less than one unit of the k-th place |
| Quantize.RoundUp | crawsiz/main/feature.py:539-541 | ROUND_UP to k places lands on the 10^-k grid and moves away from zero by less than one unit of the k-th place |
| Quantize.RoundDownNearest | crawsiz/main/feature.py:512-514 | ROUND_DOWN is the largest grid point not past x toward its far side: for x >= 0 every grid point at most x is at most the result, and symmetrically for x < 0 |
| Quantize.RoundUpNearest | crawsiz/main/feature.py:539-541 | ROUND_UP is the nearest grid point at or beyond x away from zero: for x >= 0 every grid point at least x is at least the result, and symmetrically for x < 0 |
| Quantize.RoundDownFiner | crawsiz/main/feature.py:509-514 | for a non-negative price, rounding down to one more place never gives a smaller value |
| Quantize.RoundUpFiner | crawsiz/main/feature.py:536-541 | for a non-negative price, rounding up to one more place never gives a larger value |
| Quantize.RoundDownIdempotent | crawsiz/main/feature.py:512-514 | rounding down twice to the same place changes nothing more |
| Quantize.RoundUpIdempotent | crawsiz/main/feature.py:539-541 | rounding up twice to the same place changes nothing more |
| Feature.StartStop | crawsiz/main/feature.py:242-263 | `(start, stop)` is a ValueError for an unknown timestamp; otherwise stop is one past the first occurrence and `stop - start == periods` |
| Feature.WindowShape | crawsiz/main/feature.py:265-281 | for anchor i with `periods <= i + 1`, the window is `values[i+1-periods .. i+1]`, has `periods` entries and ends with the anchor's value |
| Feature.ShortHistoryWindow | crawsiz/main/feature.py:259-278 | when the anchor's index + 1 < `periods` <= the list's length, the negative start wraps past the stop and the window is empty |
| Feature.SamplesMeaning | crawsiz/main/feature.py:242-335 | each `_samples_*` window is a ValueError for an unknown anchor, and the `periods` values ending at the anchor's first occurrence when there is enough history |
| Feature.MaxHighPercent | crawsiz/main/feature.py:159-173 | ValueError for an unknown anchor; with enough history, the max ratio of the recent highs |
| Feature.MinLowPercent | crawsiz/main/feature.py:175-189 | ValueError for an unknown anchor; with enough history, the min ratio of the recent lows |
| Feature.MeanHighPercent | crawsiz/main/feature.py:191-206 | ValueError for an unknown anchor; with enough history, the mean ratio of the recent highs |
| Feature.MeanLowPercent | crawsiz/main/feature.py:208-223 | ValueError for an unknown anchor; with enough history, the mean ratio of the recent lows |
| Feature.MeanVolumePercent | crawsiz/main/feature.py:225-240 | ValueError for an unknown anchor; with enough history, the mean ratio of the recent volumes |
| Feature.MaxAtrPercent | crawsiz/main/feature.py:449-469 | ValueError for an unknown anchor; with enough history, the ATR-offset max ratio of the recent highs, lows and closes |
| Feature.MinAtrPercent | crawsiz/main/feature.py:471-491 | ValueError for an unknown anchor; with enough history, the ATR-offset min ratio of the recent highs, lows and closes |
| Feature.MinPsychoLevels | crawsiz/main/feature.py:493-518 | five levels when defined; ValueError for an unknown anchor; with enough history, the round-down levels (`MinPsycho`) of the recent lows, which for `periods > 0` end at the anchor's low |
| Feature.MaxPsychoLevels | crawsiz/main/feature.py:520-545 | five levels when defined; ValueError for an unknown anchor; with enough history, the round-up levels (`MaxPsycho`) of the recent highs, which for `periods > 0` end at the anchor's high |
| Feature.MaxRatio | crawsiz/main/feature.py:159-173 | max/current: a ValueError from `max` on an empty window, a ZeroDivisionError on a zero current value, and at least 1 for a positive current value |
| Feature.MinRatio | crawsiz/main/feature.py:175-189 | min/current, with the same error cases, and at most 1 for a positive current value |
| Feature.Mean | crawsiz/main/feature.py:202 | the mean of a window lies between its minimum and maximum |
| Feature.MeanRatio | crawsiz/main/feature.py:191-223 | mean/current: ZeroDivisionError on an empty window or a zero current value, and between min/current and max/current otherwise |
| Feature.RatioOrder | crawsiz/main/feature.py:159-223 | for a positive current value, min ratio <= mean ratio <= max ratio |
| Feature.TrueRange | crawsiz/main/feature.py:436-440 | the true range is the largest of the three spreads, so it is at least high-low and never negative |
| Feature.TrueRanges | crawsiz/main/feature.py:428-441 | a window of n bars gives n-1 true ranges, the j-th built from bar j+1 and the close of bar j |
| Feature.Atr | crawsiz/main/feature.py:417-447 | the ATR exists iff the window has two or more bars (a ZeroDivisionError otherwise) and is never negative |
| Feature.AtrAtLeastSpread | crawsiz/main/feature.py:434-444 | if every bar after the first has high-low >= lo, the ATR is at least lo |
| Feature.AtrDistance | crawsiz/main/feature.py:465-466 | `(extreme - (current + offset)) / current` times current gives back the numerator |
| Feature.MaxAtrRatio | crawsiz/main/feature.py:449-469 | IndexError on an empty window, ZeroDivisionError on one bar or a zero current high; otherwise `(maxHigh - (curHigh + atr)) / curHigh` |
| Feature.MinAtrRatio | crawsiz/main/feature.py:471-491 | the same error cases; otherwise `(minLow - (curLow - atr)) / curLow` |
| Feature.MinLevel | crawsiz/main/feature.py:509-514 | level times current is the price rounded down, and for a positive price the level is in [0, 1] |
| Feature.MaxLevel | crawsiz/main/feature.py:536-541 | level times current is the price rounded up, and for a positive price the level is at least 1 |
| Feature.MinLevelFiner | crawsiz/main/feature.py:509-515 | for a positive price, the round-down level does not decrease with one more decimal place |
| Feature.MaxLevelFiner | crawsiz/main/feature.py:536-542 | for a positive price, the round-up level does not increase with one more decimal place |
| Feature.MinPsycho | crawsiz/main/feature.py:493-518 | IndexError on an empty window, ZeroDivisionError on a zero current low; otherwise 5 levels, the k-th rounded down to k places |
| Feature.MaxPsycho | crawsiz/main/feature.py:520-545 | the same error cases; otherwise 5 levels, the k-th rounded up to k places |
| Feature.MinPsychoOrdered | crawsiz/main/feature.py:493-518 | for a positive price, the min levels lie in [0, 1] and do not decrease |
| Feature.MaxPsychoOrdered | crawsiz/main/feature.py:520-545 | for a positive price, the max levels are at least 1 and do not increase |
| Feature.WindowFeatures | crawsiz/main/feature.py:785-795 | one window contributes 16 values, and an unknown timestamp is a ValueError |
| Feature.Gather | crawsiz/main/feature.py:788-795 | the eight parts succeed together or the first failure is the result; on success the six ratios sit at positions 0-5, the round-down levels at 6-10 and the round-up levels at 11-15 |
| Feature.WindowLayout | crawsiz/main/feature.py:785-795 | a window's values exist iff max high, min low, mean high, mean low, max ATR, min ATR and both psychological level lists all exist, and then sit in that order at positions 0-5, 6-10 and 11-15 |
| Feature.Combine | crawsiz/main/feature.py:782-804 | the vector exists iff every part does, and it is the 20, 40 and 60-day blocks followed by the two 200-day means |
| Feature.Vector | crawsiz/main/feature.py:770-805 | a vector always has 50 entries, and an unknown timestamp is a ValueError |
| Feature.VectorLayout | crawsiz/main/feature.py:785-801 | entries 0-15, 16-31 and 32-47 are the 20, 40 and 60-day features, and 48 and 49 are the 200-day mean ratios |
| FeatureHistory.WindowFeaturesDefined | crawsiz/main/feature.py:159-545 | with positive prices and at least `periods` entries up to the anchor, every window feature is defined |
| FeatureHistory.VectorDefined | crawsiz/main/feature.py:770-805 | with positive prices and at least 200 entries up to the anchor, the vector is defined |
| FeatureHistory.SamplesPrefix | crawsiz/main/feature.py:242-281 | a window reads nothing after its anchor |
| FeatureHistory.WindowFeaturesPrefix | crawsiz/main/feature.py:159-545 | the window features of an anchor equal those computed on the history cut at the anchor |
| FeatureHistory.VectorUsesOnlyHistory | crawsiz/main/feature.py:770-805 | the vector of an anchor equals the vector computed on the history cut at the anchor |
| Label.Start | crawsiz/main/feature.py:53-57 | the start index is the first position of the timestamp, and a ValueError when it is absent |
| Label.KesslerLabel | crawsiz/main/feature.py:104-120 | the label is `[1]` iff the value `lookahead` ahead is strictly greater, `[-1]` otherwise, and an IndexError when that index is out of range |
| Label.TieIsDown | crawsiz/main/feature.py:115-116 | equal values give the label `[-1]` |
| Label.Bit | crawsiz/main/feature.py:122 | an entry becomes bit 1 iff it equals 1 |
| Label.Pack | crawsiz/main/feature.py:121-125 | packing fails (empty binary string) only for an empty label list |
| Label.PackRoundTrip | crawsiz/main/feature.py:121-125 | bit k of the packed integer, read back by division and remainder, is the bit of label entry k |
| Label.RegularLabel | crawsiz/main/feature.py:119-125 | the packed form exists iff the Kessler form does, and is 1 exactly for `[1]` and 0 for `[-1]` |
| Extract.Anchors | crawsiz/main/feature.py:588 | the anchors are exactly `timestamps[199 : len - lookahead]`, and none when lookahead is 0 or the history is too short |
| Extract.Labels | crawsiz/main/feature.py:595-599 | the four labels of an anchor are the Kessler and packed labels of its highs and lows |
| Extract.AnchorRow | crawsiz/main/feature.py:588-599 | a row holds the anchor's 50-value vector and its four labels, and an unknown timestamp is a ValueError |
| Extract.Collect | crawsiz/main/feature.py:587-602 | the dataset exists iff every row does; its five lists grow in lockstep and hold row k at position k; otherwise the fault of the first failing row is reported, every earlier row having succeeded |
| Extract.Rows | crawsiz/main/feature.py:587-602 | one row per anchor, in anchor order |
| Extract.Build | crawsiz/main/feature.py:561-602 | the dataset's timestamps are the anchors, in lockstep with vectors and labels, or the fault of the first failing anchor's row |
| Extract.AnchorPositions | crawsiz/main/feature.py:588-599 | for increasing timestamps, anchor k sits at index `199 + k`, is found there by `index`, its 200-day window is `(k, 200 + k)` so it starts inside the list, and its label index is inside the list |
| Extract.LastIsNotAnchor | crawsiz/main/feature.py:714-744 | with lookahead >= 1, the newest timestamp is never a training anchor |
| Extract.IncreasingAnchorAt | crawsiz/main/feature.py:57 | in increasing timestamps, every index is the first occurrence of its timestamp |
| Extract.AnchorRowDefined | crawsiz/main/feature.py:588-599 | with positive prices, every index from 199 to `len - 1 - lookahead` gives a row |
| Extract.BuildSucceeds | crawsiz/main/feature.py:587-602 | with positive prices and increasing timestamps, every anchor row is defined |
| Extract.AnchorRowAt | crawsiz/main/feature.py:587-602 | with positive prices and increasing timestamps, anchor k's row is defined |
| Extract.LastTimestamp | crawsiz/main/feature.py:730-744 | the newest timestamp, and an IndexError on an empty history |
| Extract.LastVector | crawsiz/main/feature.py:714-728 | the vector of the newest timestamp, with 50 entries, and an IndexError on an empty history |
| Extract.LastVectorDefined | crawsiz/main/feature.py:714-728 | with positive prices and at least 200 entries, the newest vector is defined |
| Legacy.MeanHigh | crawsiz/main/classify.py:135-149 | the mean high of the window, between its min and max; a ValueError for an unknown timestamp |
| Legacy.MaxHighPercent | crawsiz/main/classify.py:38-56 | max/mean (not max/current); a ZeroDivisionError on a zero mean; at least 1 for a positive mean |
| Legacy.Windows | crawsiz/main/classify.py:58-133 | the high, low and close windows are the slices ending at the anchor, all of one length |
| Legacy.AtrHigh | crawsiz/main/classify.py:151-181 | the ATR exists iff the window has two or more bars, and it is never negative |
| Legacy.InRangeOf | crawsiz/main/classify.py:198-200 | `(lastHigh - (lastClose + atr)) / mean`, which for a positive mean is positive iff the high exceeds close plus ATR |
| Legacy.InRange | crawsiz/main/classify.py:183-203 | `_in_range` is defined iff the windows, the ATR and a non-zero mean are, and then equals that formula |
| Legacy.TenDays | crawsiz/test/test_classify.py:44-64 | the ten-day unit-test series is aligned and has 10 entries |
| Legacy.TenDaysWindow | crawsiz/test/test_classify.py:82-91 | the 5-day high window at the second-to-last day is `[60, 50, 40, 30, 20]` |
| Legacy.TenDaysBounds | crawsiz/test/test_classify.py:136-155 | the test's `(start, stop)` is `(4, 9)` |
| Legacy.TenDaysValues | crawsiz/test/test_classify.py:66-125 | on the test series, the mean high is 40 and max_high_percent is 1.5 |
| Linear.KesslerToNumber | crawsiz/machine/classifier.py:306-332 | a ValueError when empty; one column gives 1 iff the entry is > 0, else -1; more columns give the first index of the maximum |
| Linear.FirstArgMaxUnique | crawsiz/machine/linear.py:99-101 | the first index of the maximum is unique |
| Linear.KesslerChoice | crawsiz/machine/classifier.py:326-330 | any first index of the maximum is what `kessler_to_number` returns |
| Linear.KesslerScaleInvariant | crawsiz/machine/linear.py:77-103 | multiplying every score by a positive constant does not change the decision |
| Linear.AugmentVector | crawsiz/machine/linear.py:65-67 | the query vector gains a leading 1.0 and is otherwise unchanged |
| Linear.Augment | crawsiz/machine/classifier.py:258-266 | the design matrix keeps its row count, each row gains a leading 1.0, and the matrix stays rectangular |
| Linear.InterceptAdded | crawsiz/machine/classifier.py:294-299 | the augmented dot product is the intercept row plus the plain dot product |
| Linear.Classification | crawsiz/machine/linear.py:70 | `np.dot(vector, coefficients)` has one value per coefficient column, the j-th being the vector's dot product with column j |
| Linear.Predict | crawsiz/machine/classifier.py:283-303 | a prediction needs one coefficient row per augmented entry; a single column gives ±1 by the sign of intercept plus dot product, more columns give the first arg-max |
| Linear.Predictions | crawsiz/machine/accuracy.py:43-55 | one prediction per feature vector, in order, and defined iff every single prediction is |
| Linear.BinaryPredictions | crawsiz/machine/accuracy.py:43-55 | with one coefficient column, every prediction is -1 or 1 |
| Bayes.Probability | crawsiz/machine/classifier.py:228-231 | each posterior times the two-class sum is its likelihood; an IndexError for fewer than two classes, a ZeroDivisionError on a zero sum |
| Bayes.Share | crawsiz/machine/classifier.py:231 | a share times its positive denominator is its numerator, and lies in [0, 1] for a numerator in [0, denominator] |
| Bayes.ProbabilityNormalises | crawsiz/machine/classifier.py:228-231 | for non-negative likelihoods with a positive sum, the posteriors lie in [0, 1], sum to 1 and keep the likelihoods' order |
| Bayes.Decide | crawsiz/machine/classifier.py:169-185 | no decision iff the sum is 0 or the two are equal; otherwise the strictly likelier class |
| Bayes.DecideSymmetric | crawsiz/machine/classifier2d.py:172-180 | swapping the two classes with their probabilities gives the same decision |
| Bayes.Classify | crawsiz/machine/classifier.py:152-185 | a decision exists iff normalisation succeeds, and it is always one of the two classes |
| Bayes.ClassifyPicksLikelier | crawsiz/machine/classifier.py:170-182 | the likelier class is chosen, and there is no decision exactly on a tie |
| Bayes.GetData | crawsiz/machine/classifier2d.py:254-258 | one `(class, row)` pair per class entry, in order; an IndexError when there are fewer rows than classes |
| Tally.Count | crawsiz/machine/classifier.py:110-133 | after the counting loop only classes are keys, every class with a correct tally also has a count, and the key order lists exactly the counted classes |
| Tally.Begin | crawsiz/machine/classifier.py:135-137 | the second loop starts from the counting tallies with zero `None` entries added to both, no accuracies, and a count for every class in the key order |
| Tally.ClassPass | crawsiz/machine/classifier.py:138-144 | the loop over the classes raises KeyError exactly when some class with definitive predictions was never hit |
| Tally.Visit | crawsiz/machine/classifier.py:138-144 | the loop over all keys, `None` last, succeeds exactly when every class was hit, and keeps both `None` entries |
| Tally.VisitTotals | crawsiz/machine/classifier.py:138-144 | when every class was hit, the loop ends with the `None` count at twice the definitive total |
| Tally.Accuracy | crawsiz/machine/classifier.py:94-150 | `accuracy` succeeds iff every class was hit and some prediction was definitive, is a KeyError or ZeroDivisionError otherwise, and always holds the overall `None` entry |
| Tally.CountMeaning | crawsiz/machine/classifier.py:116-133 | after the loop, each class's count is its number of definitive predictions and its correct tally the number that hit; classes appear only when non-zero, and `None` never |
| Tally.AbstentionsIgnored | crawsiz/machine/classifier.py:120-121 | a `None` prediction changes neither tally |
| Tally.CountTotals | crawsiz/machine/classifier.py:110-133 | the tallies summed over the visited classes are the overall definitive and hit counts |
| Tally.Scaled | crawsiz/machine/classifier2d.py:138 | `scale * hits / total` lies in [0, scale] when hits <= total |
| Tally.Step | crawsiz/machine/classifier.py:138-144 | one pass of the accuracy loop fails with KeyError iff the class has no correct tally, and keeps both tallies' keys |
| Tally.Loop | crawsiz/machine/classifier.py:136-144 | the accuracy loop succeeds iff every visited class has a correct tally |
| Tally.LoopCorrect | crawsiz/machine/classifier.py:141-143 | the loop adds every visited class's correct tally onto the `None` key |
| Tally.LoopCount | crawsiz/machine/classifier.py:142-144 | the loop adds every visited class's count onto the `None` key |
| Tally.LoopAccuracies | crawsiz/machine/classifier.py:138-140 | the loop records `scale * correct / count` for every visited class with a non-zero count and leaves other entries alone |
| Tally.LoopAppend | crawsiz/machine/classifier.py:138-144 | looping over two key lists in turn is looping over their concatenation |
| Tally.ClassesHit | crawsiz/machine/classifier.py:124-143 | every visited class has a correct tally iff every class with a definitive prediction was hit at least once |
| Tally.VisitSplit | crawsiz/machine/classifier.py:136-144 | the loop visits the classes first and the `None` key last |
| Tally.NoneKeyDoubled | crawsiz/machine/classifier.py:136-144 | revisiting the `None` key doubles both totals |
| Tally.ScaledDouble | crawsiz/machine/classifier.py:147 | doubling both totals leaves the overall ratio unchanged |
| Tally.AccuracyMeaning | crawsiz/machine/classifier.py:94-150 | accuracy is a KeyError if a class was never hit, a ZeroDivisionError with no definitive prediction; otherwise per-class and overall hits/definitive, scaled |
| Tally.AccuracyOutcome | crawsiz/machine/classifier.py:140-147 | the accuracy succeeds iff every class was hit and some prediction was definitive |
| Tally.AccuracyOverall | crawsiz/machine/classifier.py:147 | the `None` entry is the overall share of hits among definitive predictions |
| Tally.AccuracyClasses | crawsiz/machine/classifier.py:138-140 | a class has an entry iff it has definitive predictions, and the entry is its share of hits |
| Tally.AccuracyBounds | crawsiz/machine/classifier2d.py:136-145 | every accuracy lies in [0, scale]: [0, 1] for the fraction variant, [0, 100] for the percent variant |
| Facets.Divide | crawsiz/machine/accuracy.py:71 | integer-array division is finite iff the divisor is positive, NaN for 0/0, and in [0, 1] when the numerator is at most the divisor |
| Facets.Labels | crawsiz/machine/accuracy.py:58-59 | the matrix labels are increasing and are exactly the values occurring in the truth or the predictions |
| Facets.LabelsUnique | crawsiz/machine/accuracy.py:58-59 | any increasing list of exactly the occurring values is the label list |
| Facets.AddLabel | crawsiz/machine/accuracy.py:58-59 | adding one value to an increasing label list keeps it increasing and adds exactly that value |
| Facets.Confusion | crawsiz/machine/accuracy.py:58-59 | the matrix is square with one row and column per label, entry (i, j) counting positions with true label i and predicted label j |
| Facets.ConfusionSums | crawsiz/machine/accuracy.py:58-59 | column j sums to the number of predictions of label j, and the whole matrix to the number of positions |
| Facets.LowerFacet | crawsiz/machine/accuracy.py:61-72 | an IndexError with fewer than two labels; otherwise `m[1][1]` over the last column's sum, finite iff that sum is positive, and in [0, 1] for two labels |
| Facets.HigherFacet | crawsiz/machine/accuracy.py:74-85 | an IndexError only for the empty matrix; otherwise `m[0][0]` over the first column's sum, finite iff that sum is positive, and in [0, 1] |
| Facets.OverallFacet | crawsiz/machine/accuracy.py:87-99 | an IndexError with fewer than two labels; otherwise the two diagonal entries over the total, finite iff the total is positive, and in [0, 1] for two labels |
| Facets.Assess | crawsiz/machine/accuracy.py:57-59 | both matrices are square, sized by the labels of their own series |
| Facets.FacetsMeaning | crawsiz/machine/accuracy.py:57-99 | in terms of the series: lower and overall fail iff fewer than two labels occur, higher iff the series are empty; the values are diagonal counts over prediction counts and over the number of positions |
| Facets.BinaryFacets | crawsiz/machine/accuracy.py:57-99 | with ±1 series in which both classes occur: lower is the share of correct 1-predictions, higher of correct -1-predictions, overall the share of matches |
| Facets.TwoLabelFacets | crawsiz/machine/accuracy.py:57-99 | when the labels are exactly -1 and 1, the three facets in terms of the diagonal counts and the prediction counts |
| Facets.OneLabelFacets | crawsiz/machine/accuracy.py:57-99 | when one class is all there is, lower and overall raise IndexError and higher is 1 |
| Facets.OverallBetween | crawsiz/machine/accuracy.py:61-99 | on a 2x2 matrix with non-empty columns the overall facet, a mediant, lies between the two column facets |
| Facets.DivideMediant | crawsiz/machine/accuracy.py:61-99 | the mediant of two positive-denominator ratios lies between them |
| Facets.Lookup | crawsiz/machine/accuracy.py:194 | a dictionary lookup is the stored value, or a KeyError for a missing key |
| Facets.SeriesFacets | crawsiz/machine/accuracy.py:184-221 | the overall lookup is the hit share; a class lookup succeeds iff the class has definitive predictions, and is then its hit share |
| Facets.BayesianFacetsMeaning | crawsiz/machine/accuracy.py:184-259 | lower = `acc[-1]`, higher = `acc[1]`, overall = `acc[None]`, each the hit share of its class, for highs and lows alike |
| Ingest.Basename | crawsiz/main/ingest.py:63 | the basename is the suffix of the path after its last `/` |
| Ingest.NameMatch | crawsiz/main/ingest.py:64-65 | a name matches `^([A-Z]{6})1440.csv$` iff it is six capitals, `1440`, any character and `csv`, optionally followed by one newline; the group is the six capitals |
| Ingest.Pair | crawsiz/main/ingest.py:47-93 | the pair is the upper-cased matched group, equal to the file's six leading capitals, when the name matches and the pair is configured, and None otherwise |
| Ingest.PairFromConfig | crawsiz/main/ingest.py:79-80 | with a configuration whose pair list loads, a matching name yields a pair iff `valid_pair` accepts its upper-cased group; a non-matching name yields none |
| Ingest.Valid | crawsiz/main/ingest.py:95-131 | a file is valid iff its pair is known and the path exists and is a file |
| Ingest.Open | crawsiz/main/ingest.py:147-169 | opening an invalid file terminates; a valid one yields its pair |
| Ingest.Kept | crawsiz/main/ingest.py:203-226 | the filter never yields more rows than the file holds |
| Ingest.KeptAppend | crawsiz/main/ingest.py:198-238 | filtering two row blocks in turn gives the filter of the concatenation, in file order |
| Ingest.KeptMembers | crawsiz/main/ingest.py:203-226 | a row is kept iff its time ends in `:00`, its timestamp is after the last update and on a UTC day boundary |
| Ingest.Newest | crawsiz/main/ingest.py:184-241 | the running maximum bounds every timestamp, and is 0 or one of them |
| Ingest.Scan | crawsiz/main/ingest.py:183-241 | the loop's datapoints are exactly the kept rows in file order, and its max timestamp is their newest timestamp |
| Ingest.ScanStep | crawsiz/main/ingest.py:203-241 | one loop step appends the row and updates the maximum iff the row is kept |
| Ingest.NewestIsStored | crawsiz/main/ingest.py:243-254 | when some row is kept, the recorded last timestamp is the timestamp of a stored row |
| Ingest.LastUpdated | crawsiz/main/ingest.py:272-282 | the last update time of a new pair is 0 |
| Ingest.AfterIngest | crawsiz/main/ingest.py:243-254 | the last timestamp changes only when some row was kept, and then becomes the newest kept timestamp, never earlier than before |
| Ingest.ReingestStoresNothing | crawsiz/main/ingest.py:220-254 | ingesting the same file again stores no row |
| Config.Lookup | crawsiz/utils/configuration.py:320-323 | an absent first key gives None; a mapping at the first level always answers; a non-null answer is the entry under both keys; anything else at the first level can only fail with TypeError |
| Config.KeySubKey | crawsiz/utils/configuration.py:304-332 | the value of `config[key][sub_key]` when both levels exist; otherwise termination with `die`, else None |
| Config.DieOnlyOnNone | crawsiz/utils/configuration.py:326-329 | `die` changes the outcome only when the result would be None |
| Config.PySorted | crawsiz/utils/configuration.py:67 | `sorted()` yields an ordered permutation of a list of booleans, integers or strings (one kind), and a TypeError for lists mixing kinds |
| Config.SortedIsTheOrderedPermutation | crawsiz/utils/configuration.py:67 | any ordered permutation of the input is what `sorted()` returns |
| Config.UpperChar | crawsiz/utils/configuration.py:70 | upper-casing maps a lowercase ASCII letter to its capital and leaves other characters alone |
| Config.UpperStr | crawsiz/utils/configuration.py:70 | `str.upper` upper-cases each character in place |
| Config.UpperIdempotent | crawsiz/utils/configuration.py:70 | upper-casing twice changes nothing more |
| Config.UpperEach | crawsiz/utils/configuration.py:69-70 | upper-casing a list succeeds iff every element is a string, else an AttributeError |
| Config.Pairs | crawsiz/utils/configuration.py:48-73 | a missing or null `ingest:pairs` terminates, and a non-list value is a TypeError |
| Config.PairsMeaning | crawsiz/utils/configuration.py:48-73 | the pairs are the configured names, sorted first and then upper-cased |
| Config.PairsOrderCounterexample | crawsiz/utils/configuration.py:64-70 | for the names `B` and `a`, the result `["B", "A"]` is out of order |
| Config.PairsOrderedWhenUpper | crawsiz/utils/configuration.py:64-70 | when the configured names are already upper case, the pairs are in order |
| Config.ValidPair | crawsiz/utils/configuration.py:75-95 | `valid_pair` fails exactly when `pairs` fails |
| Config.ValidPairMeaning | crawsiz/utils/configuration.py:88-93 | for a configured list of strings, the check succeeds and a pair is valid iff it equals the upper-cased form of some configured name |
| Config.Timeframes | crawsiz/utils/configuration.py:97-119 | the timeframes succeed exactly when the entry is readable and, if a list, sortable; the result is a sorted permutation of the configured list, or None for a non-list value |
| Counter.Clamp | crawsiz/db/db_data.py:64-66 | after the clamp, start <= stop, and start changes only if it was after stop |
| Counter.ClampIdempotent | crawsiz/db/db_data.py:64-66 | clamping twice changes nothing more |
| Counter.Range | crawsiz/db/db_data.py:135-139 | `range(lo, hi, 300)` has ceil((hi-lo)/300) entries, the k-th being `lo + 300k` |
| Counter.RangeMembers | crawsiz/db/db_data.py:135-139 | t is in the range iff `lo <= t < hi` and t is on the 300-second grid from lo |
| Counter.Grid | crawsiz/db/db_data.py:134-139 | the zero-filled grid runs from its first point to `stop` in steps of 300 |
| Counter.GridSpan | crawsiz/db/db_data.py:134-139 | the gauge grid has both ends; the counter grid is the same grid without `start` |
| Counter.Wrap | crawsiz/db/db_data.py:171-175 | the wrap is 2^32 for base type 32 and 2^64 otherwise |
| Counter.Rate | crawsiz/db/db_data.py:164-176 | a non-negative delta gives delta/300; a negative one gives `(wrap + abs(value) - 1)/300`; never negative |
| Counter.Next | crawsiz/db/db_data.py:142-182 | one loop pass makes the sample the previous one and writes at most its own timestamp; a gauge writes its value there |
| Counter.Run | crawsiz/db/db_data.py:142-182 | the loop keeps every entry it started with and ends with the last sample as the previous one |
| Counter.Convert | crawsiz/db/db_data.py:117-185 | `_counter` keeps every point of the zero-filled grid as a key |
| Counter.CounterLoop | crawsiz/db/db_data.py:117-185 | the loop computes the fold over the samples in time order |
| Counter.RunWrites | crawsiz/db/db_data.py:142-182 | every sample that writes leaves its value at its timestamp |
| Counter.RunKeys | crawsiz/db/db_data.py:142-182 | the output keys are the grid's keys plus the timestamps of writing samples |
| Counter.RunUntouched | crawsiz/db/db_data.py:142-182 | a grid point no sample writes keeps its initial value |
| Counter.NextKeeps | crawsiz/db/db_data.py:164-182 | one sample changes no other timestamp's entry |
| Counter.ConvertMeaning | crawsiz/db/db_data.py:117-185 | the output holds the grid and every written sample's rate; unwritten grid points stay 0 |
| Counter.CounterSkips | crawsiz/db/db_data.py:144-159 | for a counter, the first sample and any sample more than 300 after its predecessor write nothing |
| Counter.GaugeCopies | crawsiz/db/db_data.py:177-179 | for a gauge, every sample is copied verbatim |
| Counter.SortedKeys | crawsiz/db/db_data.py:201 | `sorted(values)` lists every key once, in increasing order |
| Counter.Chart | crawsiz/db/db_data.py:187-204 | one point per key, in increasing time, each holding the key's value and the agent label |
| Counter.ChartCovers | crawsiz/db/db_data.py:201-203 | every key of the input appears as a chart point |
| PyStr.Replace | crawsiz/main/report.py:455-456 | `str.replace` with a non-empty pattern, scanning left to right without overlap |
| PyStr.Split | crawsiz/main/report.py:520 | `s.split(c)` gives at least one piece, none containing the separator |
| PyStr.JoinSplit | crawsiz/main/report.py:519-520 | joining the pieces of a split restores the string |
| PyStr.SplitJoin | crawsiz/main/report.py:519-520 | splitting a join of separator-free pieces gives the pieces back |
| PyStr.WordLen | crawsiz/main/report.py:517 | the front run of non-space characters ends at the first whitespace |
| PyStr.Words | crawsiz/main/report.py:517 | `s.split()` yields non-empty pieces without whitespace |
| PyStr.WordsJoin | crawsiz/main/report.py:517 | splitting a single-space join of words gives the words back |
| PyStr.CollapseClean | crawsiz/main/report.py:517 | `' '.join(s.split())` has no whitespace but single spaces between words, and none at either end, and splits into the same words as the input |
| PyStr.WordsConcat | crawsiz/main/report.py:517 | the words of `s.split()`, run together, are exactly the non-whitespace characters of s in order |
| PyStr.WordsSplitAt | crawsiz/main/report.py:517 | any whitespace character cuts s: the words are those before it followed by those after it |
| PyStr.WordsOfSingle | crawsiz/main/report.py:517 | a string with no whitespace splits into itself alone, or into nothing when empty |
| PyStr.CollapseIdempotent | crawsiz/main/report.py:517 | collapsing whitespace twice changes nothing more |
| Sorting.Insert | crawsiz/utils/configuration.py:67 | insertion adds exactly one copy of the element |
| Sorting.Sort | crawsiz/utils/configuration.py:67 | sorting permutes its input |
| Sorting.SortShort | crawsiz/utils/configuration.py:67 | a list of at most one element is returned unchanged, with no comparison |
| Sorting.InsertOrdered | crawsiz/utils/configuration.py:67 | inserting into an ordered list under a total, transitive order keeps it ordered |
| Sorting.SortOrdered | crawsiz/main/report.py:398 | under a total, transitive order, the result is ordered |
| Sorting.OrderedUnique | crawsiz/main/report.py:398 | under an antisymmetric order, two ordered permutations of one list are equal |
| Report.Text | crawsiz/main/report.py:442-457 | `_text` wraps the line-broken, space-replaced text in the courier paragraph, and the result has no two consecutive spaces |
| Report.ReplaceNoDouble | crawsiz/main/report.py:456 | replacing double spaces leaves no two consecutive spaces |
| Report.BreaksRoundTrip | crawsiz/main/report.py:455 | replacing every `<br>\n` by `\n` undoes the line-break step |
| Report.BreaksNewlines | crawsiz/main/report.py:455 | after the line-break step, every newline follows a `<br>` |
| Report.Paint | crawsiz/main/report.py:487-503 | one colour per row |
| Report.PaintMeaning | crawsiz/main/report.py:493-503 | a row keeps the previous colour iff highlighting is on and its first cell repeats the previous one; otherwise the colour flips |
| Report.ColoursMeaning | crawsiz/main/report.py:476-503 | the first row is `#EEEEFF`, and each later row keeps or flips the colour by the duplicate rule |
| Report.ColoursAlternate | crawsiz/main/report.py:495-503 | without highlighting, colours alternate from `#EEEEFF` |
| Report.RawTable | crawsiz/main/report.py:479-512 | the raw table begins with the header row and ends with the closing table tag |
| Report.Firsts | crawsiz/main/report.py:494 | the first cell of every row |
| Report.HtmlTable | crawsiz/main/report.py:460-523 | the table is the collapsed header-and-rows HTML; it is clean and has no newline; an empty row is an IndexError |
| Report.WindowRange | crawsiz/main/report.py:265-268 | the window `list[-days-1:-1]` ends just before the newest entry and starts `days` entries earlier, or at 0 |
| Report.Pick | crawsiz/main/report.py:269 | the extreme is an element of the window and beats every element |
| Report.Historical | crawsiz/main/report.py:265-271 | the extreme fails with a ValueError exactly when the window is empty, and otherwise fails only with an IndexError |
| Report.HistoricalExists | crawsiz/main/report.py:265-271 | the historical extreme exists iff there are at least two entries |
| Report.HistoricalPosition | crawsiz/main/report.py:267-271 | the extreme is the window's max (or min) at its first occurrence, with that entry's timestamp |
| Report.HistoricalWidens | crawsiz/main/report.py:265-269 | a longer window gives a value at least as extreme |
| Report.Collect | crawsiz/main/report.py:265-276 | the columns exist iff every period's value does, one per period, in order |
| Report.HistoricalColumns | crawsiz/main/report.py:264-276 | the four columns exist iff each period's extreme does, and then hold those extremes for 60, 120, 180 and 240 days in order |
| Report.HistoricalColumnsExist | crawsiz/main/report.py:264-276 | the four columns exist iff there are at least two entries |
| Report.HistoricalColumnsOrdered | crawsiz/main/report.py:264-276 | the 60, 120, 180 and 240-day extremes are each at least as extreme as the one before |
| Report.Direction | crawsiz/main/report.py:365-382 | the caption ends with the extreme's name and starts with "Higher" iff the stored prediction is > 0 |
| Report.DirectionRises | crawsiz/main/report.py:365-382 | a stored prediction maps to "Higher ..." iff it is > 0 |
| Report.PredictionRow | crawsiz/main/report.py:361-395 | each row is the time string and four captions, each "Higher" iff its stored prediction is > 0 |
| Report.RowLeTotal | crawsiz/main/report.py:398 | tuple comparison is total |
| Report.RowLeTrans | crawsiz/main/report.py:398 | tuple comparison is transitive |
| Report.RowLeAntisym | crawsiz/main/report.py:398 | tuple comparison is antisymmetric |
| Report.DescendingOrder | crawsiz/main/report.py:398 | the reversed comparison is total, transitive and antisymmetric |
| Report.SortedRows | crawsiz/main/report.py:398 | `sorted(rows, reverse=True)` is a descending permutation of the rows |
| Report.SortedRowsUnique | crawsiz/main/report.py:398 | any descending permutation of the rows is that result |
| Report.PredictionRows | crawsiz/main/report.py:361-395 | one row per stored prediction, in order |
| Report.HistoricalPredictions | crawsiz/main/report.py:330-402 | the section is its title followed by the table of rows sorted in descending order |
| Report.FacetKey | crawsiz/main/report.py:114-129 | a guess of exactly -1 selects the lower facet, anything else (None included) the higher |
| Report.BayesianLine | crawsiz/main/report.py:110-138 | a line shows the selected facet times 100 with its caption, and is a KeyError when the facet is missing |
| Report.BayesianLines | crawsiz/main/report.py:94-142 | the high and low lines show the facet the guess selects, as a percentage |
| Report.Percent | crawsiz/main/report.py:168 | a finite facet is scaled by 100, and NaN or infinity passes through |
| Report.LinearLine | crawsiz/main/report.py:163-172 | a line shows the facet as a percentage with its caption, and fails with the facet's own exception |
| Report.LinearLines | crawsiz/main/report.py:144-192 | the high and low lines show the facet the guess selects, as a percentage; they fail with IndexError exactly when the selected facet's matrix has too few labels: fewer than two for a lower facet, none for a higher one |

## Left out

- Numerical linear algebra: the pseudo-inverse fit, the Gaussian densities (`inv`, `det`, `exp`, `sqrt`) and the PCA projections. Fitted coefficients, likelihoods and projections are inputs to the model.
- sklearn's own code is not part of this model. `confusion_matrix` is modelled from its documented behaviour: one row and column per label occurring in either series, in increasing order. Its input checks are left out; an empty pair of series gives the empty matrix here.
- The conversion of a binary float to `Decimal` and back, in the psychological levels. Prices are exact reals and quantisation is exact.
- Floating point in general: there is no rounding, NaN or infinity, except the NaN/infinity outcome of numpy integer-array division in the facets.
- The database layer, the query in `GetIDX.__init__`, `feature.getdata`, `process` and `_update_db_predictions`. The price history and the stored predictions are inputs.
- File and process I/O: CSV parsing, `os.path` checks, archiving, YAML loading, logging, the command line and the multiprocessing pool. Logging and dying is the `Exit` fault. Path existence, file kind, parsed CSV rows and the stored last-update time are inputs.
- `utc_timestamp`, `utc_timestring` and `normalized_timestamp` are not part of this model. Parsed timestamps and time strings are inputs.
- `machine/prediction.py`, a dispatcher over PCA and the classifiers, is not part of this model.
- The `Extract` accessors (`fxdata`, `lookahead`, `idx_pair`, `timestamps`, `classes_*`, `vectors`) only return the fields that `Extract.Build` fills.
- The report's `summary`, `performance` and `html` methods, the `<h2>` wrappers and the `%-12s: %.2f%%` formatting: fixed format strings around the modelled values.
- Report.HtmlTable: does not state that exactly one `<tr` is emitted per row. Its contract gives the table's structure and cleanliness instead.
- Config.UpperChar: models `str.upper` on ASCII letters only. Other scripts' case mappings are out of scope.
- Config.PySorted: two lists Python can sort are a TypeError here: a list of lists (Python compares them lexicographically) and a list mixing integers with booleans (Python compares True as 1). A YAML list of timeframes or pairs is a flat list of scalars, so neither arises in a sane configuration.
- PyStr.Replace: requires a non-empty pattern, which every call site passes.
- Counter.Chart: is a ghost function, because listing the keys in order picks set minima with `:|`; it specifies the chart rather than computing it.
- Tally.Scaled: `scale * (hits / total)` is exact, so the floating-point difference between `100 * (a / b)` and `100 * a / b` is not modelled.
- Stale cross-references elsewhere in the repository (`report.Data`, `prediction.BlackBox`, `Config.lookahead`, `from machine import pca`, `Feature.high_class`) are outside the modelled functions.

=== FILE: arith.dfy ===
/** Facts about exact (real) division that the ratio features rely on. Each
    is kept small so that the solver sees one non-linear step at a time.
 */
module Arith {

  lemma DivMono(a: real, b: real, c: real)
    requires c > 0.0
    ensures a <= b ==> a / c <= b / c
    ensures a < b ==> a / c < b / c
    ensures 0.0 <= a ==> 0.0 <= a / c
    ensures a <= 0.0 ==> a / c <= 0.0
  {
  }

  lemma DivSelf(c: real)
    requires c != 0.0
    ensures c / c == 1.0
  {
  }

  /** The quotient of a sum lies between the bounds it was scaled from. */
  lemma MeanBounds(total: real, n: real, lo: real, hi: real)
    requires n > 0.0 && n * lo <= total <= n * hi
    ensures lo <= total / n <= hi
  {
    assert total / n * n == total;
  }

  /** Splitting (a - b) / c into a / c - b / c. */
  lemma DivSub(a: real, b: real, c: real)
    requires c != 0.0
    ensures (a - b) / c == a / c - b / c
  {
  }

  lemma DivAdd(a: real, b: real, c: real)
    requires c != 0.0
    ensures (a + b) / c == a / c + b / c
  {
  }

  /** Dividing and multiplying back by a non-zero divisor is the identity. */
  lemma DivCancel(a: real, c: real)
    requires c != 0.0
    ensures a / c * c == a && c / c == 1.0
  {
  }

  lemma DivNeg(a: real, c: real)
    requires c != 0.0
    ensures -a / c == -(a / c)
  {
  }

  /** Over a positive divisor the quotient has the sign of the dividend. */
  lemma DivSign(a: real, c: real)
    requires c > 0.0
    ensures a / c > 0.0 <==> a > 0.0
  {
    DivMono(a, 0.0, c);
    DivMono(0.0, a, c);
  }

  lemma DivTimes(a: real, c: real)
    requires c != 0.0
    ensures a / c * c == a
  {
  }
}

=== FILE: bayes.dfy ===
/** The discrete rules of the two-class Gaussian Bayesian classifier (class
    `Bayesian` of the `classifier` and `classifier2d` modules). The Gaussian
    likelihoods themselves (inverse, determinant, exponential of the class
    covariance) are inputs here: one non-negative number per class.
 */
module Bayes {
  import opened Wrappers
  import opened Arith

  /** The normalisation of `probability`: every class likelihood over the sum
      of the likelihoods of the first two classes. Fewer than two classes is
      an IndexError; a zero sum is a ZeroDivisionError. */
  function Probability(likelihoods: seq<real>): (r: Result<seq<real>>)
    ensures |likelihoods| < 2 ==> r == Err(IndexError)
    ensures |likelihoods| >= 2 && likelihoods[0] + likelihoods[1] == 0.0 ==> r == Err(ZeroDivisionError)
    ensures r.Ok? <==> |likelihoods| >= 2 && likelihoods[0] + likelihoods[1] != 0.0
    ensures r.Ok? ==> |r.value| == |likelihoods|
    ensures r.Ok? ==> forall k :: 0 <= k < |likelihoods| ==>
      r.value[k] * (likelihoods[0] + likelihoods[1]) == likelihoods[k]
  {
    if |likelihoods| < 2 then Err(IndexError)
    else
      var denominator := likelihoods[0] + likelihoods[1];
      if denominator == 0.0 then Err(ZeroDivisionError)
      else Ok(seq(|likelihoods|, k requires 0 <= k < |likelihoods| => Share(likelihoods[k], denominator)))
  }

  /** One likelihood as a share of the denominator. */
  function Share(x: real, denominator: real): (r: real)
    requires denominator != 0.0
    ensures r * denominator == x
    ensures denominator > 0.0 ==> (0.0 <= x <==> 0.0 <= r)
    ensures denominator > 0.0 && 0.0 <= x <= denominator ==> r <= 1.0
  {
    DivTimes(x, denominator);
    if denominator > 0.0 then
      DivMono(0.0, x, denominator);
      DivMono(x, 0.0, denominator);
      DivMono(x, denominator, denominator);
      DivSelf(denominator);
      x / denominator
    else x / denominator
  }

  /** For non-negative likelihoods with a positive sum the first two
      probabilities lie in [0, 1] and sum to one, and normalising keeps the
      order of any two classes. */
  lemma ProbabilityNormalises(likelihoods: seq<real>)
    requires |likelihoods| >= 2
    requires forall k :: 0 <= k < |likelihoods| ==> 0.0 <= likelihoods[k]
    requires likelihoods[0] + likelihoods[1] > 0.0
    ensures Probability(likelihoods).Ok?
    ensures
      var p := Probability(likelihoods).value;
      && 0.0 <= p[0] <= 1.0 && 0.0 <= p[1] <= 1.0 && p[0] + p[1] == 1.0
      && forall j, k :: 0 <= j < |p| && 0 <= k < |p| ==> (p[j] <= p[k] <==> likelihoods[j] <= likelihoods[k])
  {
    var p := Probability(likelihoods).value;
    var s := likelihoods[0] + likelihoods[1];
    DivAdd(likelihoods[0], likelihoods[1], s);
    DivSelf(s);
    forall j, k | 0 <= j < |p| && 0 <= k < |p|
      ensures p[j] <= p[k] <==> likelihoods[j] <= likelihoods[k]
    {
      DivMono(likelihoods[j], likelihoods[k], s);
      DivMono(likelihoods[k], likelihoods[j], s);
    }
  }

  /** The decision of `classifier` on the probabilities of the first two
      classes: no decision when they sum to zero or tie, otherwise the class
      with the strictly larger probability. */
  function Decide(c0: int, c1: int, p0: real, p1: real): (r: Option<int>)
    ensures r.None? <==> p0 + p1 == 0.0 || p0 == p1
    ensures r.Some? ==> (r.value == c0 && p0 > p1) || (r.value == c1 && p0 < p1)
  {
    if p0 + p1 == 0.0 then None
    else if p0 > p1 then Some(c0)
    else if p0 < p1 then Some(c1)
    else None
  }

  /** The decision does not depend on which of the two classes is listed
      first. */
  lemma DecideSymmetric(c0: int, c1: int, p0: real, p1: real)
    ensures Decide(c0, c1, p0, p1) == Decide(c1, c0, p1, p0)
  {
  }

  /** `classifier`: normalise, then decide between `classes[0]` and
      `classes[1]`. */
  function Classify(classes: seq<int>, likelihoods: seq<real>): (r: Result<Option<int>>)
    requires |likelihoods| == |classes|
    ensures r.Ok? <==> Probability(likelihoods).Ok?
    ensures r.Err? ==> r == Err(Probability(likelihoods).fault)
    ensures r.Ok? && r.value.Some? ==> r.value.value == classes[0] || r.value.value == classes[1]
  {
    var p :- Probability(likelihoods);
    Ok(Decide(classes[0], classes[1], p[0], p[1]))
  }

  /** On non-negative likelihoods with a positive sum the classifier picks the
      class with the strictly larger likelihood and abstains exactly on a tie;
      the zero-sum branch of the decision is never taken after normalising. */
  lemma ClassifyPicksLikelier(classes: seq<int>, likelihoods: seq<real>)
    requires |likelihoods| == |classes| >= 2
    requires forall k :: 0 <= k < |likelihoods| ==> 0.0 <= likelihoods[k]
    requires likelihoods[0] + likelihoods[1] > 0.0
    ensures Classify(classes, likelihoods).Ok?
    ensures likelihoods[0] > likelihoods[1] ==> Classify(classes, likelihoods) == Ok(Some(classes[0]))
    ensures likelihoods[0] < likelihoods[1] ==> Classify(classes, likelihoods) == Ok(Some(classes[1]))
    ensures likelihoods[0] == likelihoods[1] <==> Classify(classes, likelihoods) == Ok(None)
  {
    ProbabilityNormalises(likelihoods);
  }

  /** `_get_data`: one (class, principal-component row) pair per principal
      class, in order; a missing row is an IndexError. */
  function GetData(classes: seq<int>, components: seq<seq<real>>): (r: Result<seq<(int, seq<real>)>>)
    ensures r.Ok? <==> |classes| <= |components|
    ensures r.Err? ==> r.fault == IndexError
    ensures r.Ok? ==> |r.value| == |classes|
    ensures r.Ok? ==> forall k :: 0 <= k < |classes| ==> r.value[k] == (classes[k], components[k])
  {
    if |classes| <= |components| then
      Ok(seq(|classes|, k requires 0 <= k < |classes| => (classes[k], components[k])))
    else Err(IndexError)
  }
}

=== FILE: config.dfy ===
/** The configuration lookups of `crawsiz.utils.configuration`: the
    two-level `_key_sub_key` over the parsed YAML document, and the three
    readers built on it that the ingest uses, `Config.pairs`,
    `Config.valid_pair` and `Config.timeframes`. Loading the YAML files is
    outside the model: the parsed document is the input.
 */
module Config {
  import opened Wrappers
  import Sorting

  /** A parsed YAML value. */
  datatype Value =
    | Null
    | Bool(truth: bool)
    | Int(number: int)
    | Str(text: string)
    | List(items: seq<Value>)
    | Dict(entries: map<string, Value>)

  /** The top-level mapping returned by the YAML reader. */
  type Document = map<string, Value>

  // ---------------------------------------------------------------------
  // _key_sub_key
  // ---------------------------------------------------------------------

  /** Python's `p in s` on two strings: p occurs somewhere in s. */
  predicate Substring(p: string, s: string)
  {
    p <= s || (|s| > 0 && Substring(p, s[1..]))
  }

  /** `sub_key in config_dict[key]` and then `config_dict[key][sub_key]`:
      a mapping answers by its keys, a list and a string answer the
      membership test but cannot be indexed by a string, and the other
      values do not support `in` at all. A missing entry is `Null`, as
      Python's `result = None` is. */
  function Lookup(key: string, subKey: string, config: Document): (r: Result<Value>)
    ensures key !in config ==> r == Ok(Null)
    ensures key in config && config[key].Dict? ==> r.Ok?
    ensures r.Err? ==> r.fault == TypeError && key in config && !config[key].Dict?
    ensures r.Ok? && r.value != Null ==>
      key in config && config[key].Dict? && subKey in config[key].entries && r.value == config[key].entries[subKey]
  {
    if key !in config then Ok(Null)
    else
      match config[key]
      case Dict(m) => Ok(if subKey in m then m[subKey] else Null)
      case List(xs) => if Str(subKey) in xs then Err(TypeError) else Ok(Null)
      case Str(s) => if Substring(subKey, s) then Err(TypeError) else Ok(Null)
      case _ => Err(TypeError)
  }

  /** The entry is configured: both levels exist and the value is not null. */
  predicate Configured(key: string, subKey: string, config: Document)
  {
    key in config && config[key].Dict? && subKey in config[key].entries
    && config[key].entries[subKey] != Null
  }

  /** The first level holds something that the membership test or the
      subscript rejects. */
  predicate Clash(key: string, subKey: string, config: Document)
  {
    key in config &&
    match config[key]
    case Dict(_) => false
    case List(xs) => Str(subKey) in xs
    case Str(s) => Substring(subKey, s)
    case _ => true
  }

  /** `_key_sub_key`: the configured value, or None; with `die` a None
      result, whether the entry is missing or explicitly null, ends the
      program. */
  function KeySubKey(key: string, subKey: string, config: Document, die: bool): (r: Result<Value>)
    ensures Configured(key, subKey, config) ==> r == Ok(config[key].entries[subKey])
    ensures r == Err(TypeError) <==> Clash(key, subKey, config)
    ensures !Configured(key, subKey, config) && !Clash(key, subKey, config) ==>
      r == if die then Err(Exit) else Ok(Null)
    ensures r.Ok? && die ==> r.value != Null
  {
    var result :- Lookup(key, subKey, config);
    if result == Null && die then Err(Exit) else Ok(result)
  }

  /** The two modes differ only on a None result: where the lenient lookup
      yields a value the fatal one yields the same, and where it yields
      None the fatal one ends the program. */
  lemma DieOnlyOnNone(key: string, subKey: string, config: Document)
    ensures KeySubKey(key, subKey, config, false).Ok? <==> KeySubKey(key, subKey, config, true) != Err(TypeError)
    ensures KeySubKey(key, subKey, config, false) == Ok(Null) <==> KeySubKey(key, subKey, config, true) == Err(Exit)
    ensures forall v :: v != Null ==>
      (KeySubKey(key, subKey, config, false) == Ok(v) <==> KeySubKey(key, subKey, config, true) == Ok(v))
  {
  }

  // ---------------------------------------------------------------------
  // sorted()
  // ---------------------------------------------------------------------

  /** Python's `a <= b` on strings: code points compared left to right, a
      proper prefix first. */
  predicate LexLe(a: string, b: string)
  {
    if |a| == 0 then true
    else if |b| == 0 then false
    else if a[0] < b[0] then true
    else if a[0] > b[0] then false
    else LexLe(a[1..], b[1..])
  }

  lemma {:induction false} LexLeTotal(a: string, b: string)
    ensures LexLe(a, b) || LexLe(b, a)
  {
    if |a| > 0 && |b| > 0 && a[0] == b[0] {
      LexLeTotal(a[1..], b[1..]);
    }
  }

  lemma {:induction false} LexLeTrans(a: string, b: string, c: string)
    requires LexLe(a, b) && LexLe(b, c)
    ensures LexLe(a, c)
  {
    if |a| > 0 && |b| > 0 && |c| > 0 && a[0] == b[0] && b[0] == c[0] {
      LexLeTrans(a[1..], b[1..], c[1..]);
    }
  }

  lemma {:induction false} LexLeAntisym(a: string, b: string)
    requires LexLe(a, b) && LexLe(b, a)
    ensures a == b
  {
    if |a| > 0 {
      LexLeAntisym(a[1..], b[1..]);
      assert a == [a[0]] + a[1..] && b == [b[0]] + b[1..];
    }
  }

  /** `<=` between two YAML values: booleans with False before True,
      integers by value, strings by `LexLe`; the other pairs are outside
      the ordering modelled here. */
  predicate ValueLe(a: Value, b: Value)
  {
    match (a, b)
    case (Bool(x), Bool(y)) => !x || y
    case (Int(x), Int(y)) => x <= y
    case (Str(s), Str(t)) => LexLe(s, t)
    case _ => false
  }

  predicate Comparable(a: Value, b: Value)
  {
    (a.Bool? && b.Bool?) || (a.Int? && b.Int?) || (a.Str? && b.Str?)
  }

  lemma ValueLeTotal(a: Value, b: Value)
    requires Comparable(a, b)
    ensures ValueLe(a, b) || ValueLe(b, a)
  {
    if a.Str? {
      LexLeTotal(a.text, b.text);
    }
  }

  lemma ValueLeTrans(a: Value, b: Value, c: Value)
    requires ValueLe(a, b) && ValueLe(b, c)
    ensures ValueLe(a, c)
  {
    if a.Str? {
      LexLeTrans(a.text, b.text, c.text);
    }
  }

  lemma ValueLeAntisym(a: Value, b: Value)
    requires ValueLe(a, b) && ValueLe(b, a)
    ensures a == b
  {
    if a.Str? {
      LexLeAntisym(a.text, b.text);
    }
  }

  /** All booleans, all integers or all strings: lists whose elements
      `sorted` compares with one ordering. */
  predicate Uniform(xs: seq<Value>)
  {
    || (forall x :: x in xs ==> x.Bool?)
    || (forall x :: x in xs ==> x.Int?)
    || (forall x :: x in xs ==> x.Str?)
  }

  /** The lists the model can sort: at most one element, which `sorted`
      returns without a comparison, or elements of one kind among booleans,
      integers and strings. Every other list is a TypeError here; Python
      agrees on mixed kinds other than integers with booleans, and on
      nulls and mappings. */
  predicate Sortable(xs: seq<Value>)
  {
    |xs| <= 1 || Uniform(xs)
  }

  /** Ordered by `<=` between YAML values. */
  ghost predicate Ordered(xs: seq<Value>)
  {
    Sorting.Ordered(ValueLe, xs)
  }

  /** Booleans, integers and strings, each among themselves, are totally
      ordered. */
  lemma UniformOrder(xs: seq<Value>)
    requires Uniform(xs)
    ensures Sorting.TotalOn(ValueLe, xs) && Sorting.TransitiveOn(ValueLe, xs)
  {
    forall i, j | 0 <= i < |xs| && 0 <= j < |xs|
      ensures ValueLe(xs[i], xs[j]) || ValueLe(xs[j], xs[i])
    {
      assert xs[i] in xs && xs[j] in xs;
      ValueLeTotal(xs[i], xs[j]);
    }
    forall i, j, k | 0 <= i < |xs| && 0 <= j < |xs| && 0 <= k < |xs| && ValueLe(xs[i], xs[j]) && ValueLe(xs[j], xs[k])
      ensures ValueLe(xs[i], xs[k])
    {
      ValueLeTrans(xs[i], xs[j], xs[k]);
    }
  }

  lemma Antisymmetric(xs: seq<Value>)
    ensures Sorting.AntisymmetricOn(ValueLe, xs)
  {
    forall i, j | 0 <= i < |xs| && 0 <= j < |xs| && ValueLe(xs[i], xs[j]) && ValueLe(xs[j], xs[i])
      ensures xs[i] == xs[j]
    {
      ValueLeAntisym(xs[i], xs[j]);
    }
  }

  /** Python's `sorted` on a list: the ordered permutation of its
      elements, or TypeError when two elements cannot be compared. */
  function PySorted(xs: seq<Value>): (r: Result<seq<Value>>)
    ensures r.Ok? <==> Sortable(xs)
    ensures r.Err? ==> r.fault == TypeError
    ensures r.Ok? ==> Ordered(r.value) && multiset(r.value) == multiset(xs)
  {
    if !Sortable(xs) then Err(TypeError)
    else if |xs| <= 1 then Sorting.SortShort(ValueLe, xs); Ok(Sorting.Sort(ValueLe, xs))
    else
      UniformOrder(xs);
      Sorting.SortOrdered(ValueLe, xs);
      Ok(Sorting.Sort(ValueLe, xs))
  }

  /** Any ordered permutation of a sortable list is the result of
      `PySorted`. */
  lemma SortedIsTheOrderedPermutation(xs: seq<Value>, ys: seq<Value>)
    requires Sortable(xs) && Ordered(ys) && multiset(ys) == multiset(xs)
    ensures PySorted(xs) == Ok(ys)
  {
    Antisymmetric(PySorted(xs).value);
    Sorting.OrderedUnique(ValueLe, PySorted(xs).value, ys);
  }

  // ---------------------------------------------------------------------
  // str.upper
  // ---------------------------------------------------------------------

  predicate Lower(c: char)
  {
    'a' <= c <= 'z'
  }

  /** `str.upper` on one character of the ASCII range. */
  function UpperChar(c: char): (u: char)
    ensures !Lower(u)
    ensures Lower(c) ==> u as int == c as int - 32
    ensures !Lower(c) ==> u == c
  {
    if Lower(c) then (c as int - 32) as char else c
  }

  function UpperStr(s: string): (u: string)
    ensures |u| == |s|
    ensures forall k :: 0 <= k < |s| ==> u[k] == UpperChar(s[k])
  {
    seq(|s|, k requires 0 <= k < |s| => UpperChar(s[k]))
  }

  /** Upper-casing twice changes nothing more. */
  lemma UpperIdempotent(s: string)
    ensures UpperStr(UpperStr(s)) == UpperStr(s)
  {
  }

  /** A name without lower-case letters is its own upper-case form. */
  lemma UpperFixed(s: string)
    requires forall k :: 0 <= k < |s| ==> !Lower(s[k])
    ensures UpperStr(s) == s
  {
  }

  /** `[x.upper() for x in result]`: every element must be a string, else
      AttributeError. */
  function UpperEach(xs: seq<Value>): (r: Result<seq<string>>)
    ensures r.Ok? <==> forall x :: x in xs ==> x.Str?
    ensures r.Err? ==> r.fault == AttributeError
    ensures r.Ok? ==> |r.value| == |xs| && forall i :: 0 <= i < |xs| ==> r.value[i] == UpperStr(xs[i].text)
  {
    if |xs| == 0 then Ok([])
    else if !xs[0].Str? then Err(AttributeError)
    else
      assert forall x :: x in xs[1..] ==> x in xs;
      assert forall x :: x in xs ==> x == xs[0] || x in xs[1..];
      var rest :- UpperEach(xs[1..]);
      Ok([UpperStr(xs[0].text)] + rest)
  }

  // ---------------------------------------------------------------------
  // Config.pairs, Config.valid_pair, Config.timeframes
  // ---------------------------------------------------------------------

  const Ingest: string := "ingest"
  const PairsKey: string := "pairs"
  const TimeframesKey: string := "timeframes"

  /** `Config.pairs`: the configured list sorted, then upper-cased. A value
      that is not a list leaves `result` None, and the comprehension over
      None raises TypeError. */
  function Pairs(config: Document): (r: Result<seq<string>>)
    ensures KeySubKey(Ingest, PairsKey, config, true).Err? ==>
      r == Err(KeySubKey(Ingest, PairsKey, config, true).fault)
    ensures KeySubKey(Ingest, PairsKey, config, true).Ok? && !KeySubKey(Ingest, PairsKey, config, true).value.List? ==>
      r == Err(TypeError)
  {
    var values :- KeySubKey(Ingest, PairsKey, config, true);
    if !values.List? then Err(TypeError)
    else
      var sorted :- PySorted(values.items);
      UpperEach(sorted)
  }

  /** The configured pairs as written, when they are a list. */
  function Names(config: Document): Option<seq<Value>>
  {
    var values := KeySubKey(Ingest, PairsKey, config, true);
    if values.Ok? && values.value.List? then Some(values.value.items) else None
  }

  /** `pairs()` succeeds exactly on a list of strings; its result holds the
      upper-cased names, each once per occurrence, in the order of the
      names before upper-casing, and no lower-case letter remains. */
  lemma PairsMeaning(config: Document)
    ensures Pairs(config).Ok? <==> Names(config).Some? && forall x :: x in Names(config).value ==> x.Str?
    ensures Pairs(config).Ok? ==>
      var names := Names(config).value;
      var sorted := PySorted(names).value;
      && |Pairs(config).value| == |names|
      && Ordered(sorted) && multiset(sorted) == multiset(names)
      && (forall i :: 0 <= i < |names| ==> Pairs(config).value[i] == UpperStr(sorted[i].text))
      && (forall i, k :: 0 <= i < |names| && 0 <= k < |Pairs(config).value[i]| ==> !Lower(Pairs(config).value[i][k]))
  {
    var values := KeySubKey(Ingest, PairsKey, config, true);
    if Names(config).Some? {
      var names := Names(config).value;
      if |names| > 1 && forall x :: x in names ==> x.Str? {
        assert Uniform(names);
      }
      if PySorted(names).Ok? {
        var sorted := PySorted(names).value;
        assert forall x :: x in sorted <==> x in names by {
          forall x
            ensures x in sorted <==> x in names
          {
            assert x in sorted <==> x in multiset(sorted);
          }
        }
      }
    }
  }

  /** The order comes from the names as written: a lower-case name sorts
      after every capital, so upper-casing afterwards can leave the result
      out of order. */
  lemma PairsOrderCounterexample()
    ensures var config := map[Ingest := Dict(map[PairsKey := List([Str("B"), Str("a")])])];
      Pairs(config) == Ok(["B", "A"]) && !LexLe("B", "A")
  {
    var config := map[Ingest := Dict(map[PairsKey := List([Str("B"), Str("a")])])];
    assert Configured(Ingest, PairsKey, config);
    assert KeySubKey(Ingest, PairsKey, config, true) == Ok(List([Str("B"), Str("a")]));
    SortedExample();
    UpperExample();
  }

  /** "B" sorts before "a": capitals come first in code-point order. */
  lemma SortedExample()
    ensures PySorted([Str("B"), Str("a")]) == Ok([Str("B"), Str("a")])
  {
    var xs := [Str("B"), Str("a")];
    assert LexLe("B", "a");
    assert Sorting.Sort(ValueLe, [Str("a")]) == [Str("a")];
    assert xs[1..] == [Str("a")];
    assert Sorting.Sort(ValueLe, xs) == Sorting.Insert(ValueLe, Str("B"), [Str("a")]) == xs;
    assert Sortable(xs);
  }

  lemma UpperExample()
    ensures UpperEach([Str("B"), Str("a")]) == Ok(["B", "A"])
  {
    var u := UpperEach([Str("B"), Str("a")]);
    assert u.Ok? && |u.value| == 2;
    assert u.value[0] == UpperStr("B") == "B";
    assert u.value[1] == UpperStr("a") == "A";
    assert u.value == ["B", "A"];
  }

  /** When every configured name is already upper case, the result is the
      names in sorted order. */
  lemma PairsOrderedWhenUpper(config: Document)
    requires Pairs(config).Ok?
    requires forall x :: x in Names(config).value && x.Str? ==> forall k :: 0 <= k < |x.text| ==> !Lower(x.text[k])
    ensures forall i, j :: 0 <= i < j < |Pairs(config).value| ==> LexLe(Pairs(config).value[i], Pairs(config).value[j])
  {
    var values := KeySubKey(Ingest, PairsKey, config, true);
    assert values.Ok? && values.value.List?;
    var names := values.value.items;
    assert Names(config) == Some(names);
    var sorted := PySorted(names).value;
    assert Pairs(config) == UpperEach(sorted);
    var p := Pairs(config).value;
    UpperKept(names, sorted, p);
    TextsOrdered(sorted, p);
  }

  /** Upper-casing leaves names with no lower-case letter unchanged. */
  lemma UpperKept(names: seq<Value>, sorted: seq<Value>, p: seq<string>)
    requires multiset(sorted) == multiset(names) && |p| == |sorted|
    requires forall x :: x in names && x.Str? ==> forall k :: 0 <= k < |x.text| ==> !Lower(x.text[k])
    requires forall i :: 0 <= i < |p| ==> sorted[i].Str? && p[i] == UpperStr(sorted[i].text)
    ensures forall i :: 0 <= i < |p| ==> sorted[i].Str? && p[i] == sorted[i].text
  {
    forall i | 0 <= i < |p|
      ensures sorted[i].Str? && p[i] == sorted[i].text
    {
      assert sorted[i] in multiset(names);
      assert sorted[i] in names;
      UpperFixed(sorted[i].text);
    }
  }

  /** The texts of ordered strings are in lexicographic order. */
  lemma TextsOrdered(sorted: seq<Value>, p: seq<string>)
    requires Ordered(sorted) && |p| == |sorted|
    requires forall i :: 0 <= i < |p| ==> sorted[i].Str? && p[i] == sorted[i].text
    ensures forall i, j :: 0 <= i < j < |p| ==> LexLe(p[i], p[j])
  {
    forall i, j | 0 <= i < j < |p|
      ensures LexLe(p[i], p[j])
    {
      assert ValueLe(sorted[i], sorted[j]);
    }
  }

  /** `Config.valid_pair`: the pair is one of the entries of `pairs()`. The
      default argument None is never an entry. */
  function ValidPair(pair: Option<string>, config: Document): (r: Result<bool>)
    ensures r.Ok? <==> Pairs(config).Ok?
    ensures r.Err? ==> r == Err(Pairs(config).fault)
  {
    var pairs :- Pairs(config);
    Ok(pair.Some? && pair.value in pairs)
  }

  /** A pair is valid exactly when some configured name upper-cases to it. */
  lemma ValidPairMeaning(pair: Option<string>, config: Document)
    requires Names(config).Some? && forall x :: x in Names(config).value ==> x.Str?
    ensures ValidPair(pair, config) ==
      Ok(pair.Some? && exists x :: x in Names(config).value && UpperStr(x.text) == pair.value)
  {
    PairsMeaning(config);
    var names := Names(config).value;
    var sorted := PySorted(names).value;
    var p := Pairs(config).value;
    if pair.Some? {
      if pair.value in p {
        var i :| 0 <= i < |p| && p[i] == pair.value;
        assert sorted[i] in multiset(names);
        assert sorted[i] in names;
      }
      if exists x :: x in names && UpperStr(x.text) == pair.value {
        var x :| x in names && UpperStr(x.text) == pair.value;
        assert x in multiset(sorted);
        var i :| 0 <= i < |sorted| && sorted[i] == x;
        assert p[i] == pair.value;
      }
    }
  }

  /** `Config.timeframes`: the configured list sorted, or None when the
      value is not a list. */
  function Timeframes(config: Document): (r: Result<Option<seq<Value>>>)
    ensures r == Ok(None) <==>
      KeySubKey(Ingest, TimeframesKey, config, true).Ok? && !KeySubKey(Ingest, TimeframesKey, config, true).value.List?
    ensures r.Ok? && r.value.Some? ==>
      KeySubKey(Ingest, TimeframesKey, config, true).Ok? &&
      var values := KeySubKey(Ingest, TimeframesKey, config, true).value;
      values.List? && Ordered(r.value.value) && multiset(r.value.value) == multiset(values.items)
    ensures r.Ok? <==>
      KeySubKey(Ingest, TimeframesKey, config, true).Ok? &&
      var values := KeySubKey(Ingest, TimeframesKey, config, true).value;
      values.List? ==> Sortable(values.items)
    ensures r.Err? ==> r.fault in {Exit, TypeError}
  {
    var values :- KeySubKey(Ingest, TimeframesKey, config, true);
    if values.List? then
      var sorted :- PySorted(values.items);
      Ok(Some(sorted))
    else Ok(None)
  }
}

=== FILE: counter.dfy ===
/** The conversion of stored datapoint samples into chart values in
    `crawsiz.db.db_data.GetIDX`: the clamp of the time window, the five-minute
    grid, the counter-to-rate conversion of `_counter` with its 32- and
    64-bit wrap-around, and the chart records of `_d3_converter`. The
    database query that fills `self.data` is outside the model: the samples,
    already sorted by timestamp as `sorted(self.data.items())` yields them,
    are the input.
 */
module Counter {
  import opened Wrappers
  import opened PySeq

  /** The polling interval in seconds. */
  const Step: int := 300

  /** `base_type` 1 marks a gauge; any other value a counter. */
  const Gauge: int := 1

  // ---------------------------------------------------------------------
  // The time window
  // ---------------------------------------------------------------------

  /** The edge case of `GetIDX.__init__`: a start after the stop is moved to
      the stop. */
  function Clamp(start: int, stop: int): (r: (int, int))
    ensures r.0 <= r.1 && r.1 == stop
    ensures r.0 == start <==> start <= stop
    ensures r.0 >= start || r.0 == stop
  {
    if start > stop then (stop, stop) else (start, stop)
  }

  /** Clamping a clamped window changes nothing. */
  lemma ClampIdempotent(start: int, stop: int)
    ensures Clamp(Clamp(start, stop).0, Clamp(start, stop).1) == Clamp(start, stop)
  {
  }

  // ---------------------------------------------------------------------
  // The grid
  // ---------------------------------------------------------------------

  /** Python's `range(lo, hi, 300)`. */
  function Range(lo: int, hi: int): (r: seq<int>)
    ensures |r| == if lo >= hi then 0 else (hi - lo + Step - 1) / Step
    ensures forall k :: 0 <= k < |r| ==> r[k] == lo + Step * k
    decreases hi - lo
  {
    if lo >= hi then [] else [lo] + Range(lo + Step, hi)
  }

  /** The range holds exactly the points of the 300-second lattice through
      lo that lie below hi. */
  lemma RangeMembers(lo: int, hi: int, t: int)
    ensures t in Range(lo, hi) <==> lo <= t < hi && (t - lo) % Step == 0
  {
    var r := Range(lo, hi);
    if t in r {
      var k :| 0 <= k < |r| && r[k] == t;
      assert t - lo == Step * k;
    }
    if lo <= t < hi && (t - lo) % Step == 0 {
      var k := (t - lo) / Step;
      assert t == lo + Step * k;
      assert k < |r|;
      assert r[k] == t;
    }
  }

  /** The first grid point: the start for a gauge, one step later for a
      counter, whose first sample has no rate. */
  function First(baseType: int, start: int): int
  {
    if baseType == Gauge then start else start + Step
  }

  /** `dict.fromkeys(range(first, ts_stop + 300, 300), 0)`. */
  function Grid(baseType: int, start: int, stop: int): (g: map<int, real>)
    ensures forall t :: t in g <==> First(baseType, start) <= t < stop + Step && (t - First(baseType, start)) % Step == 0
    ensures forall t :: t in g ==> g[t] == 0.0
  {
    var r := Range(First(baseType, start), stop + Step);
    forall t
      ensures t in r <==> First(baseType, start) <= t < stop + Step && (t - First(baseType, start)) % Step == 0
    {
      RangeMembers(First(baseType, start), stop + Step, t);
    }
    map t | t in r :: 0.0
  }

  /** For a clamped window on the lattice, the gauge grid runs from the start
      to the stop inclusive, and the counter grid is the gauge grid without
      its first point. */
  lemma GridSpan(start: int, stop: int, counter: int)
    requires start <= stop && (stop - start) % Step == 0 && counter != Gauge
    ensures start in Grid(Gauge, start, stop) && stop in Grid(Gauge, start, stop)
    ensures start !in Grid(counter, start, stop)
    ensures forall t :: t in Grid(counter, start, stop) <==> t in Grid(Gauge, start, stop) && t != start
  {
    forall t
      ensures t in Grid(counter, start, stop) <==> t in Grid(Gauge, start, stop) && t != start
    {
      ShiftMod(t - start);
    }
  }

  /** Moving one step along the lattice keeps the remainder. */
  lemma ShiftMod(a: int)
    ensures (a - Step) % Step == a % Step
  {
    var q, r := a / Step, a % Step;
    assert a - Step == Step * (q - 1) + r;
  }

  // ---------------------------------------------------------------------
  // _counter
  // ---------------------------------------------------------------------

  /** One stored sample: its timestamp and value. */
  datatype Sample = Sample(time: int, value: real)

  /** The samples in timestamp order, as `sorted` returns dictionary items. */
  ghost predicate Increasing(samples: seq<Sample>)
  {
    forall i, j :: 0 <= i < j < |samples| ==> samples[i].time < samples[j].time
  }

  function Abs(x: real): (a: real)
    ensures a >= 0.0 && (a == x || a == -x)
  {
    if x < 0.0 then -x else x
  }

  /** The counter range: 2^32 for `base_type` 32, 2^64 for any other. */
  function Wrap(baseType: int): (w: real)
    ensures baseType == 32 ==> w == 4294967296.0
    ensures baseType != 32 ==> w == 4294967296.0 * 4294967296.0
  {
    if baseType == 32 then 4294967296.0 else 4294967296.0 * 4294967296.0
  }

  /** The per-second rate between a sample and its predecessor: the
      difference over the step, or, when the counter went down, the
      wrap-around value computed from the new reading alone. */
  function Rate(baseType: int, prev: Sample, cur: Sample): (r: real)
    ensures r >= 0.0
    ensures cur.value >= prev.value ==> r == (cur.value - prev.value) / Step as real
    ensures cur.value < prev.value ==> r == (Wrap(baseType) + Abs(cur.value) - 1.0) / Step as real
  {
    var delta := cur.value - prev.value;
    if delta >= 0.0 then delta / Step as real
    else (Wrap(baseType) + Abs(cur.value) - 1.0) / Step as real
  }

  /** The loop state: the previous sample (`old_timestamp` with its value)
      and the values written so far. */
  datatype State = State(prev: Option<Sample>, out: map<int, real>)

  /** One iteration of the loop of `_counter`: the sample becomes the
      previous one, and at most its own timestamp's entry is written. */
  function Next(baseType: int, st: State, s: Sample): (r: State)
    ensures r.prev == Some(s)
    ensures r.out.Keys == st.out.Keys || r.out.Keys == st.out.Keys + {s.time}
    ensures forall t :: t in st.out && t != s.time ==> r.out[t] == st.out[t]
    ensures baseType == Gauge ==> s.time in r.out && r.out[s.time] == s.value
  {
    if baseType == Gauge then State(Some(s), st.out[s.time := s.value])
    else
      match st.prev
      case None => State(Some(s), st.out)
      case Some(p) =>
        if s.time - p.time > Step then State(Some(s), st.out)
        else State(Some(s), st.out[s.time := Rate(baseType, p, s)])
  }

  /** The loop over a prefix of the samples: it keeps every entry it
      started with and ends with the last sample as the previous one. */
  function Run(baseType: int, init: State, samples: seq<Sample>): (r: State)
    ensures init.out.Keys <= r.out.Keys
    ensures |samples| == 0 ==> r == init
    ensures |samples| > 0 ==> r.prev == Some(samples[|samples| - 1])
  {
    if |samples| == 0 then init
    else Next(baseType, Run(baseType, init, samples[..|samples| - 1]), samples[|samples| - 1])
  }

  /** `_counter`: the grid of zeros overwritten by the loop; every grid
      point stays a key. */
  function Convert(baseType: int, start: int, stop: int, samples: seq<Sample>): (values: map<int, real>)
    ensures Grid(baseType, start, stop).Keys <= values.Keys
  {
    Run(baseType, State(None, Grid(baseType, start, stop)), samples).out
  }

  /** The loop of `_counter` as written, with `count` and `old_timestamp`. */
  method CounterLoop(baseType: int, start: int, stop: int, samples: seq<Sample>) returns (values: map<int, real>)
    ensures values == Convert(baseType, start, stop, samples)
  {
    values := Grid(baseType, start, stop);
    var count := 0;
    var reference: Sample := Sample(0, 0.0);
    var i := 0;
    while i < |samples|
      invariant 0 <= i <= |samples|
      invariant baseType != Gauge ==> (count == 0 <==> i == 0)
      invariant Run(baseType, State(None, Grid(baseType, start, stop)), samples[..i]) ==
        State(if i == 0 then None else Some(reference), values)
    {
      assert samples[..i + 1][..i] == samples[..i];
      var s := samples[i];
      if baseType != Gauge {
        if count == 0 {
          reference := s;
          count := count + 1;
          i := i + 1;
          continue;
        }
        if s.time - reference.time > Step {
          reference := s;
          i := i + 1;
          continue;
        }
        values := values[s.time := Rate(baseType, reference, s)];
      } else {
        values := values[s.time := s.value];
      }
      reference := s;
      i := i + 1;
    }
    assert samples[..i] == samples;
  }

  /** Sample i is written: always for a gauge; for a counter when it has a
      predecessor at most one step earlier. */
  predicate Written(baseType: int, samples: seq<Sample>, i: int)
    requires 0 <= i < |samples|
  {
    baseType == Gauge || (i > 0 && samples[i].time - samples[i - 1].time <= Step)
  }

  /** What sample i writes: its value for a gauge, its rate against its
      predecessor for a counter. */
  function Output(baseType: int, samples: seq<Sample>, i: int): real
    requires 0 <= i < |samples| && Written(baseType, samples, i)
  {
    if baseType == Gauge then samples[i].value else Rate(baseType, samples[i - 1], samples[i])
  }

  /** The reference sample after the loop is the last one processed. */
  lemma {:induction false} RunPrev(baseType: int, init: State, samples: seq<Sample>)
    ensures Run(baseType, init, samples).prev ==
      if |samples| == 0 then init.prev else Some(samples[|samples| - 1])
  {
  }

  lemma IncreasingPrefix(samples: seq<Sample>, n: nat)
    requires Increasing(samples) && n <= |samples|
    ensures Increasing(samples[..n])
  {
  }

  /** Every written sample leaves its output under its timestamp. */
  lemma {:induction false} RunWrites(baseType: int, init: State, samples: seq<Sample>)
    requires Increasing(samples) && init.prev == None
    ensures forall i :: 0 <= i < |samples| && Written(baseType, samples, i) ==>
      samples[i].time in Run(baseType, init, samples).out &&
      Run(baseType, init, samples).out[samples[i].time] == Output(baseType, samples, i)
  {
    var n := |samples|;
    if n > 0 {
      var front := samples[..n - 1];
      IncreasingPrefix(samples, n - 1);
      RunWrites(baseType, init, front);
      RunPrev(baseType, init, front);
      var st := Run(baseType, init, front);
      var last := samples[n - 1];
      assert Run(baseType, init, samples) == Next(baseType, st, last);
      var out := Next(baseType, st, last).out;
      forall i | 0 <= i < n && Written(baseType, samples, i)
        ensures samples[i].time in out && out[samples[i].time] == Output(baseType, samples, i)
      {
        if i < n - 1 {
          assert front[i] == samples[i];
          assert i > 0 ==> front[i - 1] == samples[i - 1];
          assert Written(baseType, front, i);
          assert samples[i].time < last.time;
          NextKeeps(baseType, st, last, samples[i].time);
        } else {
          assert n > 1 ==> st.prev == Some(samples[n - 2]);
        }
      }
    }
  }

  /** One iteration leaves every other timestamp as it was. */
  lemma NextKeeps(baseType: int, st: State, s: Sample, t: int)
    requires t != s.time
    ensures t in Next(baseType, st, s).out <==> t in st.out
    ensures t in st.out ==> Next(baseType, st, s).out[t] == st.out[t]
  {
  }

  /** The keys after the loop: the starting ones plus the timestamps of the
      written samples. */
  lemma {:induction false} RunKeys(baseType: int, init: State, samples: seq<Sample>)
    requires init.prev == None
    ensures forall t :: t in Run(baseType, init, samples).out <==>
      t in init.out || exists i :: 0 <= i < |samples| && Written(baseType, samples, i) && samples[i].time == t
  {
    var n := |samples|;
    if n > 0 {
      var front := samples[..n - 1];
      RunKeys(baseType, init, front);
      RunPrev(baseType, init, front);
      forall i | 0 <= i < n - 1
        ensures front[i] == samples[i] && Written(baseType, front, i) == Written(baseType, samples, i)
      {
        assert i > 0 ==> front[i - 1] == samples[i - 1];
      }
    }
  }

  /** A key that no written sample touches keeps its starting value. */
  lemma {:induction false} RunUntouched(baseType: int, init: State, samples: seq<Sample>, t: int)
    requires init.prev == None && t in init.out
    requires forall i :: 0 <= i < |samples| && Written(baseType, samples, i) ==> samples[i].time != t
    ensures t in Run(baseType, init, samples).out && Run(baseType, init, samples).out[t] == init.out[t]
  {
    var n := |samples|;
    if n > 0 {
      var front := samples[..n - 1];
      RunPrev(baseType, init, front);
      forall i | 0 <= i < n - 1 && Written(baseType, front, i)
        ensures front[i].time != t
      {
        assert front[i] == samples[i];
        assert i > 0 ==> front[i - 1] == samples[i - 1];
      }
      RunUntouched(baseType, init, front, t);
    }
  }

  /** `_counter` in full: the grid points are all present, each written
      sample holds its value or rate, nothing else is added, and every
      other point keeps its zero. */
  lemma ConvertMeaning(baseType: int, start: int, stop: int, samples: seq<Sample>)
    requires Increasing(samples)
    ensures var out := Convert(baseType, start, stop, samples);
      && (forall t :: t in out <==> (t in Grid(baseType, start, stop) ||
            exists i :: 0 <= i < |samples| && Written(baseType, samples, i) && samples[i].time == t))
      && (forall i :: 0 <= i < |samples| && Written(baseType, samples, i) ==> out[samples[i].time] == Output(baseType, samples, i))
      && (forall t ::
            (t in Grid(baseType, start, stop) &&
             forall i :: 0 <= i < |samples| && Written(baseType, samples, i) ==> samples[i].time != t)
            ==> out[t] == 0.0)
  {
    var init := State(None, Grid(baseType, start, stop));
    RunKeys(baseType, init, samples);
    RunWrites(baseType, init, samples);
    forall t | t in Grid(baseType, start, stop) &&
        (forall i :: 0 <= i < |samples| && Written(baseType, samples, i) ==> samples[i].time != t)
      ensures Run(baseType, init, samples).out[t] == 0.0
    {
      RunUntouched(baseType, init, samples, t);
    }
  }

  /** For a counter the first sample only becomes the reference, and so
      does a sample more than one step after its predecessor: their
      timestamps stay at the grid's zero, or absent when off the grid. */
  lemma CounterSkips(baseType: int, start: int, stop: int, samples: seq<Sample>, i: int)
    requires Increasing(samples) && baseType != Gauge && 0 <= i < |samples|
    requires i == 0 || samples[i].time - samples[i - 1].time > Step
    ensures var out := Convert(baseType, start, stop, samples);
      (samples[i].time in out <==> samples[i].time in Grid(baseType, start, stop)) &&
      (samples[i].time in out ==> out[samples[i].time] == 0.0)
  {
    ConvertMeaning(baseType, start, stop, samples);
    var t := samples[i].time;
    forall j | 0 <= j < |samples| && Written(baseType, samples, j)
      ensures samples[j].time != t
    {
      assert j != i;
    }
  }

  /** A gauge keeps every sample verbatim. */
  lemma GaugeCopies(start: int, stop: int, samples: seq<Sample>)
    requires Increasing(samples)
    ensures forall i :: 0 <= i < |samples| ==>
      samples[i].time in Convert(Gauge, start, stop, samples) &&
      Convert(Gauge, start, stop, samples)[samples[i].time] == samples[i].value
  {
    ConvertMeaning(Gauge, start, stop, samples);
  }

  // ---------------------------------------------------------------------
  // _d3_converter
  // ---------------------------------------------------------------------

  /** One chart record `{'x': timestamp, 'y': value, 'group': agent_label}`. */
  datatype Point = Point(x: int, y: real, group: string)

  lemma Inhabited(s: set<int>)
    requires s != {}
    ensures exists e :: e in s
  {
    if forall e :: e !in s {
      assert false;
    }
  }

  /** The smallest element of a non-empty set of timestamps. */
  ghost function SetMin(s: set<int>): (m: int)
    requires s != {}
    ensures m in s && forall k :: k in s ==> m <= k
    decreases |s|
  {
    Inhabited(s);
    var e :| e in s;
    var rest := s - {e};
    assert forall k :: k in s ==> k == e || k in rest;
    if rest == {} then e
    else
      var m := SetMin(rest);
      if e < m then e else m
  }

  /** The keys of a dictionary in ascending order, as `sorted(values.items())`
      visits them. */
  ghost function SortedKeys(s: set<int>): (r: seq<int>)
    ensures |r| == |s|
    ensures forall x :: x in r <==> x in s
    ensures StrictlyIncreasing(r)
    decreases |s|
  {
    if s == {} then []
    else
      var m := SetMin(s);
      var rest := SortedKeys(s - {m});
      assert |s - {m}| == |s| - 1;
      ConsIncreasing(m, rest);
      [m] + rest
  }

  /** A key below every key of an ascending list extends it at the front. */
  lemma ConsIncreasing(m: int, rest: seq<int>)
    requires StrictlyIncreasing(rest) && forall x :: x in rest ==> m < x
    ensures StrictlyIncreasing([m] + rest)
  {
    var r := [m] + rest;
    forall a, b | 0 <= a < b < |r|
      ensures r[a] < r[b]
    {
      assert r[b] == rest[b - 1] && rest[b - 1] in rest;
      if a > 0 {
        assert r[a] == rest[a - 1];
      }
    }
  }

  /** `_d3_converter`: one record per key, in ascending timestamp order,
      each carrying the stored value and the agent label. */
  ghost function Chart(values: map<int, real>, agentLabel: string): (r: seq<Point>)
    ensures |r| == |values.Keys|
    ensures forall i, j :: 0 <= i < j < |r| ==> r[i].x < r[j].x
    ensures forall i :: 0 <= i < |r| ==> r[i].x in values && r[i].y == values[r[i].x] && r[i].group == agentLabel
  {
    ChartShape(values, agentLabel);
    Points(SortedKeys(values.Keys), values, agentLabel)
  }

  lemma ChartShape(values: map<int, real>, agentLabel: string)
    ensures forall i :: 0 <= i < |SortedKeys(values.Keys)| ==> SortedKeys(values.Keys)[i] in values
    ensures var r := Points(SortedKeys(values.Keys), values, agentLabel);
      && |r| == |values.Keys|
      && (forall i, j :: 0 <= i < j < |r| ==> r[i].x < r[j].x)
      && (forall i :: 0 <= i < |r| ==> r[i].x in values && r[i].y == values[r[i].x] && r[i].group == agentLabel)
  {
    var keys := SortedKeys(values.Keys);
    assert forall i :: 0 <= i < |keys| ==> keys[i] in keys;
    var r := Points(keys, values, agentLabel);
    forall i, j | 0 <= i < j < |r|
      ensures r[i].x < r[j].x
    {
      assert r[i].x == keys[i] && r[j].x == keys[j];
    }
  }

  /** One record per key of the list, in its order. */
  ghost function Points(keys: seq<int>, values: map<int, real>, agentLabel: string): (r: seq<Point>)
    requires forall i :: 0 <= i < |keys| ==> keys[i] in values
    ensures |r| == |keys|
    ensures forall i :: 0 <= i < |r| ==> r[i] == Point(keys[i], values[keys[i]], agentLabel)
  {
    if |keys| == 0 then []
    else [Point(keys[0], values[keys[0]], agentLabel)] + Points(keys[1..], values, agentLabel)
  }

  /** Every stored timestamp gets a record. */
  lemma ChartCovers(values: map<int, real>, agentLabel: string, t: int)
    requires t in values
    ensures exists i :: 0 <= i < |Chart(values, agentLabel)| && Chart(values, agentLabel)[i] == Point(t, values[t], agentLabel)
  {
    var keys := SortedKeys(values.Keys);
    ChartShape(values, agentLabel);
    assert t in keys;
    var i :| 0 <= i < |keys| && keys[i] == t;
    var r := Points(keys, values, agentLabel);
    assert Chart(values, agentLabel) == r;
    assert r[i] == Point(t, values[t], agentLabel);
  }
}

=== FILE: extract.dfy ===
/** The training-set builder (class `Extract` of the feature module): one
    feature vector and four labels per anchor timestamp, where the anchors
    run from index 199 up to `lookahead` entries before the end, plus the
    vector of the newest timestamp for prediction.
 */
module Extract {
  import opened Wrappers
  import opened PySeq
  import opened Series
  import opened Feature
  import opened FeatureHistory
  import opened Label

  /** Index of the first anchor: the 200-period window needs 199 earlier rows. */
  const FirstAnchor: nat := 199

  /** `timestamps[199:-lookahead]`. */
  function Anchors(timestamps: seq<int>, lookahead: int): (r: seq<int>)
    ensures lookahead >= 1 && FirstAnchor + lookahead <= |timestamps| ==>
      r == timestamps[FirstAnchor .. |timestamps| - lookahead]
    ensures lookahead >= 1 && |timestamps| < FirstAnchor + lookahead ==> r == []
    ensures lookahead == 0 ==> r == []
  {
    Slice(timestamps, FirstAnchor, -lookahead)
  }

  /** What one anchor contributes: its vector, then the high and low labels in
      Kessler form, then in packed form. */
  datatype Row = Row(
    vector: seq<real>,
    kesslerHigh: seq<int>,
    kesslerLow: seq<int>,
    regularHigh: nat,
    regularLow: nat)

  /** The four labels of the anchor at `start`; the high and the low series
      have the same length, so they fail together when the look-ahead index
      is outside the data. */
  function Labels(d: FxData, start: nat, lookahead: int): (r: Result<(seq<int>, seq<int>, nat, nat)>)
    requires d.Aligned() && start < |d.timestamps|
    ensures r.Ok? <==> KesslerLabel(d.highs, start, lookahead).Ok?
    ensures r.Err? ==> r == Err(IndexError)
    ensures r.Ok? ==>
      && KesslerLabel(d.highs, start, lookahead) == Ok(r.value.0)
      && KesslerLabel(d.lows, start, lookahead) == Ok(r.value.1)
      && RegularLabel(d.highs, start, lookahead) == Ok(r.value.2)
      && RegularLabel(d.lows, start, lookahead) == Ok(r.value.3)
  {
    if -|d.highs| <= start + lookahead < |d.highs| then
      Ok((KesslerLabel(d.highs, start, lookahead).value,
          KesslerLabel(d.lows, start, lookahead).value,
          RegularLabel(d.highs, start, lookahead).value,
          RegularLabel(d.lows, start, lookahead).value))
    else Err(IndexError)
  }

  /** The work of one loop iteration: the vector, then the four labels. Both
      the vector and `Classify` look the anchor up first and raise the same
      ValueError when it is absent, so looking it up once up front changes
      nothing. */
  function AnchorRow(d: FxData, ts: int, lookahead: int): (r: Result<Row>)
    requires d.Aligned()
    ensures ts !in d.timestamps ==> r == Err(ValueError)
    ensures r.Ok? ==> Vector(d, ts) == Ok(r.value.vector) && |r.value.vector| == VectorLength
    ensures r.Ok? ==> ts in d.timestamps
    ensures r.Ok? ==>
      var start := Start(d.timestamps, ts).value;
      && KesslerLabel(d.highs, start, lookahead) == Ok(r.value.kesslerHigh)
      && KesslerLabel(d.lows, start, lookahead) == Ok(r.value.kesslerLow)
      && RegularLabel(d.highs, start, lookahead) == Ok(r.value.regularHigh)
      && RegularLabel(d.lows, start, lookahead) == Ok(r.value.regularLow)
  {
    var start :- Start(d.timestamps, ts);
    var v :- Vector(d, ts);
    var labels :- Labels(d, start, lookahead);
    Ok(Row(v, labels.0, labels.1, labels.2, labels.3))
  }

  /** The five per-anchor lists and the anchor list of an `Extract`. */
  datatype Dataset = Dataset(
    vectors: seq<seq<real>>,
    kesslerHigh: seq<seq<int>>,
    kesslerLow: seq<seq<int>>,
    regularHigh: seq<nat>,
    regularLow: seq<nat>,
    timestamps: seq<int>)
  {
    /** All lists grow together: entry k of each belongs to timestamps[k]. */
    predicate Lockstep()
    {
      && |vectors| == |timestamps|
      && |kesslerHigh| == |timestamps|
      && |kesslerLow| == |timestamps|
      && |regularHigh| == |timestamps|
      && |regularLow| == |timestamps|
    }

    /** Entry k of every list is the row computed for timestamps[k]. */
    predicate HoldsRow(k: nat, row: Row)
      requires Lockstep() && k < |timestamps|
    {
      && vectors[k] == row.vector
      && kesslerHigh[k] == row.kesslerHigh
      && kesslerLow[k] == row.kesslerLow
      && regularHigh[k] == row.regularHigh
      && regularLow[k] == row.regularLow
    }
  }

  /** The loop body of `Extract.__init__` over rows already computed per
      anchor: append each row's parts to the five lists and the anchor to the
      timestamps, stopping at the first failure. */
  method Collect(anchors: seq<int>, rows: seq<Result<Row>>) returns (r: Result<Dataset>)
    requires |rows| == |anchors|
    ensures r.Ok? <==> forall k :: 0 <= k < |rows| ==> rows[k].Ok?
    ensures r.Ok? ==> r.value.Lockstep() && r.value.timestamps == anchors
    ensures r.Ok? ==> forall k :: 0 <= k < |anchors| ==> r.value.HoldsRow(k, rows[k].value)
    ensures r.Err? ==>
      exists k :: 0 <= k < |rows| && rows[k] == Err(r.fault) && forall j :: 0 <= j < k ==> rows[j].Ok?
  {
    var acc := Dataset([], [], [], [], [], []);
    var i := 0;
    while i < |anchors|
      invariant 0 <= i <= |anchors|
      invariant acc.Lockstep() && acc.timestamps == anchors[..i]
      invariant forall k :: 0 <= k < i ==> rows[k].Ok?
      invariant forall k :: 0 <= k < i ==> acc.HoldsRow(k, rows[k].value)
    {
      if rows[i].Err? {
        return Err(rows[i].fault);
      }
      var x := rows[i].value;
      acc := Dataset(
        acc.vectors + [x.vector],
        acc.kesslerHigh + [x.kesslerHigh],
        acc.kesslerLow + [x.kesslerLow],
        acc.regularHigh + [x.regularHigh],
        acc.regularLow + [x.regularLow],
        acc.timestamps + [anchors[i]]);
      i := i + 1;
    }
    assert anchors[..i] == anchors;
    return Ok(acc);
  }

  /** The row of every anchor, in anchor order. */
  function Rows(d: FxData, lookahead: int): (rows: seq<Result<Row>>)
    requires d.Aligned()
    ensures |rows| == |Anchors(d.timestamps, lookahead)|
    ensures forall k :: 0 <= k < |rows| ==>
      rows[k] == AnchorRow(d, Anchors(d.timestamps, lookahead)[k], lookahead)
  {
    var anchors := Anchors(d.timestamps, lookahead);
    seq(|anchors|, k requires 0 <= k < |anchors| => AnchorRow(d, anchors[k], lookahead))
  }

  /** `Extract.__init__`: one row per anchor of `timestamps[199:-lookahead]`;
      it fails with the exception of the first failing anchor. */
  method Build(d: FxData, lookahead: int) returns (r: Result<Dataset>)
    requires d.Aligned()
    ensures r.Ok? <==> forall k :: 0 <= k < |Rows(d, lookahead)| ==> Rows(d, lookahead)[k].Ok?
    ensures r.Ok? ==> r.value.Lockstep() && r.value.timestamps == Anchors(d.timestamps, lookahead)
    ensures r.Ok? ==> forall k :: 0 <= k < |r.value.timestamps| ==>
      r.value.HoldsRow(k, Rows(d, lookahead)[k].value)
    ensures r.Err? ==>
      exists k :: 0 <= k < |Rows(d, lookahead)| && Rows(d, lookahead)[k] == Err(r.fault) &&
        forall j :: 0 <= j < k ==> Rows(d, lookahead)[j].Ok?
  {
    r := Collect(Anchors(d.timestamps, lookahead), Rows(d, lookahead));
  }

  /** With increasing timestamps, anchor k sits at index 199 + k: its
      200-period window starts at index k >= 0, and its label reads index
      199 + k + lookahead, which is inside the data. */
  lemma AnchorPositions(timestamps: seq<int>, lookahead: int, k: nat)
    requires StrictlyIncreasing(timestamps) && lookahead >= 1
    requires k < |Anchors(timestamps, lookahead)|
    ensures Anchors(timestamps, lookahead)[k] == timestamps[FirstAnchor + k]
    ensures IndexOf(timestamps, timestamps[FirstAnchor + k]) == Ok(FirstAnchor + k)
    ensures StartStop(timestamps, timestamps[FirstAnchor + k], 200) == Ok((k, FirstAnchor + k + 1))
    ensures FirstAnchor + k + lookahead < |timestamps|
  {
    IndexOfDistinct(timestamps, FirstAnchor + k);
  }

  /** The newest timestamp, whose vector is the one predicted from, is never a
      training anchor when the lookahead is at least one period. */
  lemma LastIsNotAnchor(timestamps: seq<int>, lookahead: int)
    requires StrictlyIncreasing(timestamps) && lookahead >= 1 && |timestamps| > 0
    ensures timestamps[|timestamps| - 1] !in Anchors(timestamps, lookahead)
  {
    var anchors := Anchors(timestamps, lookahead);
    forall k | 0 <= k < |anchors|
      ensures anchors[k] != timestamps[|timestamps| - 1]
    {
      AnchorPositions(timestamps, lookahead, k);
    }
  }

  /** Increasing timestamps have no repeats, so every index is a first
      occurrence. */
  lemma IncreasingAnchorAt(d: FxData, i: nat)
    requires StrictlyIncreasing(d.timestamps) && i < |d.timestamps|
    ensures AnchorAt(d, i)
  {
    IndexOfDistinct(d.timestamps, i);
  }

  /** On increasing timestamps and positive prices an index from 199 on
      whose look-ahead stays inside the data yields a row. */
  lemma AnchorRowDefined(d: FxData, lookahead: int, i: nat)
    requires d.Aligned() && StrictlyIncreasing(d.timestamps) && PositivePrices(d)
    requires lookahead >= 1 && FirstAnchor <= i && i + lookahead < |d.timestamps|
    ensures AnchorRow(d, d.timestamps[i], lookahead).Ok?
  {
    IndexOfDistinct(d.timestamps, i);
    VectorDefined(d, i);
    assert Start(d.timestamps, d.timestamps[i]) == Ok(i);
    assert KesslerLabel(d.highs, i, lookahead).Ok?;
  }

  /** On increasing timestamps and positive prices every anchor yields a row,
      so the construction succeeds for any lookahead of at least one. */
  lemma BuildSucceeds(d: FxData, lookahead: int)
    requires d.Aligned() && StrictlyIncreasing(d.timestamps) && PositivePrices(d)
    requires lookahead >= 1
    ensures forall k :: 0 <= k < |Anchors(d.timestamps, lookahead)| ==>
      AnchorRow(d, Anchors(d.timestamps, lookahead)[k], lookahead).Ok?
  {
    forall k | 0 <= k < |Anchors(d.timestamps, lookahead)|
      ensures AnchorRow(d, Anchors(d.timestamps, lookahead)[k], lookahead).Ok?
    {
      AnchorRowAt(d, lookahead, k);
    }
  }

  /** The row of the k-th anchor exists. */
  lemma AnchorRowAt(d: FxData, lookahead: int, k: nat)
    requires d.Aligned() && StrictlyIncreasing(d.timestamps) && PositivePrices(d)
    requires lookahead >= 1 && k < |Anchors(d.timestamps, lookahead)|
    ensures AnchorRow(d, Anchors(d.timestamps, lookahead)[k], lookahead).Ok?
  {
    var i := FirstAnchor + k;
    assert Anchors(d.timestamps, lookahead)[k] == d.timestamps[i] && i + lookahead < |d.timestamps|;
    AnchorRowDefined(d, lookahead, i);
  }

  /** `last_timestamp`: `timestamp()[-1]`, IndexError on empty data. */
  function LastTimestamp(d: FxData): (r: Result<int>)
    ensures r.Ok? <==> |d.timestamps| > 0
    ensures r.Ok? ==> r.value == d.timestamps[|d.timestamps| - 1]
    ensures r.Err? ==> r.fault == IndexError
  {
    At(d.timestamps, -1)
  }

  /** `last_vector`: the vector of the newest timestamp. */
  function LastVector(d: FxData): (r: Result<seq<real>>)
    requires d.Aligned()
    ensures |d.timestamps| == 0 ==> r == Err(IndexError)
    ensures r.Ok? ==> |r.value| == VectorLength
    ensures |d.timestamps| > 0 ==> r == Vector(d, d.timestamps[|d.timestamps| - 1])
  {
    var ts :- LastTimestamp(d);
    Vector(d, ts)
  }

  /** With 200 rows of positive prices whose newest timestamp is not
      repeated earlier (as on increasing timestamps, `IncreasingAnchorAt`),
      the prediction vector, the one `last_vector` returns, exists. */
  lemma LastVectorDefined(d: FxData)
    requires d.Aligned() && PositivePrices(d) && |d.timestamps| >= 200
    requires AnchorAt(d, |d.timestamps| - 1)
    ensures Vector(d, d.timestamps[|d.timestamps| - 1]).Ok?
  {
    VectorDefined(d, |d.timestamps| - 1);
  }
}

=== FILE: facets.dfy ===
/** The accuracy facets of `crawsiz.machine.accuracy`. The linear facets are
    ratios of entries of the confusion matrix that `confusion_matrix` builds:
    one row per true label and one column per predicted label, over the
    labels that occur in either series, in increasing order. With the usual
    two classes that is the 2x2 matrix in the order -1, 1; a series in which
    only one class occurs gives a 1x1 matrix, and an entry outside the matrix
    raises IndexError. The Bayesian facets are lookups in the dictionaries
    `Bayesian.accuracy` returns.
 */
module Facets {
  import opened Wrappers
  import opened Arith
  import Tally

  // ---------------------------------------------------------------------
  // numpy division
  // ---------------------------------------------------------------------

  /** The value of a numpy division of counts: a finite ratio, or, when the
      divisor is zero, inf (non-zero dividend) or nan (zero dividend). numpy
      warns instead of raising. */
  datatype Quotient = Finite(value: real) | Infinite | NotANumber

  function Divide(a: nat, b: nat): (q: Quotient)
    ensures q.Finite? <==> b > 0
    ensures b == 0 ==> (q.NotANumber? <==> a == 0)
    ensures q.Finite? ==> q.value * b as real == a as real
    ensures q.Finite? && a <= b ==> 0.0 <= q.value <= 1.0
  {
    if b == 0 then (if a == 0 then NotANumber else Infinite)
    else
      DivTimes(a as real, b as real);
      if a <= b then
        MeanBounds(a as real, b as real, 0.0, 1.0);
        Finite(a as real / b as real)
      else Finite(a as real / b as real)
  }

  // ---------------------------------------------------------------------
  // The label set
  // ---------------------------------------------------------------------

  /** Strictly increasing, so that every label appears once. */
  ghost predicate Increasing(labels: seq<int>)
  {
    forall i, j :: 0 <= i < j < |labels| ==> labels[i] < labels[j]
  }

  /** The head of an increasing list is its least member, and the tail holds
      the other members. */
  lemma Least(labels: seq<int>)
    requires Increasing(labels) && |labels| > 0
    ensures forall y :: y in labels ==> labels[0] <= y
    ensures forall y :: y in labels[1..] <==> y in labels && y != labels[0]
    ensures Increasing(labels[1..])
  {
    forall y | y in labels
      ensures labels[0] <= y
    {
      var k :| 0 <= k < |labels| && labels[k] == y;
    }
    forall y | y in labels && y != labels[0]
      ensures y in labels[1..]
    {
      var k :| 0 <= k < |labels| && labels[k] == y;
      assert labels[1..][k - 1] == y;
    }
  }

  /** Insert one label into an increasing list, once. */
  function AddLabel(labels: seq<int>, x: int): (r: seq<int>)
    requires Increasing(labels)
    ensures Increasing(r)
    ensures forall y :: y in r <==> y in labels || y == x
  {
    if |labels| == 0 then [x]
    else if x < labels[0] then
      Least(labels);
      ConsIncreasing(x, labels);
      [x] + labels
    else if x == labels[0] then labels
    else
      Least(labels);
      var rest := AddLabel(labels[1..], x);
      ConsIncreasing(labels[0], rest);
      [labels[0]] + rest
  }

  lemma ConsIncreasing(x: int, labels: seq<int>)
    requires Increasing(labels) && forall y :: y in labels ==> x < y
    ensures Increasing([x] + labels)
    ensures forall y :: y in [x] + labels <==> y == x || y in labels
  {
    var r := [x] + labels;
    forall i, j | 0 <= i < j < |r|
      ensures r[i] < r[j]
    {
      assert r[j] == labels[j - 1] && r[j] in labels;
      if i > 0 {
        assert r[i] == labels[i - 1];
      }
    }
  }

  function AddAll(labels: seq<int>, xs: seq<int>): (r: seq<int>)
    requires Increasing(labels)
    ensures Increasing(r)
    ensures forall y :: y in r <==> y in labels || y in xs
    decreases |xs|
  {
    if |xs| == 0 then labels
    else
      assert forall y :: y in xs <==> y == xs[0] || y in xs[1..];
      AddAll(AddLabel(labels, xs[0]), xs[1..])
  }

  /** `unique_labels(truth, predicted)`: every label that occurs in either
      series, once, in increasing order. */
  function Labels(truth: seq<int>, predicted: seq<int>): (labels: seq<int>)
    ensures Increasing(labels)
    ensures forall y :: y in labels <==> y in truth || y in predicted
  {
    AddAll(AddAll([], truth), predicted)
  }

  /** An increasing list is fixed by its members. */
  lemma {:induction false} IncreasingUnique(a: seq<int>, b: seq<int>)
    requires Increasing(a) && Increasing(b)
    requires forall y :: y in a <==> y in b
    ensures a == b
  {
    if |a| > 0 && |b| == 0 {
      HeadIn(a);
      assert false;
    } else if |a| == 0 && |b| > 0 {
      HeadIn(b);
      assert false;
    } else if |a| > 0 {
      Least(a);
      Least(b);
      assert a[0] in b && b[0] in a;
      assert a[0] == b[0];
      IncreasingUnique(a[1..], b[1..]);
      assert a == [a[0]] + a[1..] && b == [b[0]] + b[1..];
    }
  }

  lemma HeadIn(s: seq<int>)
    requires |s| > 0
    ensures s[0] in s
  {
  }

  /** Any increasing list of exactly the labels that occur is `Labels`. */
  lemma LabelsUnique(truth: seq<int>, predicted: seq<int>, labels: seq<int>)
    requires Increasing(labels)
    requires forall y :: y in labels <==> y in truth || y in predicted
    ensures Labels(truth, predicted) == labels
  {
    IncreasingUnique(Labels(truth, predicted), labels);
  }

  // ---------------------------------------------------------------------
  // Counting
  // ---------------------------------------------------------------------

  /** The number of positions holding x. */
  function Occurrences(s: seq<int>, x: int): nat
  {
    if |s| == 0 then 0 else (if s[0] == x then 1 else 0) + Occurrences(s[1..], x)
  }

  /** The number of positions whose true label is a and whose predicted label
      is b. */
  function Count(truth: seq<int>, predicted: seq<int>, a: int, b: int): nat
    requires |truth| == |predicted|
  {
    if |truth| == 0 then 0
    else (if truth[0] == a && predicted[0] == b then 1 else 0) + Count(truth[1..], predicted[1..], a, b)
  }

  /** Number of positions where the prediction equals the truth. */
  function Matches(truth: seq<int>, predicted: seq<int>): nat
    requires |truth| == |predicted|
  {
    if |truth| == 0 then 0
    else (if truth[0] == predicted[0] then 1 else 0) + Matches(truth[1..], predicted[1..])
  }

  // ---------------------------------------------------------------------
  // Confusion matrices
  // ---------------------------------------------------------------------

  /** A numpy matrix of counts, row by row. */
  type Matrix = seq<seq<nat>>

  ghost predicate Square(m: Matrix)
  {
    forall i :: 0 <= i < |m| ==> |m[i]| == |m|
  }

  /** The row of true label a: its count against each column label. */
  function Row(truth: seq<int>, predicted: seq<int>, a: int, labels: seq<int>): seq<nat>
    requires |truth| == |predicted|
  {
    seq(|labels|, j requires 0 <= j < |labels| => Count(truth, predicted, a, labels[j]))
  }

  function Rows(truth: seq<int>, predicted: seq<int>, rowLabels: seq<int>, labels: seq<int>): Matrix
    requires |truth| == |predicted|
  {
    seq(|rowLabels|, i requires 0 <= i < |rowLabels| => Row(truth, predicted, rowLabels[i], labels))
  }

  /** `confusion_matrix(truth, predicted)`: entry (i, j) counts the positions
      whose true label is the i-th label and whose predicted label is the
      j-th, in the order of `Labels`. */
  function Confusion(truth: seq<int>, predicted: seq<int>): (m: Matrix)
    requires |truth| == |predicted|
    ensures Square(m) && |m| == |Labels(truth, predicted)|
    ensures forall i, j :: 0 <= i < |m| && 0 <= j < |m| ==>
      m[i][j] == Count(truth, predicted, Labels(truth, predicted)[i], Labels(truth, predicted)[j])
  {
    var labels := Labels(truth, predicted);
    Rows(truth, predicted, labels, labels)
  }

  /** `sum(m[:, j])`. */
  function ColumnSum(m: Matrix, j: nat): nat
    requires forall i :: 0 <= i < |m| ==> j < |m[i]|
  {
    if |m| == 0 then 0 else m[0][j] + ColumnSum(m[1..], j)
  }

  /** The sums of the first n columns, added up. */
  function SumColumns(m: Matrix, n: nat): nat
    requires Square(m) && n <= |m|
  {
    if n == 0 then 0 else SumColumns(m, n - 1) + ColumnSum(m, n - 1)
  }

  /** `sum(sum(m))`: the column sums, added up. */
  function Total(m: Matrix): nat
    requires Square(m)
  {
    SumColumns(m, |m|)
  }

  /** An entry never exceeds the sum of its column. */
  lemma {:induction false} EntryInColumn(m: Matrix, i: nat, j: nat)
    requires forall r :: 0 <= r < |m| ==> j < |m[r]|
    requires i < |m|
    ensures m[i][j] <= ColumnSum(m, j)
  {
    if i > 0 {
      EntryInColumn(m[1..], i - 1, j);
    }
  }

  /** The sums of a 2x2 matrix spelled out. */
  lemma TwoByTwo(m: Matrix)
    requires Square(m) && |m| == 2
    ensures ColumnSum(m, 0) == m[0][0] + m[1][0]
    ensures ColumnSum(m, 1) == m[0][1] + m[1][1]
  {
    assert m[1..][0] == m[1] && m[1..][1..] == [];
    assert ColumnSum(m[1..], 0) == m[1][0] + ColumnSum(m[1..][1..], 0);
    assert ColumnSum(m[1..], 1) == m[1][1] + ColumnSum(m[1..][1..], 1);
  }

  /** The total of a 2x2 matrix is the sum of its two column sums. */
  lemma TwoByTwoTotal(m: Matrix)
    requires Square(m) && |m| == 2
    ensures Total(m) == ColumnSum(m, 0) + ColumnSum(m, 1)
  {
    assert SumColumns(m, 1) == ColumnSum(m, 0);
  }

  // ---------------------------------------------------------------------
  // Linear facets
  // ---------------------------------------------------------------------

  /** `lowerhighs` / `lowerlows`: entry (1, 1) over the sum of the last
      column; a matrix of fewer than two labels has no entry (1, 1). */
  function LowerFacet(m: Matrix): (r: Result<Quotient>)
    requires Square(m)
    ensures r.Err? <==> |m| < 2
    ensures r.Err? ==> r.fault == IndexError
    ensures r.Ok? ==> (r.value.Finite? <==> ColumnSum(m, |m| - 1) > 0)
    ensures r.Ok? && r.value.Finite? ==> r.value.value * ColumnSum(m, |m| - 1) as real == m[1][1] as real
    ensures r.Ok? && r.value.Finite? && |m| == 2 ==> 0.0 <= r.value.value <= 1.0
  {
    if |m| < 2 then Err(IndexError)
    else
      EntryInColumn(m, 1, 1);
      Ok(Divide(m[1][1], ColumnSum(m, |m| - 1)))
  }

  /** `higherhighs` / `higherlows`: entry (0, 0) over the sum of the first
      column; only the empty matrix lacks it. */
  function HigherFacet(m: Matrix): (r: Result<Quotient>)
    requires Square(m)
    ensures r.Err? <==> |m| == 0
    ensures r.Err? ==> r.fault == IndexError
    ensures r.Ok? ==> (r.value.Finite? <==> ColumnSum(m, 0) > 0)
    ensures r.Ok? && r.value.Finite? ==>
      0.0 <= r.value.value <= 1.0 && r.value.value * ColumnSum(m, 0) as real == m[0][0] as real
  {
    if |m| == 0 then Err(IndexError)
    else
      EntryInColumn(m, 0, 0);
      Ok(Divide(m[0][0], ColumnSum(m, 0)))
  }

  /** `highs` / `lows`: entries (0, 0) and (1, 1) over the sum of all
      entries; a matrix of fewer than two labels lacks one of them. */
  function OverallFacet(m: Matrix): (r: Result<Quotient>)
    requires Square(m)
    ensures r.Err? <==> |m| < 2
    ensures r.Err? ==> r.fault == IndexError
    ensures r.Ok? ==> (r.value.Finite? <==> Total(m) > 0)
    ensures r.Ok? && r.value.Finite? ==> r.value.value * Total(m) as real == (m[0][0] + m[1][1]) as real
    ensures r.Ok? && r.value.Finite? && |m| == 2 ==> 0.0 <= r.value.value <= 1.0
  {
    if |m| < 2 then Err(IndexError)
    else
      if |m| == 2 then
        TwoByTwo(m);
        TwoByTwoTotal(m);
        Ok(Divide(m[0][0] + m[1][1], Total(m)))
      else Ok(Divide(m[0][0] + m[1][1], Total(m)))
  }

  /** The two matrices of the linear report, one per label series. */
  datatype LinearAccuracy = LinearAccuracy(matrixHigh: Matrix, matrixLow: Matrix)
  {
    ghost predicate Valid()
    {
      Square(matrixHigh) && Square(matrixLow)
    }

    function LowerHighs(): Result<Quotient> requires Valid() { LowerFacet(matrixHigh) }
    function HigherHighs(): Result<Quotient> requires Valid() { HigherFacet(matrixHigh) }
    function Highs(): Result<Quotient> requires Valid() { OverallFacet(matrixHigh) }
    function LowerLows(): Result<Quotient> requires Valid() { LowerFacet(matrixLow) }
    function HigherLows(): Result<Quotient> requires Valid() { HigherFacet(matrixLow) }
    function Lows(): Result<Quotient> requires Valid() { OverallFacet(matrixLow) }
  }

  /** `Linear.__init__` once the predictions are made: the confusion matrix
      of the high labels against their predictions, and of the low ones. */
  function Assess(classesHigh: seq<int>, predictedHigh: seq<int>, classesLow: seq<int>, predictedLow: seq<int>): (acc: LinearAccuracy)
    requires |classesHigh| == |predictedHigh| && |classesLow| == |predictedLow|
    ensures acc.Valid()
    ensures |acc.matrixHigh| == |Labels(classesHigh, predictedHigh)|
    ensures |acc.matrixLow| == |Labels(classesLow, predictedLow)|
  {
    LinearAccuracy(Confusion(classesHigh, predictedHigh), Confusion(classesLow, predictedLow))
  }

  // ---------------------------------------------------------------------
  // What the sums of a confusion matrix count
  // ---------------------------------------------------------------------

  /** The column entries of label b, added over the rows of `rowLabels`. */
  function CountDown(truth: seq<int>, predicted: seq<int>, rowLabels: seq<int>, b: int): nat
    requires |truth| == |predicted|
  {
    if |rowLabels| == 0 then 0
    else Count(truth, predicted, rowLabels[0], b) + CountDown(truth, predicted, rowLabels[1..], b)
  }

  /** The occurrences of each label in s, added over the labels. */
  function OccurrenceSum(s: seq<int>, labels: seq<int>): nat
  {
    if |labels| == 0 then 0
    else OccurrenceSum(s, labels[..|labels| - 1]) + Occurrences(s, labels[|labels| - 1])
  }

  lemma {:induction false} RowsColumn(truth: seq<int>, predicted: seq<int>, rowLabels: seq<int>, labels: seq<int>, j: nat)
    requires |truth| == |predicted| && j < |labels|
    ensures ColumnSum(Rows(truth, predicted, rowLabels, labels), j) == CountDown(truth, predicted, rowLabels, labels[j])
  {
    if |rowLabels| > 0 {
      var m := Rows(truth, predicted, rowLabels, labels);
      assert m[1..] == Rows(truth, predicted, rowLabels[1..], labels);
      RowsColumn(truth, predicted, rowLabels[1..], labels, j);
    }
  }

  /** A label of an increasing list occurs in it once; any other value not
      at all. */
  lemma {:induction false} OccursOnce(labels: seq<int>, x: int)
    requires Increasing(labels)
    ensures Occurrences(labels, x) == if x in labels then 1 else 0
  {
    if |labels| > 0 {
      Least(labels);
      OccursOnce(labels[1..], x);
    }
  }

  lemma {:induction false} CountDownEmpty(truth: seq<int>, predicted: seq<int>, rowLabels: seq<int>, b: int)
    requires |truth| == |predicted| == 0
    ensures CountDown(truth, predicted, rowLabels, b) == 0
  {
    if |rowLabels| > 0 {
      CountDownEmpty(truth, predicted, rowLabels[1..], b);
    }
  }

  lemma {:induction false} CountDownSplit(truth: seq<int>, predicted: seq<int>, rowLabels: seq<int>, b: int)
    requires |truth| == |predicted| > 0
    ensures CountDown(truth, predicted, rowLabels, b) ==
      (if predicted[0] == b then Occurrences(rowLabels, truth[0]) else 0) + CountDown(truth[1..], predicted[1..], rowLabels, b)
  {
    if |rowLabels| > 0 {
      CountDownSplit(truth, predicted, rowLabels[1..], b);
    }
  }

  /** When the row labels cover every true label, once each, a column sum
      counts the predictions of the column's label. */
  lemma {:induction false} CountDownIsOccurrences(truth: seq<int>, predicted: seq<int>, rowLabels: seq<int>, b: int)
    requires |truth| == |predicted| && Increasing(rowLabels)
    requires forall k :: 0 <= k < |truth| ==> truth[k] in rowLabels
    ensures CountDown(truth, predicted, rowLabels, b) == Occurrences(predicted, b)
  {
    if |truth| == 0 {
      CountDownEmpty(truth, predicted, rowLabels, b);
    } else {
      CountDownSplit(truth, predicted, rowLabels, b);
      assert truth[0] in rowLabels;
      OccursOnce(rowLabels, truth[0]);
      assert forall k :: 0 <= k < |truth| - 1 ==> truth[1..][k] == truth[k + 1];
      CountDownIsOccurrences(truth[1..], predicted[1..], rowLabels, b);
      assert Occurrences(predicted, b) == (if predicted[0] == b then 1 else 0) + Occurrences(predicted[1..], b);
      assert Occurrences(rowLabels, truth[0]) == 1;
    }
  }

  lemma {:induction false} OccurrenceSumEmpty(s: seq<int>, labels: seq<int>)
    requires |s| == 0
    ensures OccurrenceSum(s, labels) == 0
  {
    if |labels| > 0 {
      OccurrenceSumEmpty(s, labels[..|labels| - 1]);
    }
  }

  lemma {:induction false} OccurrenceSumSplit(s: seq<int>, labels: seq<int>)
    requires |s| > 0
    ensures OccurrenceSum(s, labels) == Occurrences(labels, s[0]) + OccurrenceSum(s[1..], labels)
  {
    if |labels| > 0 {
      var init := labels[..|labels| - 1];
      OccurrenceSumSplit(s, init);
      assert labels == init + [labels[|labels| - 1]];
      OccurrencesAppend(init, [labels[|labels| - 1]], s[0]);
    }
  }

  /** Labels that cover s, once each, account for every position of s. */
  lemma {:induction false} OccurrenceSumIsLength(s: seq<int>, labels: seq<int>)
    requires Increasing(labels)
    requires forall k :: 0 <= k < |s| ==> s[k] in labels
    ensures OccurrenceSum(s, labels) == |s|
  {
    if |s| == 0 {
      OccurrenceSumEmpty(s, labels);
    } else {
      OccurrenceSumSplit(s, labels);
      assert s[0] in labels;
      OccursOnce(labels, s[0]);
      assert forall k :: 0 <= k < |s| - 1 ==> s[1..][k] == s[k + 1];
      OccurrenceSumIsLength(s[1..], labels);
    }
  }

  lemma {:induction false} OccurrencesAppend(a: seq<int>, b: seq<int>, x: int)
    ensures Occurrences(a + b, x) == Occurrences(a, x) + Occurrences(b, x)
  {
    if |a| == 0 {
      assert a + b == b;
    } else {
      OccurrencesAppend(a[1..], b, x);
      assert (a + b)[1..] == a[1..] + b;
    }
  }

  lemma {:induction false} ColumnsAreOccurrences(m: Matrix, s: seq<int>, labels: seq<int>, n: nat)
    requires Square(m) && |m| == |labels| && n <= |m|
    requires forall j :: 0 <= j < |m| ==> ColumnSum(m, j) == Occurrences(s, labels[j])
    ensures SumColumns(m, n) == OccurrenceSum(s, labels[..n])
  {
    if n > 0 {
      ColumnsAreOccurrences(m, s, labels, n - 1);
      assert labels[..n][..n - 1] == labels[..n - 1];
    }
  }

  /** Column j of the confusion matrix counts the predictions of the j-th
      label, and the matrix total counts every position. */
  lemma ConfusionSums(truth: seq<int>, predicted: seq<int>)
    requires |truth| == |predicted|
    ensures var m := Confusion(truth, predicted);
      var labels := Labels(truth, predicted);
      && (forall j :: 0 <= j < |m| ==> ColumnSum(m, j) == Occurrences(predicted, labels[j]))
      && Total(m) == |truth|
  {
    var labels := Labels(truth, predicted);
    var m := Confusion(truth, predicted);
    assert forall k :: 0 <= k < |truth| ==> truth[k] in labels;
    assert forall k :: 0 <= k < |predicted| ==> predicted[k] in labels;
    forall j | 0 <= j < |m|
      ensures ColumnSum(m, j) == Occurrences(predicted, labels[j])
    {
      RowsColumn(truth, predicted, labels, labels, j);
      CountDownIsOccurrences(truth, predicted, labels, labels[j]);
    }
    ColumnsAreOccurrences(m, predicted, labels, |m|);
    assert labels[..|m|] == labels;
    OccurrenceSumIsLength(predicted, labels);
  }

  /** The linear facets in terms of the two series, with the labels l0 < l1
      < ... that occur: lower is the number of l1 predicted as l1 over the
      number of predictions of the largest label, higher the number of l0
      predicted as l0 over the predictions of l0, and overall those two
      diagonal counts over the number of positions. Lower and overall need
      two labels, higher one. */
  lemma FacetsMeaning(truth: seq<int>, predicted: seq<int>)
    requires |truth| == |predicted|
    ensures
      var labels := Labels(truth, predicted);
      var m := Confusion(truth, predicted);
      && (LowerFacet(m).Err? <==> |labels| < 2)
      && (HigherFacet(m).Err? <==> |truth| == 0)
      && (OverallFacet(m).Err? <==> |labels| < 2)
      && (|labels| >= 2 ==>
            LowerFacet(m) == Ok(Divide(Count(truth, predicted, labels[1], labels[1]), Occurrences(predicted, labels[|labels| - 1]))))
      && (|truth| > 0 ==>
            HigherFacet(m) == Ok(Divide(Count(truth, predicted, labels[0], labels[0]), Occurrences(predicted, labels[0]))))
      && (|labels| >= 2 ==>
            OverallFacet(m) == Ok(Divide(Count(truth, predicted, labels[0], labels[0]) + Count(truth, predicted, labels[1], labels[1]), |truth|)))
  {
    var labels := Labels(truth, predicted);
    ConfusionSums(truth, predicted);
    if |truth| > 0 {
      assert truth[0] in labels;
    }
    if |labels| > 0 {
      assert labels[0] in truth || labels[0] in predicted;
    }
  }

  // ---------------------------------------------------------------------
  // The two cases the classifiers produce
  // ---------------------------------------------------------------------

  ghost predicate Binary(s: seq<int>)
  {
    forall i :: 0 <= i < |s| ==> s[i] == -1 || s[i] == 1
  }

  /** On labels -1 and 1 the two diagonal counts add up to the matches. */
  lemma {:induction false} MatchesBinary(truth: seq<int>, predicted: seq<int>)
    requires |truth| == |predicted| && Binary(truth) && Binary(predicted)
    ensures Count(truth, predicted, -1, -1) + Count(truth, predicted, 1, 1) == Matches(truth, predicted)
  {
    if |truth| > 0 {
      assert forall i :: 0 <= i < |truth| - 1 ==> truth[1..][i] == truth[i + 1] && predicted[1..][i] == predicted[i + 1];
      MatchesBinary(truth[1..], predicted[1..]);
    }
  }

  /** When both classes occur the matrix is the 2x2 one in the order -1, 1:
      lower is the share of the predictions of 1 that were right, higher the
      share of the predictions of -1 that were right, and overall the share
      of all predictions that were right. */
  lemma BinaryFacets(truth: seq<int>, predicted: seq<int>)
    requires |truth| == |predicted| && Binary(truth) && Binary(predicted)
    requires (-1 in truth || -1 in predicted) && (1 in truth || 1 in predicted)
    ensures Labels(truth, predicted) == [-1, 1]
    ensures LowerFacet(Confusion(truth, predicted)) == Ok(Divide(Count(truth, predicted, 1, 1), Occurrences(predicted, 1)))
    ensures HigherFacet(Confusion(truth, predicted)) == Ok(Divide(Count(truth, predicted, -1, -1), Occurrences(predicted, -1)))
    ensures OverallFacet(Confusion(truth, predicted)) == Ok(Divide(Matches(truth, predicted), |truth|))
  {
    BinaryLabels(truth, predicted);
    MatchesBinary(truth, predicted);
    TwoLabelFacets(truth, predicted);
  }

  lemma TwoLabelFacets(truth: seq<int>, predicted: seq<int>)
    requires |truth| == |predicted| && Labels(truth, predicted) == [-1, 1]
    ensures LowerFacet(Confusion(truth, predicted)) == Ok(Divide(Count(truth, predicted, 1, 1), Occurrences(predicted, 1)))
    ensures HigherFacet(Confusion(truth, predicted)) == Ok(Divide(Count(truth, predicted, -1, -1), Occurrences(predicted, -1)))
    ensures OverallFacet(Confusion(truth, predicted)) ==
      Ok(Divide(Count(truth, predicted, -1, -1) + Count(truth, predicted, 1, 1), |truth|))
  {
    var labels := Labels(truth, predicted);
    assert labels[0] in truth || labels[0] in predicted;
    assert |truth| > 0 && labels[0] == -1 && labels[1] == 1 && |labels| == 2;
    FacetsMeaning(truth, predicted);
  }

  lemma BinaryLabels(truth: seq<int>, predicted: seq<int>)
    requires |truth| == |predicted| && Binary(truth) && Binary(predicted)
    requires (-1 in truth || -1 in predicted) && (1 in truth || 1 in predicted)
    ensures Labels(truth, predicted) == [-1, 1]
  {
    forall y
      ensures y in [-1, 1] <==> y in truth || y in predicted
    {
      if y in truth {
        var k :| 0 <= k < |truth| && truth[k] == y;
      }
      if y in predicted {
        var k :| 0 <= k < |predicted| && predicted[k] == y;
      }
    }
    LabelsUnique(truth, predicted, [-1, 1]);
  }

  /** When a single label x is the only one in both series the matrix is
      1x1: lower and overall raise IndexError, and higher is 1. */
  lemma OneLabelFacets(truth: seq<int>, predicted: seq<int>, x: int)
    requires |truth| == |predicted| > 0
    requires forall k :: 0 <= k < |truth| ==> truth[k] == x && predicted[k] == x
    ensures Labels(truth, predicted) == [x]
    ensures LowerFacet(Confusion(truth, predicted)) == Err(IndexError)
    ensures OverallFacet(Confusion(truth, predicted)) == Err(IndexError)
    ensures HigherFacet(Confusion(truth, predicted)) == Ok(Finite(1.0))
  {
    OneLabel(truth, predicted, x);
    var m := Confusion(truth, predicted);
    ConfusionSums(truth, predicted);
    AllOneLabel(truth, predicted, x);
    var n := |truth| as real;
    assert m[0][0] as real == n && ColumnSum(m, 0) as real == n;
    var v := HigherFacet(m).value.value;
    assert v * n == n;
    assert v == 1.0 by {
      DivTimes(v * n, n);
      DivSelf(n);
    }
  }

  lemma OneLabel(truth: seq<int>, predicted: seq<int>, x: int)
    requires |truth| == |predicted| > 0
    requires forall k :: 0 <= k < |truth| ==> truth[k] == x && predicted[k] == x
    ensures Labels(truth, predicted) == [x]
  {
    forall y
      ensures y in [x] <==> y in truth || y in predicted
    {
      assert truth[0] == x;
    }
    LabelsUnique(truth, predicted, [x]);
  }

  lemma {:induction false} AllOneLabel(truth: seq<int>, predicted: seq<int>, x: int)
    requires |truth| == |predicted|
    requires forall k :: 0 <= k < |truth| ==> truth[k] == x && predicted[k] == x
    ensures Count(truth, predicted, x, x) == |truth| && Occurrences(predicted, x) == |truth|
  {
    if |truth| > 0 {
      AllOneLabel(truth[1..], predicted[1..], x);
    }
  }

  /** The overall facet of a 2x2 matrix is the mediant of the two column
      facets, so it lies between them whenever both columns are non-empty. */
  lemma OverallBetween(m: Matrix)
    requires Square(m) && |m| == 2
    requires ColumnSum(m, 0) > 0 && ColumnSum(m, 1) > 0
    ensures
      var lo := LowerFacet(m).value.value;
      var hi := HigherFacet(m).value.value;
      var all := OverallFacet(m).value.value;
      (lo <= hi ==> lo <= all <= hi) && (hi <= lo ==> hi <= all <= lo)
  {
    TwoByTwo(m);
    TwoByTwoTotal(m);
    var c0 := ColumnSum(m, 0);
    var c1 := ColumnSum(m, 1);
    assert LowerFacet(m) == Ok(Divide(m[1][1], c1));
    assert HigherFacet(m) == Ok(Divide(m[0][0], c0));
    assert OverallFacet(m) == Ok(Divide(m[0][0] + m[1][1], c0 + c1));
    DivideMediant(m[0][0], c0, m[1][1], c1);
  }

  /** The mediant (a0 + a1) / (b0 + b1) lies between a0 / b0 and a1 / b1. */
  lemma DivideMediant(a0: nat, b0: nat, a1: nat, b1: nat)
    requires b0 > 0 && b1 > 0
    ensures
      var x := Divide(a0, b0).value;
      var y := Divide(a1, b1).value;
      var z := Divide(a0 + a1, b0 + b1).value;
      (x <= y ==> x <= z <= y) && (y <= x ==> y <= z <= x)
  {
    var x := Divide(a0, b0).value;
    var y := Divide(a1, b1).value;
    var z := Divide(a0 + a1, b0 + b1).value;
    Mediant(x, y, b0 as real, b1 as real, (b0 + b1) as real, z, a0 as real, a1 as real);
  }

  lemma Mediant(x: real, y: real, a: real, b: real, t: real, z: real, p: real, q: real)
    requires a > 0.0 && b > 0.0 && t == a + b
    requires x * a == p && y * b == q && z * t == p + q
    ensures x <= y ==> x <= z <= y
    ensures y <= x ==> y <= z <= x
  {
    Weighted(x, y, a, b, z);
  }

  /** A weighted average of two values lies between them. */
  lemma Weighted(x: real, y: real, a: real, b: real, z: real)
    requires a > 0.0 && b > 0.0 && z * (a + b) == x * a + y * b
    ensures x <= y ==> x <= z <= y
    ensures y <= x ==> y <= z <= x
  {
    assert (z - x) * (a + b) == (y - x) * b;
    assert (y - z) * (a + b) == (y - x) * a;
    SignOfProduct(z - x, a + b);
    SignOfProduct(y - x, b);
    SignOfProduct(y - z, a + b);
    SignOfProduct(y - x, a);
  }

  lemma SignOfProduct(u: real, c: real)
    requires c > 0.0
    ensures u * c >= 0.0 <==> u >= 0.0
    ensures u * c <= 0.0 <==> u <= 0.0
  {
    if u < 0.0 {
      assert u * c < 0.0;
    } else if u > 0.0 {
      assert u * c > 0.0;
    }
  }

  // ---------------------------------------------------------------------
  // Bayesian facets
  // ---------------------------------------------------------------------

  /** A dictionary lookup: KeyError when the key is absent. */
  function Lookup(m: map<Option<int>, real>, k: Option<int>): (r: Result<real>)
    ensures r.Ok? <==> k in m
    ensures r.Ok? ==> r.value == m[k]
    ensures r.Err? ==> r.fault == KeyError
  {
    if k in m then Ok(m[k]) else Err(KeyError)
  }

  /** The two dictionaries of the Bayesian report, one per label series. */
  datatype BayesianAccuracy = BayesianAccuracy(highs: map<Option<int>, real>, lows: map<Option<int>, real>)
  {
    function LowerHighs(): Result<real> { Lookup(highs, Some(-1)) }
    function HigherHighs(): Result<real> { Lookup(highs, Some(1)) }
    function Highs(): Result<real> { Lookup(highs, None) }
    function LowerLows(): Result<real> { Lookup(lows, Some(-1)) }
    function HigherLows(): Result<real> { Lookup(lows, Some(1)) }
    function Lows(): Result<real> { Lookup(lows, None) }
  }

  /** The Bayesian facets of one label series, read from the dictionary
      `accuracy` returns: for each class, the share of its definitive
      predictions that were correct, or KeyError when the class never
      received one; overall, the share of all definitive predictions that
      were correct. */
  lemma SeriesFacets(obs: seq<Tally.Obs>)
    requires Tally.Accuracy(obs, 1.0).Ok?
    ensures
      var acc := Tally.Accuracy(obs, 1.0).value;
      && Tally.DefinitiveTotal(obs) > 0
      && Lookup(acc, None) == Ok(Tally.Scaled(1.0, Tally.HitsTotal(obs), Tally.DefinitiveTotal(obs)))
      && (forall c :: Lookup(acc, Some(c)).Ok? <==> Tally.Definitive(obs, c) > 0)
      && (forall c :: Tally.Definitive(obs, c) > 0 ==>
            Lookup(acc, Some(c)) == Ok(Tally.Scaled(1.0, Tally.Hits(obs, c), Tally.Definitive(obs, c))))
  {
    Tally.AccuracyMeaning(obs, 1.0);
  }

  /** The six Bayesian facets: lower is class -1, higher is class 1, and the
      overall facet is the `None` entry, for highs and lows alike. */
  lemma BayesianFacetsMeaning(obsHigh: seq<Tally.Obs>, obsLow: seq<Tally.Obs>)
    requires Tally.Accuracy(obsHigh, 1.0).Ok? && Tally.Accuracy(obsLow, 1.0).Ok?
    ensures
      var b := BayesianAccuracy(Tally.Accuracy(obsHigh, 1.0).value, Tally.Accuracy(obsLow, 1.0).value);
      && Tally.DefinitiveTotal(obsHigh) > 0 && Tally.DefinitiveTotal(obsLow) > 0
      && b.Highs() == Ok(Tally.Scaled(1.0, Tally.HitsTotal(obsHigh), Tally.DefinitiveTotal(obsHigh)))
      && b.Lows() == Ok(Tally.Scaled(1.0, Tally.HitsTotal(obsLow), Tally.DefinitiveTotal(obsLow)))
      && (b.LowerHighs().Ok? <==> Tally.Definitive(obsHigh, -1) > 0)
      && (b.HigherHighs().Ok? <==> Tally.Definitive(obsHigh, 1) > 0)
      && (b.LowerLows().Ok? <==> Tally.Definitive(obsLow, -1) > 0)
      && (b.HigherLows().Ok? <==> Tally.Definitive(obsLow, 1) > 0)
      && (Tally.Definitive(obsHigh, -1) > 0 ==>
            b.LowerHighs() == Ok(Tally.Scaled(1.0, Tally.Hits(obsHigh, -1), Tally.Definitive(obsHigh, -1))))
      && (Tally.Definitive(obsHigh, 1) > 0 ==>
            b.HigherHighs() == Ok(Tally.Scaled(1.0, Tally.Hits(obsHigh, 1), Tally.Definitive(obsHigh, 1))))
      && (Tally.Definitive(obsLow, -1) > 0 ==>
            b.LowerLows() == Ok(Tally.Scaled(1.0, Tally.Hits(obsLow, -1), Tally.Definitive(obsLow, -1))))
      && (Tally.Definitive(obsLow, 1) > 0 ==>
            b.HigherLows() == Ok(Tally.Scaled(1.0, Tally.Hits(obsLow, 1), Tally.Definitive(obsLow, 1))))
  {
    SeriesFacets(obsHigh);
    SeriesFacets(obsLow);
  }
}

=== FILE: feature.dfy ===
/** The windowed features of one anchor timestamp (class `Feature` and the
    function `vector` of the feature module).

    A `Feature` for (data, timestamp, periods) looks at the last `periods`
    entries up to and including the anchor. Each ratio is computed on that
    window; the window-level functions below take the window itself, and the
    data-level functions select the window first, so that a failing lookup or
    an empty window raises exactly where the Python code raises.
 */
module Feature {
  import opened Wrappers
  import opened PySeq
  import opened Quantize
  import opened Series
  import opened Arith

  /** Python's `samples[-1]`. */
  function Last(w: seq<real>): real
    requires |w| > 0
  {
    w[|w| - 1]
  }

  // ---------------------------------------------------------------------
  // Window selection
  // ---------------------------------------------------------------------

  /** `_start_stop`: slice bounds that end just after the first occurrence of
      the anchor timestamp and span `periods` positions. */
  function StartStop(timestamps: seq<int>, ts: int, periods: int): (r: Result<(int, int)>)
    ensures r.Err? <==> ts !in timestamps
    ensures r.Err? ==> r.fault == ValueError
    ensures r.Ok? ==> r.value.1 - r.value.0 == periods
    ensures r.Ok? ==> 1 <= r.value.1 <= |timestamps| && timestamps[r.value.1 - 1] == ts
    ensures r.Ok? ==> ts !in timestamps[..r.value.1 - 1]
  {
    var i :- IndexOf(timestamps, ts);
    Ok((i + 1 - periods, i + 1))
  }

  /** `_samples_high`, `_samples_low`, `_samples_close`, `_samples_volume`. */
  function Samples(values: seq<real>, timestamps: seq<int>, ts: int, periods: int): Result<seq<real>>
  {
    var bounds :- StartStop(timestamps, ts, periods);
    Ok(Slice(values, bounds.0, bounds.1))
  }

  /** With enough history the window is exactly the `periods` values ending
      at the anchor, and its last element is the anchor's own value. */
  lemma WindowShape(values: seq<real>, timestamps: seq<int>, ts: int, periods: int, i: nat)
    requires i < |timestamps| == |values|
    requires timestamps[i] == ts && ts !in timestamps[..i]
    requires 0 <= periods <= i + 1
    ensures Samples(values, timestamps, ts, periods) == Ok(values[i + 1 - periods .. i + 1])
    ensures |values[i + 1 - periods .. i + 1]| == periods
    ensures periods > 0 ==> Last(values[i + 1 - periods .. i + 1]) == values[i]
  {
    assert ts in timestamps;
  }

  /** With too little history the start bound is negative and Python wraps it
      around the end of the list: once the list holds at least `periods`
      values the window comes out empty. */
  lemma ShortHistoryWindow(values: seq<real>, timestamps: seq<int>, ts: int, periods: int, i: nat)
    requires i < |timestamps| == |values|
    requires timestamps[i] == ts && ts !in timestamps[..i]
    requires i + 1 < periods <= |values|
    ensures Samples(values, timestamps, ts, periods) == Ok([])
  {
    WindowShape(values, timestamps, ts, 0, i);
  }

  /** Enough history for a window of `periods` values: the anchor is there,
      the series runs alongside the timestamps, and at least `periods`
      values lead up to and include the anchor's first occurrence. */
  predicate Enough(values: seq<real>, timestamps: seq<int>, ts: int, periods: int)
  {
    && |values| == |timestamps|
    && ts in timestamps
    && 0 <= periods <= IndexOf(timestamps, ts).value + 1
  }

  /** The `periods` values ending at the anchor. */
  function Recent(values: seq<real>, timestamps: seq<int>, ts: int, periods: int): (w: seq<real>)
    requires Enough(values, timestamps, ts, periods)
    ensures |w| == periods
    ensures periods > 0 ==> Last(w) == values[IndexOf(timestamps, ts).value]
  {
    var i := IndexOf(timestamps, ts).value;
    values[i + 1 - periods .. i + 1]
  }

  /** A window is a ValueError for an unknown anchor, and the recent values
      when there is enough history. */
  lemma SamplesMeaning(values: seq<real>, timestamps: seq<int>, ts: int, periods: int)
    ensures ts !in timestamps ==> Samples(values, timestamps, ts, periods) == Err(ValueError)
    ensures Enough(values, timestamps, ts, periods) ==>
      Samples(values, timestamps, ts, periods) == Ok(Recent(values, timestamps, ts, periods))
  {
    if Enough(values, timestamps, ts, periods) {
      WindowShape(values, timestamps, ts, periods, IndexOf(timestamps, ts).value);
    }
  }

  // ---------------------------------------------------------------------
  // Ratios on one window
  // ---------------------------------------------------------------------

  /** `max_high_percent`: the window's maximum over its current value. */
  function MaxRatio(w: seq<real>): (r: Result<real>)
    ensures |w| == 0 ==> r == Err(ValueError)
    ensures |w| > 0 && Last(w) == 0.0 ==> r == Err(ZeroDivisionError)
    ensures |w| > 0 && Last(w) != 0.0 ==> r == Ok(Max(w) / Last(w))
    ensures |w| > 0 && Last(w) > 0.0 ==> r.Ok? && 1.0 <= r.value
  {
    if |w| == 0 then Err(ValueError)
    else if Last(w) == 0.0 then Err(ZeroDivisionError)
    else
      if Last(w) > 0.0 then
        DivMono(Last(w), Max(w), Last(w));
        DivSelf(Last(w));
        Ok(Max(w) / Last(w))
      else Ok(Max(w) / Last(w))
  }

  /** `min_low_percent`: the window's minimum over its current value. */
  function MinRatio(w: seq<real>): (r: Result<real>)
    ensures |w| == 0 ==> r == Err(ValueError)
    ensures |w| > 0 && Last(w) == 0.0 ==> r == Err(ZeroDivisionError)
    ensures |w| > 0 && Last(w) != 0.0 ==> r == Ok(Min(w) / Last(w))
    ensures |w| > 0 && Last(w) > 0.0 ==> r.Ok? && r.value <= 1.0
  {
    if |w| == 0 then Err(ValueError)
    else if Last(w) == 0.0 then Err(ZeroDivisionError)
    else
      if Last(w) > 0.0 then
        DivMono(Min(w), Last(w), Last(w));
        DivSelf(Last(w));
        Ok(Min(w) / Last(w))
      else Ok(Min(w) / Last(w))
  }

  /** The arithmetic mean of a non-empty window, as `sum(w) / len(w)`. */
  function Mean(w: seq<real>): (m: real)
    requires |w| > 0
    ensures Min(w) <= m <= Max(w)
  {
    SumBetween(w, Min(w), Max(w));
    MeanBounds(Sum(w), |w| as real, Min(w), Max(w));
    Sum(w) / |w| as real
  }

  /** `mean_high_percent` / `mean_low_percent`: the window's mean over its
      current value. An empty window divides by its zero length. */
  function MeanRatio(w: seq<real>): (r: Result<real>)
    ensures |w| == 0 ==> r == Err(ZeroDivisionError)
    ensures |w| > 0 && Last(w) == 0.0 ==> r == Err(ZeroDivisionError)
    ensures |w| > 0 && Last(w) != 0.0 ==> r == Ok(Mean(w) / Last(w))
    ensures |w| > 0 && Last(w) > 0.0 ==>
      r.Ok? && Min(w) / Last(w) <= r.value <= Max(w) / Last(w)
  {
    if |w| == 0 then Err(ZeroDivisionError)
    else if Last(w) == 0.0 then Err(ZeroDivisionError)
    else
      if Last(w) > 0.0 then
        DivMono(Min(w), Mean(w), Last(w));
        DivMono(Mean(w), Max(w), Last(w));
        Ok(Mean(w) / Last(w))
      else Ok(Mean(w) / Last(w))
  }

  /** For a positive current value the max ratio is at least the mean ratio,
      and the mean ratio at least the min ratio. */
  lemma RatioOrder(w: seq<real>)
    requires |w| > 0 && Last(w) > 0.0
    ensures MinRatio(w).value <= MeanRatio(w).value <= MaxRatio(w).value
  {
  }

  // ---------------------------------------------------------------------
  // Average true range
  // ---------------------------------------------------------------------

  function Abs(x: real): real
  {
    if x < 0.0 then -x else x
  }

  /** True range of one bar against the previous close. */
  function TrueRange(high: real, low: real, prevClose: real): (r: real)
    ensures r >= high - low && r >= Abs(high - prevClose) && r >= Abs(low - prevClose)
    ensures r == high - low || r == Abs(high - prevClose) || r == Abs(low - prevClose)
    ensures r >= 0.0
  {
    var a := high - low;
    var b := Abs(high - prevClose);
    var c := Abs(low - prevClose);
    if a >= b && a >= c then a else if b >= c then b else c
  }

  /** The true ranges of bars 1 .. |h| - 1 of a window (bar 0 has no previous
      close inside the window). */
  function TrueRanges(h: seq<real>, l: seq<real>, c: seq<real>): (r: seq<real>)
    requires |l| == |h| && |c| == |h|
    ensures |h| <= 1 ==> r == []
    ensures |h| >= 1 ==> |r| == |h| - 1
    ensures forall j :: 0 <= j < |r| ==> r[j] == TrueRange(h[j + 1], l[j + 1], c[j])
  {
    if |h| <= 1 then []
    else seq(|h| - 1, j requires 0 <= j < |h| - 1 => TrueRange(h[j + 1], l[j + 1], c[j]))
  }

  /** `_atr`: the mean true range over the window. A window of fewer than two
      bars has no true range and divides by zero. */
  function Atr(h: seq<real>, l: seq<real>, c: seq<real>): (r: Result<real>)
    requires |l| == |h| && |c| == |h|
    ensures r.Ok? <==> |h| >= 2
    ensures r.Err? ==> r.fault == ZeroDivisionError
    ensures r.Ok? ==> r.value >= 0.0
  {
    var tr := TrueRanges(h, l, c);
    if |tr| == 0 then Err(ZeroDivisionError)
    else
      SumBetween(tr, 0.0, Max(tr));
      DivMono(0.0, Sum(tr), |tr| as real);
      Ok(Sum(tr) / |tr| as real)
  }

  /** Every true range is at least the bar's high - low spread, so the ATR is
      at least any lower bound on the spreads of bars 1 .. |h| - 1. */
  lemma AtrAtLeastSpread(h: seq<real>, l: seq<real>, c: seq<real>, lo: real)
    requires |l| == |h| && |c| == |h| && |h| >= 2
    requires forall j :: 1 <= j < |h| ==> lo <= h[j] - l[j]
    ensures Atr(h, l, c).value >= lo
  {
    var tr := TrueRanges(h, l, c);
    var hi := Max(tr);
    forall j | 0 <= j < |tr|
      ensures lo <= tr[j] <= hi
    {
      assert lo <= h[j + 1] - l[j + 1];
    }
    SumBetween(tr, lo, hi);
    MeanBounds(Sum(tr), |tr| as real, lo, hi);
  }

  /** The ATR-adjusted distance of an extreme from the current value, relative
      to the current value: (extreme - (current + offset)) / current. */
  function AtrDistance(extreme: real, current: real, offset: real): (r: real)
    requires current != 0.0
    ensures r * current == extreme - (current + offset)
    ensures r == (extreme - current) / current - offset / current
  {
    DivSub(extreme - current, offset, current);
    assert (extreme - (current + offset)) / current * current == extreme - (current + offset);
    (extreme - (current + offset)) / current
  }

  /** `max_atr_percent`: (max high - (current high + ATR)) / current high.
      The current value is read first (IndexError on an empty window), then
      the ATR (ZeroDivisionError on a one-bar window). */
  function MaxAtrRatio(h: seq<real>, l: seq<real>, c: seq<real>): (r: Result<real>)
    requires |l| == |h| && |c| == |h|
    ensures |h| == 0 ==> r == Err(IndexError)
    ensures |h| == 1 ==> r == Err(ZeroDivisionError)
    ensures |h| >= 2 && Last(h) == 0.0 ==> r == Err(ZeroDivisionError)
    ensures |h| >= 2 && Last(h) != 0.0 ==>
      r == Ok(AtrDistance(Max(h), Last(h), Atr(h, l, c).value))
    ensures |h| >= 2 && Last(h) > 0.0 ==>
      r.Ok? && -(Atr(h, l, c).value / Last(h)) <= r.value <= (Max(h) - Last(h)) / Last(h)
  {
    if |h| == 0 then Err(IndexError)
    else
      var current := Last(h);
      var maximum := Max(h);
      var atr :- Atr(h, l, c);
      if current == 0.0 then Err(ZeroDivisionError)
      else
        var m := AtrDistance(maximum, current, atr);
        if current > 0.0 then
          DivMono(0.0, maximum - current, current);
          DivMono(0.0, atr, current);
          Ok(m)
        else Ok(m)
  }

  /** `min_atr_percent`: (min low - (current low - ATR)) / current low, on the
      same window of highs, lows and closes. */
  function MinAtrRatio(h: seq<real>, l: seq<real>, c: seq<real>): (r: Result<real>)
    requires |l| == |h| && |c| == |h|
    ensures |h| == 0 ==> r == Err(IndexError)
    ensures |h| == 1 ==> r == Err(ZeroDivisionError)
    ensures |h| >= 2 && Last(l) == 0.0 ==> r == Err(ZeroDivisionError)
    ensures |h| >= 2 && Last(l) != 0.0 ==>
      r == Ok(AtrDistance(Min(l), Last(l), -Atr(h, l, c).value))
    ensures |h| >= 2 && Last(l) > 0.0 ==>
      r.Ok? && (Min(l) - Last(l)) / Last(l) <= r.value <= Atr(h, l, c).value / Last(l)
  {
    if |l| == 0 then Err(IndexError)
    else
      var current := Last(l);
      var minimum := Min(l);
      var atr :- Atr(h, l, c);
      if current == 0.0 then Err(ZeroDivisionError)
      else
        var m := AtrDistance(minimum, current, -atr);
        if current > 0.0 then
          DivNeg(atr, current);
          DivMono(minimum - current, 0.0, current);
          DivMono(0.0, atr, current);
          Ok(m)
        else Ok(m)
  }

  // ---------------------------------------------------------------------
  // Psychological levels
  // ---------------------------------------------------------------------

  /** Number of psychological levels: quantize to 1, 2, 3, 4 and 5 decimal
      places (the formatter '10000.' gains one '0' per step). */
  const PsychoLevels: nat := 5

  /** One minimum psychological level: the price rounded toward zero to k
      places, relative to the price. For a positive price it lies in [0, 1]
      and within one grid step (relative) of 1. */
  function MinLevel(current: real, k: nat): (r: real)
    requires current != 0.0
    ensures r * current == RoundDown(current, k)
    ensures current > 0.0 ==> 0.0 <= r <= 1.0 && current - r * current < 1.0 / Scale(k)
  {
    var q := RoundDown(current, k);
    var r := q / current;
    DivCancel(q, current);
    if current > 0.0 then
      assert current - q < 1.0 / Scale(k);
      DivMono(q, current, current);
      DivMono(0.0, q, current);
      r
    else r
  }

  /** One maximum psychological level: the price rounded away from zero to k
      places, relative to the price. For a positive price it is at least 1
      and within one grid step (relative) of 1. */
  function MaxLevel(current: real, k: nat): (r: real)
    requires current != 0.0
    ensures r * current == RoundUp(current, k)
    ensures current > 0.0 ==> 1.0 <= r && r * current - current < 1.0 / Scale(k)
  {
    var q := RoundUp(current, k);
    var r := q / current;
    DivCancel(q, current);
    if current > 0.0 then
      assert q - current < 1.0 / Scale(k);
      DivMono(current, q, current);
      r
    else r
  }

  /** A finer grid moves the minimum level up toward 1. */
  lemma MinLevelFiner(current: real, k: nat)
    requires current > 0.0
    ensures MinLevel(current, k) <= MinLevel(current, k + 1)
  {
    RoundDownFiner(current, k);
    DivMono(RoundDown(current, k), RoundDown(current, k + 1), current);
  }

  /** A finer grid moves the maximum level down toward 1. */
  lemma MaxLevelFiner(current: real, k: nat)
    requires current > 0.0
    ensures MaxLevel(current, k + 1) <= MaxLevel(current, k)
  {
    RoundUpFiner(current, k);
    DivMono(RoundUp(current, k + 1), RoundUp(current, k), current);
  }

  /** `min_psycho`: the current value rounded toward zero to 1 .. 5 decimal
      places, each over the current value. */
  function MinPsycho(w: seq<real>): (r: Result<seq<real>>)
    ensures |w| == 0 ==> r == Err(IndexError)
    ensures |w| > 0 && Last(w) == 0.0 ==> r == Err(ZeroDivisionError)
    ensures |w| > 0 && Last(w) != 0.0 ==> r.Ok? && |r.value| == PsychoLevels
    ensures |w| > 0 && Last(w) != 0.0 ==>
      forall k :: 0 <= k < PsychoLevels ==> r.value[k] == MinLevel(Last(w), k + 1)
  {
    if |w| == 0 then Err(IndexError)
    else if Last(w) == 0.0 then Err(ZeroDivisionError)
    else Ok(seq(PsychoLevels, k requires 0 <= k < PsychoLevels => MinLevel(Last(w), k + 1)))
  }

  /** `max_psycho`: the current value rounded away from zero to 1 .. 5
      decimal places, each over the current value. */
  function MaxPsycho(w: seq<real>): (r: Result<seq<real>>)
    ensures |w| == 0 ==> r == Err(IndexError)
    ensures |w| > 0 && Last(w) == 0.0 ==> r == Err(ZeroDivisionError)
    ensures |w| > 0 && Last(w) != 0.0 ==> r.Ok? && |r.value| == PsychoLevels
    ensures |w| > 0 && Last(w) != 0.0 ==>
      forall k :: 0 <= k < PsychoLevels ==> r.value[k] == MaxLevel(Last(w), k + 1)
  {
    if |w| == 0 then Err(IndexError)
    else if Last(w) == 0.0 then Err(ZeroDivisionError)
    else Ok(seq(PsychoLevels, k requires 0 <= k < PsychoLevels => MaxLevel(Last(w), k + 1)))
  }

  /** For a positive price the min levels lie in [0, 1] and approach 1 from
      below as the grid gets finer. */
  lemma MinPsychoOrdered(w: seq<real>)
    requires |w| > 0 && Last(w) > 0.0
    ensures forall k :: 0 <= k < PsychoLevels ==> 0.0 <= MinPsycho(w).value[k] <= 1.0
    ensures forall k :: 0 <= k < PsychoLevels - 1 ==> MinPsycho(w).value[k] <= MinPsycho(w).value[k + 1]
  {
    var levels := MinPsycho(w).value;
    forall k | 0 <= k < PsychoLevels - 1
      ensures levels[k] <= levels[k + 1]
    {
      MinLevelFiner(Last(w), k + 1);
    }
  }

  /** For a positive price the max levels are at least 1 and approach 1 from
      above as the grid gets finer. */
  lemma MaxPsychoOrdered(w: seq<real>)
    requires |w| > 0 && Last(w) > 0.0
    ensures forall k :: 0 <= k < PsychoLevels ==> 1.0 <= MaxPsycho(w).value[k]
    ensures forall k :: 0 <= k < PsychoLevels - 1 ==> MaxPsycho(w).value[k + 1] <= MaxPsycho(w).value[k]
  {
    var levels := MaxPsycho(w).value;
    forall k | 0 <= k < PsychoLevels - 1
      ensures levels[k + 1] <= levels[k]
    {
      MaxLevelFiner(Last(w), k + 1);
    }
  }

  // ---------------------------------------------------------------------
  // Features of the data at an anchor timestamp
  // ---------------------------------------------------------------------

  function MaxHighPercent(d: FxData, ts: int, periods: int): (r: Result<real>)
    ensures ts !in d.timestamps ==> r == Err(ValueError)
    ensures Enough(d.highs, d.timestamps, ts, periods) ==>
      r == MaxRatio(Recent(d.highs, d.timestamps, ts, periods))
  {
    SamplesMeaning(d.highs, d.timestamps, ts, periods);
    var w :- Samples(d.highs, d.timestamps, ts, periods);
    MaxRatio(w)
  }

  function MinLowPercent(d: FxData, ts: int, periods: int): (r: Result<real>)
    ensures ts !in d.timestamps ==> r == Err(ValueError)
    ensures Enough(d.lows, d.timestamps, ts, periods) ==>
      r == MinRatio(Recent(d.lows, d.timestamps, ts, periods))
  {
    SamplesMeaning(d.lows, d.timestamps, ts, periods);
    var w :- Samples(d.lows, d.timestamps, ts, periods);
    MinRatio(w)
  }

  function MeanHighPercent(d: FxData, ts: int, periods: int): (r: Result<real>)
    ensures ts !in d.timestamps ==> r == Err(ValueError)
    ensures Enough(d.highs, d.timestamps, ts, periods) ==>
      r == MeanRatio(Recent(d.highs, d.timestamps, ts, periods))
  {
    SamplesMeaning(d.highs, d.timestamps, ts, periods);
    var w :- Samples(d.highs, d.timestamps, ts, periods);
    MeanRatio(w)
  }

  function MeanLowPercent(d: FxData, ts: int, periods: int): (r: Result<real>)
    ensures ts !in d.timestamps ==> r == Err(ValueError)
    ensures Enough(d.lows, d.timestamps, ts, periods) ==>
      r == MeanRatio(Recent(d.lows, d.timestamps, ts, periods))
  {
    SamplesMeaning(d.lows, d.timestamps, ts, periods);
    var w :- Samples(d.lows, d.timestamps, ts, periods);
    MeanRatio(w)
  }

  function MeanVolumePercent(d: FxData, ts: int, periods: int): (r: Result<real>)
    ensures ts !in d.timestamps ==> r == Err(ValueError)
    ensures Enough(d.volumes, d.timestamps, ts, periods) ==>
      r == MeanRatio(Recent(d.volumes, d.timestamps, ts, periods))
  {
    SamplesMeaning(d.volumes, d.timestamps, ts, periods);
    var w :- Samples(d.volumes, d.timestamps, ts, periods);
    MeanRatio(w)
  }

  function MaxAtrPercent(d: FxData, ts: int, periods: int): (r: Result<real>)
    requires d.Aligned()
    ensures ts !in d.timestamps ==> r == Err(ValueError)
    ensures Enough(d.highs, d.timestamps, ts, periods) ==>
      r == MaxAtrRatio(
        Recent(d.highs, d.timestamps, ts, periods),
        Recent(d.lows, d.timestamps, ts, periods),
        Recent(d.closes, d.timestamps, ts, periods))
  {
    SamplesMeaning(d.highs, d.timestamps, ts, periods);
    SamplesMeaning(d.lows, d.timestamps, ts, periods);
    SamplesMeaning(d.closes, d.timestamps, ts, periods);
    var h :- Samples(d.highs, d.timestamps, ts, periods);
    var l :- Samples(d.lows, d.timestamps, ts, periods);
    var c :- Samples(d.closes, d.timestamps, ts, periods);
    MaxAtrRatio(h, l, c)
  }

  function MinAtrPercent(d: FxData, ts: int, periods: int): (r: Result<real>)
    requires d.Aligned()
    ensures ts !in d.timestamps ==> r == Err(ValueError)
    ensures Enough(d.highs, d.timestamps, ts, periods) ==>
      r == MinAtrRatio(
        Recent(d.highs, d.timestamps, ts, periods),
        Recent(d.lows, d.timestamps, ts, periods),
        Recent(d.closes, d.timestamps, ts, periods))
  {
    SamplesMeaning(d.highs, d.timestamps, ts, periods);
    SamplesMeaning(d.lows, d.timestamps, ts, periods);
    SamplesMeaning(d.closes, d.timestamps, ts, periods);
    var h :- Samples(d.highs, d.timestamps, ts, periods);
    var l :- Samples(d.lows, d.timestamps, ts, periods);
    var c :- Samples(d.closes, d.timestamps, ts, periods);
    MinAtrRatio(h, l, c)
  }

  function MinPsychoLevels(d: FxData, ts: int, periods: int): (r: Result<seq<real>>)
    ensures r.Ok? ==> |r.value| == PsychoLevels
    ensures ts !in d.timestamps ==> r == Err(ValueError)
    ensures Enough(d.lows, d.timestamps, ts, periods) ==>
      r == MinPsycho(Recent(d.lows, d.timestamps, ts, periods))
  {
    SamplesMeaning(d.lows, d.timestamps, ts, periods);
    var w :- Samples(d.lows, d.timestamps, ts, periods);
    MinPsycho(w)
  }

  function MaxPsychoLevels(d: FxData, ts: int, periods: int): (r: Result<seq<real>>)
    ensures r.Ok? ==> |r.value| == PsychoLevels
    ensures ts !in d.timestamps ==> r == Err(ValueError)
    ensures Enough(d.highs, d.timestamps, ts, periods) ==>
      r == MaxPsycho(Recent(d.highs, d.timestamps, ts, periods))
  {
    SamplesMeaning(d.highs, d.timestamps, ts, periods);
    var w :- Samples(d.highs, d.timestamps, ts, periods);
    MaxPsycho(w)
  }

  /** Values contributed by each of the windows 20, 40 and 60. */
  const PerWindow: nat := 6 + 2 * PsychoLevels

  /** The sixteen values of one short window, in the order `vector` appends
      them; the first failing feature's exception propagates. */
  function WindowFeatures(d: FxData, ts: int, periods: int): (r: Result<seq<real>>)
    requires d.Aligned()
    ensures r.Ok? ==> |r.value| == PerWindow
    ensures ts !in d.timestamps ==> r == Err(ValueError)
  {
    Gather(MaxHighPercent(d, ts, periods), MinLowPercent(d, ts, periods),
           MeanHighPercent(d, ts, periods), MeanLowPercent(d, ts, periods),
           MaxAtrPercent(d, ts, periods), MinAtrPercent(d, ts, periods),
           MinPsychoLevels(d, ts, periods), MaxPsychoLevels(d, ts, periods))
  }

  /** The eight features of a window in the order the loop of `vector`
      computes them, the first failure winning; on success the six ratios
      come first, then the five round-down and the five round-up levels. */
  function Gather(
    maxHigh: Result<real>, minLow: Result<real>, meanHigh: Result<real>, meanLow: Result<real>,
    maxAtr: Result<real>, minAtr: Result<real>,
    lows: Result<seq<real>>, highs: Result<seq<real>>): (r: Result<seq<real>>)
    requires lows.Ok? ==> |lows.value| == PsychoLevels
    requires highs.Ok? ==> |highs.value| == PsychoLevels
    ensures r.Ok? <==>
      && maxHigh.Ok? && minLow.Ok? && meanHigh.Ok? && meanLow.Ok?
      && maxAtr.Ok? && minAtr.Ok? && lows.Ok? && highs.Ok?
    ensures maxHigh.Err? ==> r == Err(maxHigh.fault)
    ensures r.Ok? ==>
      && |r.value| == PerWindow
      && r.value[0] == maxHigh.value && r.value[1] == minLow.value
      && r.value[2] == meanHigh.value && r.value[3] == meanLow.value
      && r.value[4] == maxAtr.value && r.value[5] == minAtr.value
      && r.value[6..11] == lows.value && r.value[11..16] == highs.value
  {
    var a :- maxHigh;
    var b :- minLow;
    var c :- meanHigh;
    var e :- meanLow;
    var f :- maxAtr;
    var g :- minAtr;
    var l :- lows;
    var h :- highs;
    var w := [a, b, c, e, f, g] + l + h;
    assert w[6..11] == l;
    assert w[11..16] == h;
    Ok(w)
  }

  /** One window's sixteen values exist exactly when all eight features do,
      and then sit in the order `vector` appends them: the six ratios, the
      five round-down levels, the five round-up levels. */
  lemma WindowLayout(d: FxData, ts: int, periods: int)
    requires d.Aligned()
    ensures WindowFeatures(d, ts, periods).Ok? <==>
      && MaxHighPercent(d, ts, periods).Ok? && MinLowPercent(d, ts, periods).Ok?
      && MeanHighPercent(d, ts, periods).Ok? && MeanLowPercent(d, ts, periods).Ok?
      && MaxAtrPercent(d, ts, periods).Ok? && MinAtrPercent(d, ts, periods).Ok?
      && MinPsychoLevels(d, ts, periods).Ok? && MaxPsychoLevels(d, ts, periods).Ok?
    ensures WindowFeatures(d, ts, periods).Ok? ==>
      var w := WindowFeatures(d, ts, periods).value;
      && w[0] == MaxHighPercent(d, ts, periods).value
      && w[1] == MinLowPercent(d, ts, periods).value
      && w[2] == MeanHighPercent(d, ts, periods).value
      && w[3] == MeanLowPercent(d, ts, periods).value
      && w[4] == MaxAtrPercent(d, ts, periods).value
      && w[5] == MinAtrPercent(d, ts, periods).value
      && w[6..11] == MinPsychoLevels(d, ts, periods).value
      && w[11..16] == MaxPsychoLevels(d, ts, periods).value
  {
  }


  /** The length of a feature vector: 3 short windows of 16 values, then the
      two 200-window means. */
  const VectorLength: nat := 3 * PerWindow + 2

  /** `vector`: the features of windows 20, 40 and 60, then the 200-window
      mean high and mean low ratios. */
  function Vector(d: FxData, ts: int): (r: Result<seq<real>>)
    requires d.Aligned()
    ensures r.Ok? ==> |r.value| == VectorLength == 50
    ensures ts !in d.timestamps ==> r == Err(ValueError)
  {
    Combine(WindowFeatures(d, ts, 20), WindowFeatures(d, ts, 40), WindowFeatures(d, ts, 60),
            MeanHighPercent(d, ts, 200), MeanLowPercent(d, ts, 200))
  }

  /** The five parts in order, with the first failure winning; on success the
      blocks sit at fixed positions. */
  function Combine(
    w20: Result<seq<real>>, w40: Result<seq<real>>, w60: Result<seq<real>>,
    meanHigh: Result<real>, meanLow: Result<real>): (r: Result<seq<real>>)
    requires w20.Ok? ==> |w20.value| == PerWindow
    requires w40.Ok? ==> |w40.value| == PerWindow
    requires w60.Ok? ==> |w60.value| == PerWindow
    ensures r.Ok? <==> w20.Ok? && w40.Ok? && w60.Ok? && meanHigh.Ok? && meanLow.Ok?
    ensures w20.Err? ==> r == w20
    ensures r.Ok? ==>
      && |r.value| == VectorLength
      && r.value[..16] == w20.value && r.value[16..32] == w40.value
      && r.value[32..48] == w60.value
      && r.value[48] == meanHigh.value && r.value[49] == meanLow.value
  {
    var a :- w20;
    var b :- w40;
    var c :- w60;
    var h :- meanHigh;
    var l :- meanLow;
    var v := a + b + c + [h, l];
    assert v[..16] == a;
    assert v[16..32] == b;
    assert v[32..48] == c;
    Ok(v)
  }

  /** The vector exists exactly when every feature it is made of exists, and
      then holds them at fixed positions. */
  lemma VectorLayout(d: FxData, ts: int)
    requires d.Aligned()
    ensures Vector(d, ts).Ok? <==>
      && WindowFeatures(d, ts, 20).Ok? && WindowFeatures(d, ts, 40).Ok?
      && WindowFeatures(d, ts, 60).Ok?
      && MeanHighPercent(d, ts, 200).Ok? && MeanLowPercent(d, ts, 200).Ok?
    ensures Vector(d, ts).Ok? ==>
      var v := Vector(d, ts).value;
      && v[..16] == WindowFeatures(d, ts, 20).value
      && v[16..32] == WindowFeatures(d, ts, 40).value
      && v[32..48] == WindowFeatures(d, ts, 60).value
      && v[48] == MeanHighPercent(d, ts, 200).value
      && v[49] == MeanLowPercent(d, ts, 200).value
  {
  }
}

/** Facts about the vector of an anchor taken from the data itself: when it
    exists, and that it only reads history up to the anchor.
 */
module FeatureHistory {
  import opened Wrappers
  import opened PySeq
  import opened Series
  import opened Feature

  /** The anchor is at index i and this is its first occurrence. */
  ghost predicate AnchorAt(d: FxData, i: nat)
  {
    i < |d.timestamps| && d.timestamps[i] !in d.timestamps[..i]
  }

  /** Every high and low is strictly positive (closes and volumes may be
      anything). */
  ghost predicate PositivePrices(d: FxData)
  {
    && (forall k :: 0 <= k < |d.highs| ==> d.highs[k] > 0.0)
    && (forall k :: 0 <= k < |d.lows| ==> d.lows[k] > 0.0)
  }

  /** With at least `periods` entries of history the sixteen window features
      all exist on positive data. */
  lemma WindowFeaturesDefined(d: FxData, i: nat, periods: nat)
    requires d.Aligned() && AnchorAt(d, i) && PositivePrices(d)
    requires 2 <= periods <= i + 1
    ensures WindowFeatures(d, d.timestamps[i], periods).Ok?
    ensures MeanHighPercent(d, d.timestamps[i], periods).Ok?
    ensures MeanLowPercent(d, d.timestamps[i], periods).Ok?
  {
    var ts := d.timestamps[i];
    WindowShape(d.highs, d.timestamps, ts, periods, i);
    WindowShape(d.lows, d.timestamps, ts, periods, i);
    WindowShape(d.closes, d.timestamps, ts, periods, i);
  }

  /** Every anchor from index 199 on has a complete vector on positive data. */
  lemma VectorDefined(d: FxData, i: nat)
    requires d.Aligned() && AnchorAt(d, i) && PositivePrices(d)
    requires 199 <= i
    ensures Vector(d, d.timestamps[i]).Ok?
  {
    WindowFeaturesDefined(d, i, 20);
    WindowFeaturesDefined(d, i, 40);
    WindowFeaturesDefined(d, i, 60);
    WindowFeaturesDefined(d, i, 200);
    VectorLayout(d, d.timestamps[i]);
  }

  /** A window with full history is the same whether it is cut from all the
      data or from the data as it stood at the anchor. */
  lemma SamplesPrefix(values: seq<real>, timestamps: seq<int>, i: nat, periods: nat)
    requires i < |timestamps| == |values|
    requires timestamps[i] !in timestamps[..i]
    requires periods <= i + 1
    ensures Samples(values, timestamps, timestamps[i], periods)
         == Samples(values[..i + 1], timestamps[..i + 1], timestamps[i], periods)
  {
    var ts := timestamps[i];
    WindowShape(values, timestamps, ts, periods, i);
    assert timestamps[..i + 1][..i] == timestamps[..i];
    WindowShape(values[..i + 1], timestamps[..i + 1], ts, periods, i);
    assert values[..i + 1][i + 1 - periods .. i + 1] == values[i + 1 - periods .. i + 1];
  }

  /** The window features at an anchor with full history read nothing after
      the anchor. */
  lemma WindowFeaturesPrefix(d: FxData, i: nat, periods: nat)
    requires d.Aligned() && AnchorAt(d, i)
    requires periods <= i + 1
    ensures WindowFeatures(d, d.timestamps[i], periods)
         == WindowFeatures(d.Prefix(i + 1), d.timestamps[i], periods)
    ensures MeanHighPercent(d, d.timestamps[i], periods)
         == MeanHighPercent(d.Prefix(i + 1), d.timestamps[i], periods)
    ensures MeanLowPercent(d, d.timestamps[i], periods)
         == MeanLowPercent(d.Prefix(i + 1), d.timestamps[i], periods)
  {
    SamplesPrefix(d.highs, d.timestamps, i, periods);
    SamplesPrefix(d.lows, d.timestamps, i, periods);
    SamplesPrefix(d.closes, d.timestamps, i, periods);
    SamplesPrefix(d.volumes, d.timestamps, i, periods);
  }

  /** No look-ahead: the vector of an anchor from index 199 on is computed
      from the data up to and including the anchor only, so later rows never
      leak into a training vector. */
  lemma VectorUsesOnlyHistory(d: FxData, i: nat)
    requires d.Aligned() && AnchorAt(d, i)
    requires 199 <= i
    ensures Vector(d, d.timestamps[i]) == Vector(d.Prefix(i + 1), d.timestamps[i])
  {
    WindowFeaturesPrefix(d, i, 20);
    WindowFeaturesPrefix(d, i, 40);
    WindowFeaturesPrefix(d, i, 60);
    WindowFeaturesPrefix(d, i, 200);
  }
}

=== FILE: ingest.dfy ===
/** The ingest of a daily price file (`crawsiz.main.ingest`): the file-name
    check that yields the currency pair, the validity test, and the pass
    over the CSV rows that keeps the new rows on a UTC day boundary and
    tracks the newest timestamp. Reading the CSV, parsing dates into
    timestamps, the database writes and the archiving of the file are
    outside the model: a row arrives already parsed, with its timestamp, and
    the file system answers are parameters.
 */
module Ingest {
  import opened Wrappers
  import Config

  // ---------------------------------------------------------------------
  // File names
  // ---------------------------------------------------------------------

  /** `os.path.basename`: everything after the last '/'. */
  function Basename(path: string): (b: string)
    ensures '/' !in b
    ensures |b| <= |path| && b == path[|path| - |b|..]
    ensures |b| < |path| ==> path[|path| - |b| - 1] == '/'
  {
    if |path| == 0 then ""
    else if path[|path| - 1] == '/' then ""
    else Basename(path[..|path| - 1]) + [path[|path| - 1]]
  }

  /** The regex character class `[A-Z]`. */
  predicate Upper(c: char)
  {
    'A' <= c <= 'Z'
  }

  /** The pattern `^([A-Z]{6})1440.csv$` without its end anchor: six capital
      letters, "1440", any character but a newline (the dot is not escaped),
      then "csv". */
  predicate Stem(f: string)
    requires |f| == 14
  {
    && (forall i :: 0 <= i < 6 ==> Upper(f[i]))
    && f[6..10] == "1440"
    && f[10] != '\n'
    && f[11..14] == "csv"
  }

  /** `re.search` of the pattern on a file name, giving group 1. The end
      anchor `$` also matches just before a final newline, so a fifteenth
      character is allowed when it is "\n". */
  function NameMatch(f: string): (r: Option<string>)
    ensures r.Some? <==> (|f| == 14 && Stem(f)) || (|f| == 15 && Stem(f[..14]) && f[14] == '\n')
    ensures r.Some? ==> r.value == f[..6] && |r.value| == 6
    ensures r.Some? ==> forall i :: 0 <= i < 6 ==> Upper(r.value[i])
  {
    if |f| == 14 && Stem(f) then Some(f[..6])
    else if |f| == 15 && Stem(f[..14]) && f[14] == '\n' then Some(f[..6])
    else None
  }

  /** `Valid.pair`: the pair the file name stands for, when the name matches
      and its upper-cased group is one of the configured pairs. `configured`
      stands for `Config.Pairs(config).value`, the list `valid_pair` consults;
      a configuration that makes `pairs()` fail is `Config.ValidPair`'s error
      path, and `PairFromConfig` states the link. Upper-casing the matched
      group changes nothing, because it holds only capital letters. */
  function Pair(path: string, configured: seq<string>): (r: Option<string>)
    ensures r.Some? <==> NameMatch(Basename(path)).Some? && NameMatch(Basename(path)).value in configured
    ensures r.Some? ==> r.value == Config.UpperStr(NameMatch(Basename(path)).value)
    ensures r.Some? ==> r.value == Basename(path)[..6] && r.value in configured
  {
    match NameMatch(Basename(path))
    case None => None
    case Some(g) =>
      Config.UpperFixed(g);
      var pair := Config.UpperStr(g);
      if pair in configured then Some(pair) else None
  }

  /** With a configuration whose `pairs()` succeeds, a matching file name
      gives a pair exactly when `valid_pair` accepts its upper-cased group. */
  lemma PairFromConfig(path: string, config: Config.Document)
    requires Config.Pairs(config).Ok?
    ensures NameMatch(Basename(path)).Some? ==>
      (Pair(path, Config.Pairs(config).value).Some? <==>
       Config.ValidPair(Some(Config.UpperStr(NameMatch(Basename(path)).value)), config) == Ok(true))
    ensures NameMatch(Basename(path)).None? ==> Pair(path, Config.Pairs(config).value).None?
  {
    var m := NameMatch(Basename(path));
    if m.Some? {
      Config.UpperFixed(m.value);
    }
  }

  /** `Valid.valid`: the pair is known and the path exists and is a regular
      file (both answers of the file system are parameters). */
  function Valid(path: string, configured: seq<string>, present: bool, isFile: bool): (v: bool)
    ensures v ==> Pair(path, configured).Some?
    ensures v <==> Pair(path, configured).Some? && present && isFile
  {
    var validity := Pair(path, configured).Some?;
    if !present then false
    else if !isFile then false
    else validity
  }

  /** `Ingest.__init__`: an invalid file terminates the program (log2die);
      otherwise the pair is kept for the ingest. */
  function Open(path: string, configured: seq<string>, present: bool, isFile: bool): (r: Result<string>)
    ensures r.Ok? <==> Valid(path, configured, present, isFile)
    ensures r.Err? ==> r.fault == Exit
    ensures r.Ok? ==> Pair(path, configured) == Some(r.value)
  {
    if !Valid(path, configured, present, isFile) then Err(Exit)
    else Ok(Pair(path, configured).value)
  }

  // ---------------------------------------------------------------------
  // The row filter
  // ---------------------------------------------------------------------

  /** One CSV line after parsing: the time column as text and the UTC
      timestamp of its date and time. */
  datatype Row = Row(time: string, timestamp: int, open: real, high: real, low: real, close: real, volume: int)

  const Day: int := 86400

  predicate EndsWith(s: string, suffix: string)
  {
    |suffix| <= |s| && s[|s| - |suffix|..] == suffix
  }

  /** A row is stored when its time is on the hour boundary ":00", it is
      newer than the last update, and it falls on a UTC midnight. */
  predicate Keep(r: Row, lastUpdated: int)
  {
    EndsWith(r.time, ":00") && r.timestamp > lastUpdated && r.timestamp % Day == 0
  }

  /** The rows the loop appends, in file order. */
  function Kept(rows: seq<Row>, lastUpdated: int): (k: seq<Row>)
    ensures |k| <= |rows|
  {
    if |rows| == 0 then []
    else
      var front := Kept(rows[..|rows| - 1], lastUpdated);
      if Keep(rows[|rows| - 1], lastUpdated) then front + [rows[|rows| - 1]] else front
  }

  /** Keeping distributes over concatenation: the filter looks at each row
      on its own and keeps the file order. */
  lemma {:induction false} KeptAppend(a: seq<Row>, b: seq<Row>, lastUpdated: int)
    ensures Kept(a + b, lastUpdated) == Kept(a, lastUpdated) + Kept(b, lastUpdated)
    decreases |b|
  {
    if |b| > 0 {
      var b0 := b[..|b| - 1];
      assert (a + b)[..|a + b| - 1] == a + b0;
      assert (a + b)[|a + b| - 1] == b[|b| - 1];
      KeptAppend(a, b0, lastUpdated);
    } else {
      assert a + b == a;
    }
  }

  /** A row is stored exactly when it is in the file and passes the test. */
  lemma {:induction false} KeptMembers(rows: seq<Row>, lastUpdated: int, r: Row)
    ensures r in Kept(rows, lastUpdated) <==> r in rows && Keep(r, lastUpdated)
  {
    if |rows| > 0 {
      var front := rows[..|rows| - 1];
      KeptMembers(front, lastUpdated, r);
      assert rows == front + [rows[|rows| - 1]];
    }
  }

  /** The newest timestamp among stored rows, starting from 0 as
      `max_timestamp` does. */
  function Newest(rows: seq<Row>): (m: int)
    ensures m >= 0
    ensures forall i :: 0 <= i < |rows| ==> rows[i].timestamp <= m
    ensures m == 0 || exists i :: 0 <= i < |rows| && rows[i].timestamp == m
  {
    if |rows| == 0 then 0
    else
      var front := Newest(rows[..|rows| - 1]);
      var t := rows[|rows| - 1].timestamp;
      if t > front then t else front
  }

  /** The loop of `Ingest.ingest` over the parsed rows: it collects the
      stored rows and the newest timestamp. */
  method Scan(rows: seq<Row>, lastUpdated: int) returns (datapoints: seq<Row>, maxTimestamp: int)
    ensures datapoints == Kept(rows, lastUpdated)
    ensures maxTimestamp == Newest(datapoints)
  {
    datapoints := [];
    maxTimestamp := 0;
    var i := 0;
    while i < |rows|
      invariant 0 <= i <= |rows|
      invariant datapoints == Kept(rows[..i], lastUpdated)
      invariant maxTimestamp == Newest(datapoints)
    {
      var r := rows[i];
      ScanStep(rows, i, lastUpdated, datapoints, maxTimestamp);
      if Keep(r, lastUpdated) {
        if r.timestamp > maxTimestamp {
          maxTimestamp := r.timestamp;
        }
        datapoints := datapoints + [r];
      }
      i := i + 1;
    }
    assert rows[..i] == rows;
  }

  /** One pass of the loop keeps both of its invariants. */
  lemma ScanStep(rows: seq<Row>, i: nat, lastUpdated: int, datapoints: seq<Row>, maxTimestamp: int)
    requires i < |rows| && datapoints == Kept(rows[..i], lastUpdated) && maxTimestamp == Newest(datapoints)
    ensures Keep(rows[i], lastUpdated) ==> Kept(rows[..i + 1], lastUpdated) == datapoints + [rows[i]]
    ensures Keep(rows[i], lastUpdated) ==>
      Newest(datapoints + [rows[i]]) == if rows[i].timestamp > maxTimestamp then rows[i].timestamp else maxTimestamp
    ensures !Keep(rows[i], lastUpdated) ==> Kept(rows[..i + 1], lastUpdated) == datapoints
  {
    KeptStep(rows, i, lastUpdated);
    NewestStep(datapoints, rows[i]);
  }

  lemma KeptStep(rows: seq<Row>, i: nat, lastUpdated: int)
    requires i < |rows|
    ensures Kept(rows[..i + 1], lastUpdated) ==
      if Keep(rows[i], lastUpdated) then Kept(rows[..i], lastUpdated) + [rows[i]] else Kept(rows[..i], lastUpdated)
  {
    assert rows[..i + 1][..i] == rows[..i];
  }

  lemma NewestStep(d: seq<Row>, r: Row)
    ensures Newest(d + [r]) == if r.timestamp > Newest(d) then r.timestamp else Newest(d)
  {
    assert (d + [r])[..|d|] == d;
  }

  /** With a non-negative last update every stored timestamp is positive,
      so the starting 0 never wins: the result is the newest stored row. */
  lemma NewestIsStored(rows: seq<Row>, lastUpdated: int)
    requires lastUpdated >= 0 && |Kept(rows, lastUpdated)| > 0
    ensures exists i :: 0 <= i < |Kept(rows, lastUpdated)| && Kept(rows, lastUpdated)[i].timestamp == Newest(Kept(rows, lastUpdated))
  {
    var k := Kept(rows, lastUpdated);
    KeptMembers(rows, lastUpdated, k[0]);
  }

  /** `_last_updated`: the stored time of a known pair, 0 for a new one. */
  function LastUpdated(stored: Option<int>): (t: int)
    ensures stored.None? ==> t == 0
    ensures stored.Some? ==> t == stored.value
  {
    match stored
    case None => 0
    case Some(v) => v
  }

  /** The pair's last timestamp after an ingest: unchanged when no row was
      stored, otherwise the newest stored timestamp. It never decreases and
      no stored row is newer. */
  function AfterIngest(rows: seq<Row>, lastUpdated: int): (t: int)
    ensures |Kept(rows, lastUpdated)| == 0 ==> t == lastUpdated
    ensures |Kept(rows, lastUpdated)| > 0 ==> t == Newest(Kept(rows, lastUpdated))
    ensures t >= lastUpdated
    ensures forall i :: 0 <= i < |Kept(rows, lastUpdated)| ==> Kept(rows, lastUpdated)[i].timestamp <= t
  {
    var k := Kept(rows, lastUpdated);
    if |k| == 0 then lastUpdated
    else
      KeptMembers(rows, lastUpdated, k[0]);
      Newest(k)
  }

  /** Ingesting the same file again after the update stores nothing: every
      row is then stale or fails the other tests. */
  lemma ReingestStoresNothing(rows: seq<Row>, lastUpdated: int)
    ensures Kept(rows, AfterIngest(rows, lastUpdated)) == []
  {
    var t := AfterIngest(rows, lastUpdated);
    var k := Kept(rows, lastUpdated);
    forall r | r in rows && Keep(r, lastUpdated)
      ensures r.timestamp <= t
    {
      KeptMembers(rows, lastUpdated, r);
      var i :| 0 <= i < |k| && k[i] == r;
    }
    forall i | 0 <= i < |rows|
      ensures !Keep(rows[i], t)
    {
      assert rows[i] in rows;
    }
    KeptNone(rows, t);
  }

  /** Nothing is stored when no row passes the test. */
  lemma {:induction false} KeptNone(rows: seq<Row>, lastUpdated: int)
    requires forall i :: 0 <= i < |rows| ==> !Keep(rows[i], lastUpdated)
    ensures Kept(rows, lastUpdated) == []
  {
    if |rows| > 0 {
      KeptNone(rows[..|rows| - 1], lastUpdated);
    }
  }
}

=== FILE: label.dfy ===
/** Labelling of an anchor (class `Classify` of the feature module): whether
    the value `lookahead` periods after the anchor is above the anchor's own
    value, in the Kessler form (a one-element list of +1 or -1) and in the
    packed form (the list read as a binary number, -1 read as 0).
 */
module Label {
  import opened Wrappers
  import opened PySeq

  /** The anchor position fixed when a `Classify` is built: the first index of
      the timestamp, ValueError when it is absent. */
  function Start(timestamps: seq<int>, ts: int): (r: Result<nat>)
    ensures r.Ok? <==> ts in timestamps
    ensures r.Ok? ==> r.value < |timestamps| && timestamps[r.value] == ts
    ensures r.Ok? ==> ts !in timestamps[..r.value]
    ensures r.Err? ==> r.fault == ValueError
  {
    IndexOf(timestamps, ts)
  }

  /** `_classify` in Kessler form: [1] when the value `lookahead` periods
      ahead is strictly higher, otherwise [-1]. Reading past the end raises. */
  function KesslerLabel(values: seq<real>, start: nat, lookahead: int): (r: Result<seq<int>>)
    requires start < |values|
    ensures r.Ok? <==> -|values| <= start + lookahead < |values|
    ensures r.Err? ==> r.fault == IndexError
    ensures r.Ok? ==> r.value == [1] || r.value == [-1]
    ensures 0 <= start + lookahead < |values| ==>
      (r == Ok([1]) <==> values[start + lookahead] > values[start])
  {
    var ahead :- At(values, start + lookahead);
    if ahead > values[start] then Ok([1]) else Ok([-1])
  }

  /** A tie is not a rise: equal values label -1. */
  lemma TieIsDown(values: seq<real>, start: nat, lookahead: nat)
    requires start + lookahead < |values|
    requires values[start + lookahead] == values[start]
    ensures KesslerLabel(values, start, lookahead) == Ok([-1])
  {
  }

  /** One label as a bit: 1 stays 1, anything else becomes 0. */
  function Bit(x: int): (b: nat)
    ensures b <= 1
    ensures b == 1 <==> x == 1
  {
    if x == 1 then 1 else 0
  }

  /** `int(''.join(str(bit) ...), 2)` on the bits of a label list, most
      significant first; the empty string is not a number. */
  function Pack(labels: seq<int>): (r: Result<nat>)
    ensures r.Ok? <==> |labels| > 0
    ensures r.Err? ==> r.fault == ValueError
  {
    if |labels| == 0 then Err(ValueError) else Ok(BitsValue(labels))
  }

  /** The value of a non-empty bit string, most significant bit first. */
  function BitsValue(labels: seq<int>): (v: nat)
    ensures v < Pow2(|labels|)
    decreases |labels|
  {
    if |labels| == 0 then 0
    else 2 * BitsValue(labels[..|labels| - 1]) + Bit(labels[|labels| - 1])
  }

  function Pow2(n: nat): (p: nat)
    ensures p >= 1
  {
    if n == 0 then 1 else 2 * Pow2(n - 1)
  }

  /** Reading the packed value back bit by bit recovers which labels were +1. */
  lemma {:induction false} PackRoundTrip(labels: seq<int>, k: nat)
    requires k < |labels|
    ensures (BitsValue(labels) / Pow2(|labels| - 1 - k)) % 2 == Bit(labels[k])
    decreases |labels|
  {
    var n := |labels|;
    var front := labels[..n - 1];
    if k == n - 1 {
      assert BitsValue(labels) % 2 == Bit(labels[k]);
    } else {
      PackRoundTrip(front, k);
      var p := Pow2(n - 2 - k);
      assert Pow2(n - 1 - k) == 2 * p;
      assert front[k] == labels[k];
      DivTwice(BitsValue(labels), 2, p);
      assert BitsValue(labels) / 2 == BitsValue(front);
    }
  }

  /** Dividing by a then by b is dividing by a * b. */
  lemma DivTwice(x: nat, a: nat, b: nat)
    requires a > 0 && b > 0
    ensures x / (a * b) == (x / a) / b
  {
    var q := x / a;
    var r := x % a;
    var q2 := q / b;
    var r2 := q % b;
    assert a * r2 <= a * (b - 1) by {
      MulMono(a, r2, b - 1);
    }
    assert x == (a * b) * q2 + (a * r2 + r) by {
      assert x == a * q + r;
      assert q == b * q2 + r2;
      assert a * q == a * (b * q2) + a * r2;
    }
    DivUnique(x, a * b, q2, a * r2 + r);
  }

  lemma MulMono(a: nat, x: nat, y: nat)
    requires x <= y
    ensures a * x <= a * y
  {
  }

  /** The quotient is the unique q with x == d * q + r and 0 <= r < d. */
  lemma DivUnique(x: int, d: int, q: int, r: int)
    requires d > 0 && 0 <= r < d && x == d * q + r
    ensures x / d == q
  {
    var q0 := x / d;
    var r0 := x % d;
    assert d * (q - q0) == r0 - r;
    if q > q0 {
      MulMono(d, 1, q - q0);
    } else if q < q0 {
      MulMono(d, 1, q0 - q);
    }
  }

  /** `_classify` in packed form: the Kessler list through `Pack`, which is 1
      for a rise and 0 otherwise. */
  function RegularLabel(values: seq<real>, start: nat, lookahead: int): (r: Result<nat>)
    requires start < |values|
    ensures r.Ok? <==> KesslerLabel(values, start, lookahead).Ok?
    ensures r.Ok? ==> (r.value == 1 <==> KesslerLabel(values, start, lookahead) == Ok([1]))
    ensures r.Ok? ==> r.value <= 1
  {
    var labels :- KesslerLabel(values, start, lookahead);
    Pack(labels)
  }
}

=== FILE: legacy.dfy ===
/** The older per-window classifier of the `classify` module: its window
    selection is the one of `Feature`, but its ratios are taken against the
    window mean instead of the current value.
 */
module Legacy {
  import opened Wrappers
  import opened PySeq
  import opened Arith
  import opened Series
  import opened Feature

  /** The high, low and close lists have one entry per timestamp (volumes are
      not read by this class). */
  ghost predicate PricesAligned(d: FxData)
  {
    |d.highs| == |d.timestamps| && |d.lows| == |d.timestamps| && |d.closes| == |d.timestamps|
  }

  /** `_mean_high`: sum over length of the high window; an empty window
      divides by zero. */
  function MeanHigh(d: FxData, ts: int, periods: int): (r: Result<real>)
    ensures ts !in d.timestamps ==> r == Err(ValueError)
    ensures r.Ok? <==> Samples(d.highs, d.timestamps, ts, periods).Ok? && |Samples(d.highs, d.timestamps, ts, periods).value| > 0
    ensures r.Ok? ==>
      var w := Samples(d.highs, d.timestamps, ts, periods).value;
      r.value == Mean(w) && Min(w) <= r.value <= Max(w)
  {
    var w :- Samples(d.highs, d.timestamps, ts, periods);
    if |w| == 0 then Err(ZeroDivisionError) else Ok(Mean(w))
  }

  /** `max_high_percent`: the window maximum over the window mean (not over
      the current value). The mean is computed first, so an empty window is a
      ZeroDivisionError rather than the ValueError of `max`. */
  function MaxHighPercent(d: FxData, ts: int, periods: int): (r: Result<real>)
    ensures MeanHigh(d, ts, periods).Err? ==> r == Err(MeanHigh(d, ts, periods).fault)
    ensures MeanHigh(d, ts, periods) == Ok(0.0) ==> r == Err(ZeroDivisionError)
    ensures MeanHigh(d, ts, periods).Ok? && MeanHigh(d, ts, periods).value != 0.0 ==>
      r == Ok(Max(Samples(d.highs, d.timestamps, ts, periods).value) / MeanHigh(d, ts, periods).value)
    ensures MeanHigh(d, ts, periods).Ok? && MeanHigh(d, ts, periods).value > 0.0 ==>
      r.Ok? && 1.0 <= r.value
  {
    var mean :- MeanHigh(d, ts, periods);
    var w := Samples(d.highs, d.timestamps, ts, periods).value;
    if mean == 0.0 then Err(ZeroDivisionError)
    else
      if mean > 0.0 then
        DivMono(mean, Max(w), mean);
        DivSelf(mean);
        Ok(Max(w) / mean)
      else Ok(Max(w) / mean)
  }

  /** The high, low and close windows of one anchor, cut with the same
      bounds and therefore of the same length. */
  function Windows(d: FxData, ts: int, periods: int): (r: Result<(seq<real>, seq<real>, seq<real>)>)
    requires PricesAligned(d)
    ensures r.Ok? <==> ts in d.timestamps
    ensures r.Err? ==> r.fault == ValueError
    ensures r.Ok? ==>
      && Samples(d.highs, d.timestamps, ts, periods) == Ok(r.value.0)
      && Samples(d.lows, d.timestamps, ts, periods) == Ok(r.value.1)
      && Samples(d.closes, d.timestamps, ts, periods) == Ok(r.value.2)
      && |r.value.1| == |r.value.0| && |r.value.2| == |r.value.0|
  {
    var bounds :- StartStop(d.timestamps, ts, periods);
    Ok((Slice(d.highs, bounds.0, bounds.1), Slice(d.lows, bounds.0, bounds.1), Slice(d.closes, bounds.0, bounds.1)))
  }

  /** `_atr_high`: the same average true range as `Feature`, on the high,
      low and close windows of this class. */
  function AtrHigh(d: FxData, ts: int, periods: int): (r: Result<real>)
    requires PricesAligned(d)
    ensures ts !in d.timestamps ==> r == Err(ValueError)
    ensures r.Ok? ==> r.value >= 0.0
    ensures r.Ok? <==> Windows(d, ts, periods).Ok? && |Windows(d, ts, periods).value.0| >= 2
  {
    var w :- Windows(d, ts, periods);
    Atr(w.0, w.1, w.2)
  }

  /** The `_in_range` metric on its four inputs: the distance of the last
      high above the last close plus one ATR, relative to the mean high. On a
      positive mean it is positive exactly when the high clears that level. */
  function InRangeOf(lastHigh: real, lastClose: real, atr: real, mean: real): (r: real)
    requires mean != 0.0
    ensures mean > 0.0 ==> (r > 0.0 <==> lastHigh > lastClose + atr)
    ensures r * mean == lastHigh - (lastClose + atr)
  {
    var metric := lastHigh - (lastClose + atr);
    if mean > 0.0 then DivSign(metric, mean); DivTimes(metric, mean); metric / mean
    else DivTimes(metric, mean); metric / mean
  }

  /** `_in_range`: the last high and close are read first (IndexError on an
      empty window), then the ATR, then the mean high. */
  function InRange(d: FxData, ts: int, periods: int): (r: Result<real>)
    requires PricesAligned(d)
    ensures ts !in d.timestamps ==> r == Err(ValueError)
    ensures r.Ok? <==>
      && Windows(d, ts, periods).Ok? && AtrHigh(d, ts, periods).Ok?
      && MeanHigh(d, ts, periods).Ok? && MeanHigh(d, ts, periods).value != 0.0
    ensures r.Ok? ==>
      var w := Windows(d, ts, periods).value;
      r.value == InRangeOf(Last(w.0), Last(w.2), AtrHigh(d, ts, periods).value, MeanHigh(d, ts, periods).value)
  {
    var w :- Windows(d, ts, periods);
    if |w.0| == 0 then Err(IndexError)
    else
      var atr :- AtrHigh(d, ts, periods);
      var mean := Mean(w.0);
      if mean == 0.0 then Err(ZeroDivisionError)
      else Ok(InRangeOf(Last(w.0), Last(w.2), atr, mean))
  }

  /** Ten daily rows with highs 100, 90, ..., 10, lows 60, 55, ..., 15 and
      closes -22, -20, ..., -4. */
  function TenDays(): (d: FxData)
    ensures PricesAligned(d) && |d.timestamps| == 10
  {
    FxData(
      seq(10, k => 86400 * k),
      seq(10, k => 100.0 - 10.0 * k as real),
      seq(10, k => 60.0 - 5.0 * k as real),
      seq(10, k => -22.0 + 2.0 * k as real),
      [])
  }

  /** On the ten-day series with the second-to-last day as anchor and five
      periods, the high window is [60, 50, 40, 30, 20]. */
  lemma TenDaysWindow()
    ensures Samples(TenDays().highs, TenDays().timestamps, 691200, 5) == Ok([60.0, 50.0, 40.0, 30.0, 20.0])
  {
    TenDaysBounds();
    var h := TenDays().highs;
    assert Slice(h, 4, 9) == h[4..9];
    assert h[4] == 60.0 && h[5] == 50.0 && h[6] == 40.0 && h[7] == 30.0 && h[8] == 20.0;
    FiveSlice(h, 4);
  }

  lemma FiveSlice(s: seq<real>, i: nat)
    requires i + 5 <= |s|
    ensures s[i..i + 5] == [s[i], s[i + 1], s[i + 2], s[i + 3], s[i + 4]]
  {
  }

  lemma TenDaysBounds()
    ensures StartStop(TenDays().timestamps, 691200, 5) == Ok((4, 9))
  {
    TenDaysFirstOccurrence();
    var t := TenDays().timestamps;
    var i := IndexOf(t, 691200);
    assert i == Ok(8);
  }

  lemma TenDaysFirstOccurrence()
    ensures TenDays().timestamps[8] == 691200
    ensures 691200 !in TenDays().timestamps[..8]
  {
    var t := TenDays().timestamps;
    assert forall k :: 0 <= k < 8 ==> t[..8][k] < 691200;
  }

  /** The sum, maximum and mean of the test window. */
  lemma TestWindowFigures()
    ensures Sum([60.0, 50.0, 40.0, 30.0, 20.0]) == 200.0
    ensures Max([60.0, 50.0, 40.0, 30.0, 20.0]) == 60.0
    ensures Mean([60.0, 50.0, 40.0, 30.0, 20.0]) == 40.0
  {
    var w := [60.0, 50.0, 40.0, 30.0, 20.0];
    assert w[1..] == [50.0, 40.0, 30.0, 20.0];
    assert w[1..][1..] == [40.0, 30.0, 20.0];
    assert w[1..][1..][1..] == [30.0, 20.0];
    assert w[1..][1..][1..][1..] == [20.0];
  }

  /** The mean high of the test window is 40 and the max-over-mean ratio is
      1.5. */
  lemma TenDaysValues()
    ensures MeanHigh(TenDays(), 691200, 5) == Ok(40.0)
    ensures MaxHighPercent(TenDays(), 691200, 5) == Ok(1.5)
  {
    TenDaysWindow();
    TestWindowFigures();
  }
}

=== FILE: linear.dfy ===
/** The linear (pseudo-inverse) classifier of `crawsiz.machine.linear` and
    the `Linear` class of `crawsiz.machine.classifier`: the design matrix
    with its leading column of ones, the prediction that augments the query
    the same way, and `kessler_to_number`, which turns the classification
    vector into a class. The fitted coefficients (the pseudo-inverse of the
    design matrix times the class matrix) are an input here.
 */
module Linear {
  import opened Wrappers
  import opened PySeq

  // ---------------------------------------------------------------------
  // kessler_to_number
  // ---------------------------------------------------------------------

  /** Index j holds the first maximum of c: nothing is larger, and every
      entry before it is strictly smaller. */
  ghost predicate FirstArgMax(c: seq<real>, j: int)
  {
    && 0 <= j < |c|
    && (forall k :: 0 <= k < |c| ==> c[k] <= c[j])
    && (forall k :: 0 <= k < j ==> c[k] < c[j])
  }

  /** The class a classification vector stands for. One column is a binary
      classifier read by sign, where 0 counts as negative; several columns
      are Kessler-coded and the class is the first column holding the
      maximum. An empty vector makes `max` raise ValueError. */
  function KesslerToNumber(c: seq<real>): (r: Result<int>)
    ensures r.Ok? <==> |c| > 0
    ensures r.Err? ==> r.fault == ValueError
    ensures |c| == 1 ==> r == Ok(if c[0] > 0.0 then 1 else -1)
    ensures |c| > 1 ==> r.Ok? && FirstArgMax(c, r.value)
  {
    if |c| == 0 then Err(ValueError)
    else if |c| == 1 then (if c[0] > 0.0 then Ok(1) else Ok(-1))
    else
      Ok(IndexOf(c, Max(c)).value as int)
  }

  /** Only one index can be the first maximum. */
  lemma FirstArgMaxUnique(c: seq<real>, i: int, j: int)
    requires FirstArgMax(c, i) && FirstArgMax(c, j)
    ensures i == j
  {
    assert c[i] == c[j];
  }

  /** For several columns the result is the one index that holds the first
      maximum. */
  lemma KesslerChoice(c: seq<real>, j: int)
    requires |c| > 1 && FirstArgMax(c, j)
    ensures KesslerToNumber(c) == Ok(j)
  {
    FirstArgMaxUnique(c, KesslerToNumber(c).value, j);
  }

  function ScaleAll(c: seq<real>, a: real): (d: seq<real>)
    ensures |d| == |c|
    ensures forall k :: 0 <= k < |c| ==> d[k] == a * c[k]
  {
    seq(|c|, k requires 0 <= k < |c| => a * c[k])
  }

  /** The decision depends only on the order of the entries and their sign:
      multiplying every entry by the same positive factor changes nothing. */
  lemma KesslerScaleInvariant(c: seq<real>, a: real)
    requires a > 0.0
    ensures KesslerToNumber(ScaleAll(c, a)) == KesslerToNumber(c)
  {
    var d := ScaleAll(c, a);
    if |c| == 1 {
      assert d[0] > 0.0 <==> c[0] > 0.0 by {
        PositiveProduct(a, c[0]);
      }
    } else if |c| > 1 {
      var j := KesslerToNumber(c).value;
      forall k | 0 <= k < |c|
        ensures d[k] <= d[j]
        ensures k < j ==> d[k] < d[j]
      {
        MulMonotone(a, c[k], c[j]);
      }
      KesslerChoice(d, j);
    }
  }

  lemma PositiveProduct(a: real, x: real)
    requires a > 0.0
    ensures a * x > 0.0 <==> x > 0.0
  {
    if x <= 0.0 {
      assert a * x <= 0.0;
    }
  }

  lemma MulMonotone(a: real, x: real, y: real)
    requires a > 0.0
    ensures x <= y ==> a * x <= a * y
    ensures x < y ==> a * x < a * y
  {
    assert a * y - a * x == a * (y - x);
  }

  // ---------------------------------------------------------------------
  // Augmentation and prediction
  // ---------------------------------------------------------------------

  /** Every row of m has the given width, as in a numpy array. */
  ghost predicate Rectangular(m: seq<seq<real>>, width: nat)
  {
    forall i :: 0 <= i < |m| ==> |m[i]| == width
  }

  /** The query vector with a 1 prepended (`np.hstack((ones, v))`). */
  function AugmentVector(v: seq<real>): (a: seq<real>)
    ensures |a| == |v| + 1 && a[0] == 1.0 && a[1..] == v
  {
    [1.0] + v
  }

  /** The design matrix: a column of ones before the feature vectors. It
      keeps the number of rows, and each row is augmented exactly as a query
      vector is. */
  function Augment(rows: seq<seq<real>>): (a: seq<seq<real>>)
    ensures |a| == |rows|
    ensures forall i :: 0 <= i < |rows| ==> |a[i]| == |rows[i]| + 1 && a[i][0] == 1.0 && a[i][1..] == rows[i]
    ensures forall w: nat :: Rectangular(rows, w) ==> Rectangular(a, w + 1)
  {
    seq(|rows|, i requires 0 <= i < |rows| => AugmentVector(rows[i]))
  }

  /** Column j of the product v · coefficients. */
  function Weighted(v: seq<real>, coeffs: seq<seq<real>>, j: nat): real
    requires |coeffs| == |v| && forall i :: 0 <= i < |coeffs| ==> j < |coeffs[i]|
  {
    if |v| == 0 then 0.0 else v[0] * coeffs[0][j] + Weighted(v[1..], coeffs[1..], j)
  }

  /** Augmenting the query adds the first coefficient row unscaled: the
      intercept of the fitted model. */
  lemma InterceptAdded(v: seq<real>, coeffs: seq<seq<real>>, j: nat)
    requires |coeffs| == |v| + 1 && forall i :: 0 <= i < |coeffs| ==> j < |coeffs[i]|
    ensures Weighted(AugmentVector(v), coeffs, j) == coeffs[0][j] + Weighted(v, coeffs[1..], j)
  {
    assert AugmentVector(v)[1..] == v;
  }

  /** `np.dot(vector, coefficients)`: one value per coefficient column. */
  function Classification(v: seq<real>, coeffs: seq<seq<real>>, width: nat): (c: seq<real>)
    requires |coeffs| == |v| && Rectangular(coeffs, width)
    ensures |c| == width
    ensures forall j :: 0 <= j < width ==> c[j] == Weighted(v, coeffs, j)
  {
    seq(width, j requires 0 <= j < width => Weighted(v, coeffs, j))
  }

  /** `Linear.prediction` / `Linear.classifier` for fitted coefficients with
      `width` columns: augment the query, multiply, read off the class. A
      coefficient matrix whose row count does not match the augmented
      vector makes `np.dot` raise ValueError. */
  function Predict(coeffs: seq<seq<real>>, width: nat, v: seq<real>): (r: Result<int>)
    requires Rectangular(coeffs, width)
    ensures r.Ok? <==> |coeffs| == |v| + 1 && width > 0
    ensures r.Err? ==> r.fault == ValueError
    ensures width == 1 && r.Ok? ==>
      (r.value == 1 <==> coeffs[0][0] + Weighted(v, coeffs[1..], 0) > 0.0)
    ensures width == 1 && r.Ok? ==> r.value == 1 || r.value == -1
    ensures width > 1 && r.Ok? ==> FirstArgMax(Classification(AugmentVector(v), coeffs, width), r.value)
  {
    if |coeffs| != |v| + 1 then Err(ValueError)
    else
      var c := Classification(AugmentVector(v), coeffs, width);
      if width == 1 then InterceptAdded(v, coeffs, 0); KesslerToNumber(c)
      else KesslerToNumber(c)
  }

  /** The prediction loop of the linear accuracy report: one prediction per
      feature vector, in order, stopping at the first error. */
  function Predictions(coeffs: seq<seq<real>>, width: nat, vectors: seq<seq<real>>): (r: Result<seq<int>>)
    requires Rectangular(coeffs, width)
    ensures r.Ok? <==> forall i :: 0 <= i < |vectors| ==> Predict(coeffs, width, vectors[i]).Ok?
    ensures r.Ok? ==> |r.value| == |vectors|
    ensures r.Ok? ==> forall i :: 0 <= i < |vectors| ==> r.value[i] == Predict(coeffs, width, vectors[i]).value
  {
    if |vectors| == 0 then Ok([])
    else
      var first := Predict(coeffs, width, vectors[0]);
      var rest := Predictions(coeffs, width, vectors[1..]);
      assert forall i :: 1 <= i < |vectors| ==> vectors[i] == vectors[1..][i - 1];
      if first.Err? then Err(first.fault)
      else if rest.Err? then Err(rest.fault)
      else Ok([first.value] + rest.value)
  }

  /** With Kessler-coded binary classes (one coefficient column) every
      prediction is -1 or 1, the two labels the confusion matrix compares. */
  lemma BinaryPredictions(coeffs: seq<seq<real>>, vectors: seq<seq<real>>)
    requires Rectangular(coeffs, 1)
    requires Predictions(coeffs, 1, vectors).Ok?
    ensures forall i :: 0 <= i < |vectors| ==>
      Predictions(coeffs, 1, vectors).value[i] in {-1, 1}
  {
  }
}

=== FILE: pyseq.dfy ===
/** Python list semantics used throughout the code base: slicing with negative
    and out-of-range bounds, `list.index`, `sum`, `max` and `min`.
 */
module PySeq {
  import opened Wrappers

  /** Python's normalisation of one slice bound against a list of length n. */
  function SliceBound(i: int, n: nat): (b: nat)
    ensures b <= n
    ensures 0 <= i <= n ==> b == i
    ensures -(n as int) <= i < 0 ==> b == n + i
    ensures i < -(n as int) ==> b == 0
    ensures i > n ==> b == n
  {
    if i < 0 then (if n + i < 0 then 0 else n + i)
    else if i > n then n
    else i
  }

  /** `s[start:stop]` with Python's rules for negative and out-of-range bounds. */
  function Slice<T>(s: seq<T>, start: int, stop: int): (r: seq<T>)
    ensures |r| <= |s|
    ensures |r| == (if SliceBound(start, |s|) < SliceBound(stop, |s|)
                    then SliceBound(stop, |s|) - SliceBound(start, |s|) else 0)
    ensures 0 <= start <= stop <= |s| ==> r == s[start..stop]
    ensures 0 <= stop <= start ==> r == []
  {
    var a := SliceBound(start, |s|);
    var b := SliceBound(stop, |s|);
    if a < b then s[a..b] else []
  }

  /** Every element of a slice is an element of the list. */
  lemma SliceElements<T>(s: seq<T>, start: int, stop: int, k: nat)
    requires k < |Slice(s, start, stop)|
    ensures Slice(s, start, stop)[k] == s[SliceBound(start, |s|) + k]
  {
  }

  /** Slicing a list and slicing any longer list with the same prefix agree
      while both bounds are non-negative and inside the prefix. */
  lemma SlicePrefix<T>(s: seq<T>, n: nat, start: int, stop: int)
    requires n <= |s|
    requires 0 <= start <= stop <= n
    ensures Slice(s[..n], start, stop) == Slice(s, start, stop)
  {
  }

  /** `s[i]` for one index, counting from the end when i is negative. */
  function At<T>(s: seq<T>, i: int): (r: Result<T>)
    ensures r.Ok? <==> -|s| <= i < |s|
    ensures 0 <= i < |s| ==> r == Ok(s[i])
    ensures -|s| <= i < 0 ==> r == Ok(s[|s| + i])
    ensures r.Err? ==> r.fault == IndexError
  {
    if 0 <= i < |s| then Ok(s[i])
    else if -|s| <= i < 0 then Ok(s[|s| + i])
    else Err(IndexError)
  }

  /** `list.index(x)`: position of the first occurrence, ValueError when absent. */
  function IndexOf<T(==)>(s: seq<T>, x: T): (r: Result<nat>)
    ensures r.Ok? <==> x in s
    ensures r.Ok? ==> r.value < |s| && s[r.value] == x && x !in s[..r.value]
    ensures r.Err? ==> r.fault == ValueError
  {
    if |s| == 0 then Err(ValueError)
    else if s[0] == x then Ok(0)
    else
      match IndexOf(s[1..], x)
      case Ok(i) => assert s[1..][..i] == s[1..i + 1]; Ok(i + 1)
      case Err(f) => Err(f)
  }

  /** On a list without repeats, `index` of the element at position i is i. */
  lemma IndexOfDistinct<T>(s: seq<T>, i: nat)
    requires i < |s|
    requires forall a, b :: 0 <= a < b < |s| ==> s[a] != s[b]
    ensures IndexOf(s, s[i]) == Ok(i)
  {
    assert s[i] in s;
  }

  /** Strictly increasing integer sequences (timestamps) have no repeats. */
  ghost predicate StrictlyIncreasing(s: seq<int>) {
    forall a, b :: 0 <= a < b < |s| ==> s[a] < s[b]
  }

  function Sum(s: seq<real>): real
  {
    if |s| == 0 then 0.0 else s[0] + Sum(s[1..])
  }

  function Max(s: seq<real>): (m: real)
    requires |s| > 0
    ensures m in s
    ensures forall k :: 0 <= k < |s| ==> s[k] <= m
  {
    if |s| == 1 then s[0]
    else
      var rest := Max(s[1..]);
      assert forall k :: 1 <= k < |s| ==> s[k] == s[1..][k - 1];
      if s[0] >= rest then s[0] else rest
  }

  function Min(s: seq<real>): (m: real)
    requires |s| > 0
    ensures m in s
    ensures forall k :: 0 <= k < |s| ==> m <= s[k]
  {
    if |s| == 1 then s[0]
    else
      var rest := Min(s[1..]);
      assert forall k :: 1 <= k < |s| ==> s[k] == s[1..][k - 1];
      if s[0] <= rest then s[0] else rest
  }

  /** The sum of a list lies between its length times its minimum and its
      length times its maximum. */
  lemma {:induction false} SumBetween(s: seq<real>, lo: real, hi: real)
    requires forall k :: 0 <= k < |s| ==> lo <= s[k] <= hi
    ensures |s| as real * lo <= Sum(s) <= |s| as real * hi
  {
    if |s| > 0 {
      assert forall k :: 0 <= k < |s| - 1 ==> s[1..][k] == s[k + 1];
      SumBetween(s[1..], lo, hi);
    }
  }

  /** The sum depends only on the elements. */
  lemma {:induction false} SumAppend(a: seq<real>, b: seq<real>)
    ensures Sum(a + b) == Sum(a) + Sum(b)
  {
    if |a| == 0 {
      assert a + b == b;
    } else {
      assert (a + b)[1..] == a[1..] + b;
      SumAppend(a[1..], b);
    }
  }
}

=== FILE: pystr.dfy ===
/** Python string semantics used by the report: `str.replace`,
    `str.split(sep)` with a one-character separator, `str.join`, and the
    argument-less `str.split()` that cuts at runs of whitespace.
 */
module PyStr {

  /** The characters for which Python's `str.isspace` holds, the ones the
      argument-less `split()` cuts at. */
  predicate IsSpace(c: char)
  {
    || c == ' ' || c == '\t' || c == '\n' || c == '\U{000B}' || c == '\U{000C}' || c == '\r'
    || ('\U{001C}' <= c <= '\U{001F}') || c == '\U{0085}' || c == '\U{00A0}' || c == '\U{1680}'
    || ('\U{2000}' <= c <= '\U{200A}') || c == '\U{2028}' || c == '\U{2029}' || c == '\U{202F}'
    || c == '\U{205F}' || c == '\U{3000}'
  }

  /** `s.replace(pattern, replacement)`: occurrences replaced left to right
      without overlap. Every call site passes a non-empty pattern. */
  function Replace(s: string, pattern: string, replacement: string): (r: string)
    requires |pattern| > 0
    decreases |s|
  {
    if |s| == 0 then ""
    else if pattern <= s then replacement + Replace(s[|pattern|..], pattern, replacement)
    else [s[0]] + Replace(s[1..], pattern, replacement)
  }

  /** A string that does not contain the pattern's last character is left
      as it is: no occurrence can end inside it. */
  lemma {:induction false} ReplaceUntouched(q: string, pattern: string, replacement: string)
    requires |pattern| > 0 && pattern[|pattern| - 1] !in q
    ensures Replace(q, pattern, replacement) == q
    decreases |q|
  {
    if |q| > 0 {
      assert !(pattern <= q) by {
        if |pattern| <= |q| {
          assert q[|pattern| - 1] in q;
          assert q[..|pattern|][|pattern| - 1] == q[|pattern| - 1];
        }
      }
      ReplaceUntouched(q[1..], pattern, replacement);
      assert q == [q[0]] + q[1..];
    }
  }

  /** A suffix without the pattern's last character passes through the
      replacement unchanged: no occurrence ends inside it. */
  lemma {:induction false} ReplaceKeepsTail(x: string, q: string, pattern: string, replacement: string)
    requires |pattern| > 0 && pattern[|pattern| - 1] !in q
    ensures Replace(x + q, pattern, replacement) == Replace(x, pattern, replacement) + q
    decreases |x|
  {
    var n := |pattern|;
    if |x| == 0 {
      assert x + q == q;
      ReplaceUntouched(q, pattern, replacement);
    } else if pattern <= x {
      assert (x + q)[..n] == x[..n];
      assert (x + q)[n..] == x[n..] + q;
      ReplaceKeepsTail(x[n..], q, pattern, replacement);
    } else {
      assert !(pattern <= x + q) by {
        if n <= |x| {
          assert (x + q)[..n] == x[..n];
        } else if n <= |x + q| {
          assert (x + q)[n - 1] == q[n - 1 - |x|];
          assert q[n - 1 - |x|] in q;
          assert (x + q)[..n][n - 1] == (x + q)[n - 1];
        }
      }
      assert (x + q)[1..] == x[1..] + q;
      ReplaceKeepsTail(x[1..], q, pattern, replacement);
    }
  }

  /** `sep.join(parts)`. */
  function Join(sep: string, parts: seq<string>): (r: string)
    ensures |parts| == 1 ==> r == parts[0]
    ensures |parts| > 1 ==> r == parts[0] + sep + Join(sep, parts[1..])
  {
    if |parts| == 0 then ""
    else if |parts| == 1 then parts[0]
    else parts[0] + sep + Join(sep, parts[1..])
  }

  /** `s.split(c)`: the pieces between the separators, always at least one,
      none containing the separator. */
  function Split(s: string, c: char): (r: seq<string>)
    ensures |r| >= 1
    ensures forall k :: 0 <= k < |r| ==> c !in r[k]
  {
    if |s| == 0 then [""]
    else if s[0] == c then [""] + Split(s[1..], c)
    else
      var rest := Split(s[1..], c);
      assert forall k :: 1 <= k < |rest| ==> rest[1..][k - 1] == rest[k];
      [[s[0]] + rest[0]] + rest[1..]
  }

  /** Joining the pieces with the separator restores the string, so
      `'\n'.join(s.split('\n'))` is the identity. */
  lemma {:induction false} JoinSplit(s: string, c: char)
    ensures Join([c], Split(s, c)) == s
  {
    if |s| > 0 {
      JoinSplit(s[1..], c);
      var rest := Split(s[1..], c);
      if s[0] != c && |rest| > 1 {
        assert Join([c], rest) == rest[0] + [c] + Join([c], rest[1..]);
      }
    }
  }

  /** Splitting a join of separator-free pieces gives the pieces back. */
  lemma {:induction false} SplitJoin(parts: seq<string>, c: char)
    requires |parts| >= 1 && forall k :: 0 <= k < |parts| ==> c !in parts[k]
    ensures Split(Join([c], parts), c) == parts
  {
    if |parts| == 1 {
      SplitFree(parts[0], c);
    } else {
      var tail := parts[1..];
      SplitJoin(tail, c);
      SplitPrefix(parts[0], Join([c], tail), c);
      assert parts == [parts[0]] + tail;
    }
  }

  /** A string without the separator is one piece. */
  lemma {:induction false} SplitFree(s: string, c: char)
    requires c !in s
    ensures Split(s, c) == [s]
  {
    if |s| > 0 {
      SplitFree(s[1..], c);
      assert s == [s[0]] + s[1..];
    }
  }

  /** A separator-free word followed by a separator starts a new piece. */
  lemma {:induction false} SplitPrefix(w: string, t: string, c: char)
    requires c !in w
    ensures Split(w + [c] + t, c) == [w] + Split(t, c)
  {
    if |w| == 0 {
      assert w + [c] + t == [c] + t;
      assert ([c] + t)[1..] == t;
    } else {
      SplitPrefix(w[1..], t, c);
      assert (w + [c] + t)[1..] == w[1..] + [c] + t;
      assert w == [w[0]] + w[1..];
    }
  }

  // ---------------------------------------------------------------------
  // str.split() and ' '.join
  // ---------------------------------------------------------------------

  /** A piece of `split()`: non-empty, without whitespace. */
  ghost predicate Word(w: string)
  {
    |w| > 0 && forall k :: 0 <= k < |w| ==> !IsSpace(w[k])
  }

  /** The length of the run of non-space characters at the front of s. */
  function WordLen(s: string): (n: nat)
    ensures n <= |s|
    ensures forall k :: 0 <= k < n ==> !IsSpace(s[k])
    ensures n < |s| ==> IsSpace(s[n])
  {
    if |s| == 0 || IsSpace(s[0]) then 0 else 1 + WordLen(s[1..])
  }

  /** `s.split()`: the maximal runs of non-space characters, in order. */
  function Words(s: string): (ws: seq<string>)
    ensures forall k :: 0 <= k < |ws| ==> Word(ws[k])
    decreases |s|
  {
    if |s| == 0 then []
    else if IsSpace(s[0]) then Words(s[1..])
    else
      var n := WordLen(s);
      [s[..n]] + Words(s[n..])
  }

  /** `' '.join(s.split())`. */
  function Collapse(s: string): string
  {
    Join(" ", Words(s))
  }

  /** No two spaces in a row. */
  ghost predicate NoDoubleSpace(s: string)
  {
    forall i :: 0 <= i < |s| - 1 ==> !(s[i] == ' ' && s[i + 1] == ' ')
  }

  /** The shape of a collapsed string: the only whitespace is single
      spaces between words, none at either end. */
  ghost predicate Clean(s: string)
  {
    && (forall i :: 0 <= i < |s| && IsSpace(s[i]) ==> s[i] == ' ')
    && NoDoubleSpace(s)
    && (|s| > 0 ==> s[0] != ' ' && s[|s| - 1] != ' ')
  }

  lemma {:induction false} JoinWordsClean(ws: seq<string>)
    requires forall k :: 0 <= k < |ws| ==> Word(ws[k])
    ensures Clean(Join(" ", ws))
  {
    if |ws| > 1 {
      var tail := ws[1..];
      JoinWordsClean(tail);
      var w := ws[0];
      var rest := Join(" ", tail);
      var r := w + " " + rest;
      assert |rest| > 0 by {
        assert Word(tail[0]);
        JoinStarts(tail);
      }
      JoinStarts(tail);
      forall i | 0 <= i < |r| && IsSpace(r[i])
        ensures r[i] == ' '
      {
        if i > |w| {
          assert r[i] == rest[i - |w| - 1];
        }
      }
      forall i | 0 <= i < |r| - 1
        ensures !(r[i] == ' ' && r[i + 1] == ' ')
      {
        if i > |w| {
          assert r[i] == rest[i - |w| - 1] && r[i + 1] == rest[i - |w|];
        }
      }
      assert r[|r| - 1] == rest[|rest| - 1];
    }
  }

  /** A join of words starts with the first word. */
  lemma JoinStarts(ws: seq<string>)
    requires |ws| > 0 && Word(ws[0])
    ensures |Join(" ", ws)| >= |ws[0]| && Join(" ", ws)[..|ws[0]|] == ws[0]
  {
  }

  /** The result of `' '.join(s.split())` is clean (no whitespace but
      single spaces between words, and none at either end) and has the
      same words as s. */
  lemma CollapseClean(s: string)
    ensures Clean(Collapse(s))
    ensures Words(Collapse(s)) == Words(s)
  {
    JoinWordsClean(Words(s));
    WordsJoin(Words(s));
  }

  lemma {:induction false} WordsJoin(ws: seq<string>)
    requires forall k :: 0 <= k < |ws| ==> Word(ws[k])
    ensures Words(Join(" ", ws)) == ws
  {
    if |ws| == 1 {
      WordsOfSingle(ws[0]);
    } else if |ws| > 1 {
      var tail := ws[1..];
      WordsJoin(tail);
      assert " " == [' '];
      WordsSplitAt(ws[0], ' ', Join(" ", tail));
      WordsOfSingle(ws[0]);
      assert ws == [ws[0]] + tail;
    }
  }

  /** A word followed by nothing or by whitespace is the first piece. */
  lemma WordsOfWord(w: string, t: string)
    requires Word(w) && (|t| == 0 || IsSpace(t[0]))
    ensures Words(w + t) == [w] + Words(t)
  {
    var s := w + t;
    WordLenOfWord(w, t);
    assert s[..|w|] == w && s[|w|..] == t;
  }

  lemma {:induction false} WordLenOfWord(w: string, t: string)
    requires forall k :: 0 <= k < |w| ==> !IsSpace(w[k])
    requires |t| == 0 || IsSpace(t[0])
    ensures WordLen(w + t) == |w|
  {
    if |w| > 0 {
      WordLenOfWord(w[1..], t);
      assert (w + t)[1..] == w[1..] + t;
    }
  }

  // ---------------------------------------------------------------------
  // What split() keeps: the non-space characters, cut at whitespace
  // ---------------------------------------------------------------------

  /** The characters of s that are not whitespace, in order. */
  function NonSpace(s: string): (r: string)
    ensures |r| <= |s|
    ensures forall k :: 0 <= k < |r| ==> !IsSpace(r[k])
  {
    if |s| == 0 then ""
    else (if IsSpace(s[0]) then "" else [s[0]]) + NonSpace(s[1..])
  }

  /** The pieces run together. */
  function Concat(ws: seq<string>): string
  {
    if |ws| == 0 then "" else ws[0] + Concat(ws[1..])
  }

  lemma {:induction false} NonSpaceAppend(a: string, b: string)
    ensures NonSpace(a + b) == NonSpace(a) + NonSpace(b)
  {
    if |a| > 0 {
      NonSpaceAppend(a[1..], b);
      assert (a + b)[1..] == a[1..] + b;
    } else {
      assert a + b == b;
    }
  }

  lemma {:induction false} NonSpaceWord(w: string)
    requires forall k :: 0 <= k < |w| ==> !IsSpace(w[k])
    ensures NonSpace(w) == w
  {
    if |w| > 0 {
      NonSpaceWord(w[1..]);
      assert w == [w[0]] + w[1..];
    }
  }

  /** The words of `split()` hold exactly the non-space characters of s,
      in their order: nothing is lost but whitespace. */
  lemma {:induction false} WordsConcat(s: string)
    ensures Concat(Words(s)) == NonSpace(s)
    decreases |s|
  {
    if |s| > 0 {
      if IsSpace(s[0]) {
        WordsConcat(s[1..]);
      } else {
        var n := WordLen(s);
        WordsConcat(s[n..]);
        assert s == s[..n] + s[n..];
        NonSpaceAppend(s[..n], s[n..]);
        NonSpaceWord(s[..n]);
        var ws := [s[..n]] + Words(s[n..]);
        assert ws[1..] == Words(s[n..]);
      }
    }
  }

  /** A whitespace character cuts the string: the words of the two sides,
      one after the other. */
  lemma {:induction false} WordsSplitAt(a: string, c: char, b: string)
    requires IsSpace(c)
    ensures Words(a + [c] + b) == Words(a) + Words(b)
    decreases |a|
  {
    var s := a + [c] + b;
    if |a| == 0 {
      assert s == [c] + b && s[1..] == b;
    } else if IsSpace(a[0]) {
      assert s[1..] == a[1..] + [c] + b;
      WordsSplitAt(a[1..], c, b);
    } else {
      var n := WordLen(a);
      WordLenPrefix(a, [c] + b);
      assert s == a + ([c] + b);
      assert s[..n] == a[..n];
      assert s[n..] == a[n..] + [c] + b;
      WordsSplitAt(a[n..], c, b);
    }
  }

  /** Whitespace right after a string does not lengthen its first word. */
  lemma {:induction false} WordLenPrefix(a: string, t: string)
    requires |t| > 0 && IsSpace(t[0])
    ensures WordLen(a + t) == WordLen(a)
  {
    if |a| > 0 && !IsSpace(a[0]) {
      WordLenPrefix(a[1..], t);
      assert (a + t)[1..] == a[1..] + t;
    }
  }

  /** A string without whitespace is a single word, and the empty string
      none. */
  lemma WordsOfSingle(w: string)
    requires forall k :: 0 <= k < |w| ==> !IsSpace(w[k])
    ensures |w| > 0 ==> Words(w) == [w]
    ensures |w| == 0 ==> Words(w) == []
  {
    if |w| > 0 {
      WordsOfWord(w, "");
      assert w + "" == w;
    }
  }

  /** Collapsing twice changes nothing more. */
  lemma CollapseIdempotent(s: string)
    ensures Collapse(Collapse(s)) == Collapse(s)
  {
    WordsJoin(Words(s));
  }
}

=== FILE: quantize.dfy ===
/** `decimal.Decimal.quantize` to k decimal places, with the two rounding modes
    the psychological-level features use: ROUND_DOWN (toward zero) and
    ROUND_UP (away from zero). Prices are exact reals here, so the binary to
    decimal conversion of a float is not part of the model.
 */
module Quantize {
  import opened Arith

  function Pow10(k: nat): (p: nat)
    ensures p >= 1
  {
    if k == 0 then 1 else 10 * Pow10(k - 1)
  }

  /** The grid step 10^-k as a real, through its reciprocal 10^k. */
  function Scale(k: nat): (s: real)
    ensures s >= 1.0
  {
    Pow10(k) as real
  }

  function Floor(y: real): int
  {
    y.Floor
  }

  function Ceil(y: real): int
  {
    -((-y).Floor)
  }

  /** r is a whole number of 10^-k steps. */
  predicate OnGrid(r: real, k: nat)
  {
    (r * Scale(k)).Floor as real == r * Scale(k)
  }

  /** The integer number of 10^-k steps ROUND_DOWN keeps: the whole steps of
      x, counted toward zero. */
  function DownTicks(x: real, k: nat): (t: int)
    ensures 0.0 <= x ==> 0 <= t && t as real <= x * Scale(k) < t as real + 1.0
    ensures x < 0.0 ==> t <= 0 && t as real - 1.0 < x * Scale(k) <= t as real
  {
    ScaleSign(x, k);
    var y := x * Scale(k);
    if x >= 0.0 then Floor(y) else Ceil(y)
  }

  /** The integer number of 10^-k steps ROUND_UP reaches: the whole steps
      that cover x, counted away from zero. */
  function UpTicks(x: real, k: nat): (t: int)
    ensures 0.0 <= x ==> 0 <= t && t as real - 1.0 < x * Scale(k) <= t as real
    ensures x < 0.0 ==> t <= 0 && t as real <= x * Scale(k) < t as real + 1.0
  {
    ScaleSign(x, k);
    var y := x * Scale(k);
    if x >= 0.0 then Ceil(y) else Floor(y)
  }

  /** ROUND_DOWN: drop the digits beyond the k-th decimal place (toward zero). */
  function RoundDown(x: real, k: nat): (r: real)
    ensures 0.0 <= x ==> 0.0 <= r <= x && x - r < 1.0 / Scale(k)
    ensures x < 0.0 ==> x <= r <= 0.0 && r - x < 1.0 / Scale(k)
    ensures OnGrid(r, k)
  {
    DivideBack(DownTicks(x, k), x, k);
    TicksOnGrid(DownTicks(x, k), k);
    DownTicks(x, k) as real / Scale(k)
  }

  /** ROUND_UP: move to the next k-decimal grid point away from zero, unless
      x is already on the grid. */
  function RoundUp(x: real, k: nat): (r: real)
    ensures 0.0 <= x ==> x <= r && r - x < 1.0 / Scale(k)
    ensures x < 0.0 ==> r <= x && x - r < 1.0 / Scale(k)
    ensures OnGrid(r, k)
  {
    DivideBack(UpTicks(x, k), x, k);
    TicksOnGrid(UpTicks(x, k), k);
    UpTicks(x, k) as real / Scale(k)
  }

  /** Dividing an integer within distance 1 of x * 10^k by 10^k lands within
      10^-k of x, on the same side. */
  lemma DivideBack(t: int, x: real, k: nat)
    requires x * Scale(k) - 1.0 < t as real < x * Scale(k) + 1.0
    ensures t as real <= x * Scale(k) ==> t as real / Scale(k) <= x && x - t as real / Scale(k) < 1.0 / Scale(k)
    ensures x * Scale(k) <= t as real ==> x <= t as real / Scale(k) && t as real / Scale(k) - x < 1.0 / Scale(k)
    ensures 0 <= t ==> 0.0 <= t as real / Scale(k)
    ensures t <= 0 ==> t as real / Scale(k) <= 0.0
  {
    var s := Scale(k);
    var y := x * s;
    assert y / s == x;
    assert (y - t as real) / s == y / s - t as real / s;
    assert (t as real - y) / s == t as real / s - y / s;
    DivMono(t as real, y, s);
    DivMono(y, t as real, s);
    DivMono(y - t as real, 1.0, s);
    DivMono(t as real - y, 1.0, s);
  }

  /** Scaling by 10^k keeps the sign. */
  lemma ScaleSign(x: real, k: nat)
    ensures 0.0 <= x ==> 0.0 <= x * Scale(k)
    ensures x < 0.0 ==> x * Scale(k) < 0.0
  {
  }

  /** Scaling by 10^k keeps the order. */
  lemma ScaleMono(a: real, b: real, k: nat)
    requires a <= b
    ensures a * Scale(k) <= b * Scale(k)
  {
    ScaleSign(b - a, k);
  }

  /** A whole number of steps is on the grid, and every grid point is one. */
  lemma TicksOnGrid(t: int, k: nat)
    ensures OnGrid(t as real / Scale(k), k)
  {
    DivTimes(t as real, Scale(k));
    FloorCeilBounds(t, t as real);
  }

  lemma GridTicks(g: real, k: nat)
    requires OnGrid(g, k)
    ensures g == (g * Scale(k)).Floor as real / Scale(k)
  {
  }

  /** ROUND_DOWN gives the grid point nearest to x on the side of zero: no
      point of the grid lies strictly between it and x. */
  lemma RoundDownNearest(x: real, k: nat, g: real)
    requires OnGrid(g, k)
    ensures 0.0 <= x && g <= x ==> g <= RoundDown(x, k)
    ensures x < 0.0 && x <= g ==> RoundDown(x, k) <= g
  {
    var n := (g * Scale(k)).Floor;
    var t := DownTicks(x, k);
    GridTicks(g, k);
    if 0.0 <= x && g <= x {
      assert n <= t by {
        ScaleMono(g, x, k);
        FloorCeilBounds(n, x * Scale(k));
      }
      TicksMono(n, t, k);
    }
    if x < 0.0 && x <= g {
      assert t <= n by {
        ScaleMono(x, g, k);
        FloorCeilBounds(n, x * Scale(k));
      }
      TicksMono(t, n, k);
    }
  }

  /** ROUND_UP gives the grid point nearest to x on the side away from
      zero. */
  lemma RoundUpNearest(x: real, k: nat, g: real)
    requires OnGrid(g, k)
    ensures 0.0 <= x && x <= g ==> RoundUp(x, k) <= g
    ensures x < 0.0 && g <= x ==> g <= RoundUp(x, k)
  {
    var n := (g * Scale(k)).Floor;
    var t := UpTicks(x, k);
    GridTicks(g, k);
    if 0.0 <= x && x <= g {
      assert t <= n by {
        ScaleMono(x, g, k);
        FloorCeilBounds(n, x * Scale(k));
      }
      TicksMono(t, n, k);
    }
    if x < 0.0 && g <= x {
      assert n <= t by {
        ScaleMono(g, x, k);
        FloorCeilBounds(n, x * Scale(k));
      }
      TicksMono(n, t, k);
    }
  }

  /** More steps are further along the grid. */
  lemma TicksMono(a: int, b: int, k: nat)
    requires a <= b
    ensures a as real / Scale(k) <= b as real / Scale(k)
  {
    DivMono(a as real, b as real, Scale(k));
  }

  /** An integer at most y is at most its floor; one at least y is at least its
      ceiling. */
  lemma FloorCeilBounds(n: int, y: real)
    ensures n as real <= y ==> n <= Floor(y)
    ensures y <= n as real ==> Ceil(y) <= n
    ensures Floor(n as real) == n && Ceil(n as real) == n
  {
  }

  /** A finer grid never rounds further from the value: ROUND_DOWN to k + 1
      places is at least ROUND_DOWN to k places for non-negative values. */
  lemma RoundDownFiner(x: real, k: nat)
    requires 0.0 <= x
    ensures RoundDown(x, k) <= RoundDown(x, k + 1)
  {
    var s := Scale(k);
    var n := DownTicks(x, k);
    var m := DownTicks(x, k + 1);
    assert Scale(k + 1) == 10.0 * s;
    assert x * Scale(k + 1) == 10.0 * (x * s);
    assert n as real <= x * s;
    assert (10 * n) as real <= x * Scale(k + 1);
    FloorCeilBounds(10 * n, x * Scale(k + 1));
    assert 10 * n <= m;
    assert n as real / s == (10 * n) as real / Scale(k + 1);
    DivMono((10 * n) as real, m as real, Scale(k + 1));
  }

  /** ROUND_UP to k + 1 places is at most ROUND_UP to k places for
      non-negative values. */
  lemma RoundUpFiner(x: real, k: nat)
    requires 0.0 <= x
    ensures RoundUp(x, k + 1) <= RoundUp(x, k)
  {
    var s := Scale(k);
    var n := UpTicks(x, k);
    var m := UpTicks(x, k + 1);
    assert Scale(k + 1) == 10.0 * s;
    assert x * Scale(k + 1) == 10.0 * (x * s);
    assert x * s <= n as real;
    assert x * Scale(k + 1) <= (10 * n) as real;
    FloorCeilBounds(10 * n, x * Scale(k + 1));
    assert m <= 10 * n;
    assert n as real / s == (10 * n) as real / Scale(k + 1);
    DivMono(m as real, (10 * n) as real, Scale(k + 1));
  }

  /** Quantizing a value that is already on the grid leaves it unchanged, so
      quantizing twice is the same as quantizing once. */
  lemma RoundDownIdempotent(x: real, k: nat)
    ensures RoundDown(RoundDown(x, k), k) == RoundDown(x, k)
  {
    var s := Scale(k);
    var t := DownTicks(x, k);
    var r := t as real / s;
    assert r * s == t as real;
    FloorCeilBounds(t, t as real);
    assert DownTicks(r, k) == t;
  }

  lemma RoundUpIdempotent(x: real, k: nat)
    ensures RoundUp(RoundUp(x, k), k) == RoundUp(x, k)
  {
    var s := Scale(k);
    var t := UpTicks(x, k);
    var r := t as real / s;
    assert r * s == t as real;
    FloorCeilBounds(t, t as real);
    assert UpTicks(r, k) == t;
  }
}

=== FILE: report.dfy ===
/** The text and table helpers of `crawsiz.main.report`: `_text`, which turns
    a plain-text block into courier HTML; `_html_table`, which renders
    a heading and rows with alternating row colours; the window
    computations of `historical_highs` and `historical_lows`; the
    direction labels and the ordering of `historical_predictions`; and
    the facet chosen by `bayesian` and `linear` for a guess.
 */
module Report {
  import opened Wrappers
  import opened PyStr
  import PySeq
  import Sorting
  import Config
  import Facets

  // ---------------------------------------------------------------------
  // _text
  // ---------------------------------------------------------------------

  const Open: string := "<p style=\"font-family:courier\">"
  const Close: string := "</p>"
  const Br: string := "<br>\n"
  const Nbsp: string := "&nbsp;&nbsp;"

  /** Every line break becomes an HTML break followed by the line break. */
  function Breaks(s: string): string
  {
    Replace(s, "\n", Br)
  }

  /** `_text`: the breaks are marked, the block is wrapped in the courier
      paragraph, and every pair of spaces becomes two non-breaking spaces.
      The wrapper itself is left intact and no two spaces remain. */
  function Text(lines: string): (r: string)
    ensures r == Open + Replace(Breaks(lines), "  ", Nbsp) + Close
    ensures NoDoubleSpace(r)
  {
    var inner := Breaks(lines);
    assert Open + inner + Close == Open + (inner + Close);
    ReplaceKeepsPrefix(Open, inner + Close);
    ReplaceKeepsTail(inner, Close, "  ", Nbsp);
    ReplaceNoDouble(inner);
    ConcatNoDouble(Open, Replace(inner, "  ", Nbsp));
    ConcatNoDouble(Open + Replace(inner, "  ", Nbsp), Close);
    Replace(Open + inner + Close, "  ", Nbsp)
  }

  lemma ConcatNoDouble(a: string, b: string)
    requires NoDoubleSpace(a) && NoDoubleSpace(b)
    requires !(|a| > 0 && |b| > 0 && a[|a| - 1] == ' ' && b[0] == ' ')
    ensures NoDoubleSpace(a + b)
  {
    var s := a + b;
    forall i | 0 <= i < |s| - 1
      ensures !(s[i] == ' ' && s[i + 1] == ' ')
    {
      if i >= |a| {
        assert s[i] == b[i - |a|] && s[i + 1] == b[i - |a| + 1];
      } else if i == |a| - 1 {
        assert s[i + 1] == b[0];
      } else {
        assert s[i] == a[i] && s[i + 1] == a[i + 1];
      }
    }
  }

  /** Replacing double spaces leaves no double space, and the result starts
      with a space only where the input starts with a lone one. */
  lemma {:induction false} ReplaceNoDouble(s: string)
    ensures NoDoubleSpace(Replace(s, "  ", Nbsp))
    ensures var r := Replace(s, "  ", Nbsp);
      |r| > 0 && r[0] == ' ' ==> |s| > 0 && s[0] == ' ' && (|s| == 1 || s[1] != ' ')
    decreases |s|
  {
    if |s| > 0 {
      if "  " <= s {
        ReplaceNoDouble(s[2..]);
        ConcatNoDouble(Nbsp, Replace(s[2..], "  ", Nbsp));
      } else {
        var rest := Replace(s[1..], "  ", Nbsp);
        ReplaceNoDouble(s[1..]);
        DoublePrefix(s);
        ConcatNoDouble([s[0]], rest);
      }
    }
  }

  /** The replacement fires where two spaces start the text. */
  lemma DoublePrefix(s: string)
    ensures ("  " <= s) <==> (|s| >= 2 && s[0] == ' ' && s[1] == ' ')
  {
    if |s| >= 2 {
      assert s[..2] == [s[0], s[1]];
    }
  }

  lemma NoDoubleTail(p: string)
    requires NoDoubleSpace(p) && |p| > 0
    ensures NoDoubleSpace(p[1..])
  {
    var t := p[1..];
    forall i | 0 <= i < |t| - 1
      ensures !(t[i] == ' ' && t[i + 1] == ' ')
    {
      assert t[i] == p[i + 1] && t[i + 1] == p[i + 2];
    }
  }

  /** A prefix without a double space and not ending in a space passes
      through the replacement unchanged. */
  lemma {:induction false} ReplaceKeepsPrefix(p: string, x: string)
    requires NoDoubleSpace(p) && (|p| == 0 || p[|p| - 1] != ' ')
    ensures Replace(p + x, "  ", Nbsp) == p + Replace(x, "  ", Nbsp)
  {
    if |p| == 0 {
      assert p + x == x;
    } else {
      var t := p[1..];
      NoDoubleTail(p);
      ReplaceKeepsPrefix(t, x);
      DoublePrefix(p + x);
      assert (p + x)[0] == p[0];
      if |p| >= 2 {
        assert (p + x)[1] == p[1];
      }
      assert (p + x)[1..] == t + x;
      assert p == [p[0]] + t;
    }
  }

  /** In the marked text every line break comes after the four characters
      of a "<br>". */
  lemma {:induction false} BreaksNewlines(t: string)
    ensures forall i :: 0 <= i < |Breaks(t)| && Breaks(t)[i] == '\n' ==> i >= 4
  {
    if |t| > 0 {
      BreaksNewlines(t[1..]);
      var e := Breaks(t[1..]);
      if t[0] == '\n' {
        assert "\n" <= t;
        assert Breaks(t) == Br + e;
      } else {
        assert !("\n" <= t);
        assert Breaks(t) == [t[0]] + e;
      }
    }
  }

  /** Turning the HTML breaks back into line breaks restores the text, so
      the marking loses nothing. */
  lemma {:induction false} BreaksRoundTrip(s: string)
    ensures Replace(Breaks(s), Br, "\n") == s
  {
    if |s| > 0 {
      var e := Breaks(s[1..]);
      BreaksRoundTrip(s[1..]);
      if s[0] == '\n' {
        assert "\n" <= s;
        assert Breaks(s) == Br + e;
        assert Br <= Br + e;
        assert (Br + e)[|Br|..] == e;
        assert s == "\n" + s[1..];
      } else {
        assert !("\n" <= s);
        var b := [s[0]] + e;
        assert Breaks(s) == b;
        assert !(Br <= b) by {
          BreaksNewlines(s[1..]);
          if |b| >= 5 {
            assert b[4] == e[3] && e[3] != '\n';
          }
        }
        assert b[1..] == e;
        assert s == [s[0]] + s[1..];
      }
    }
  }

  // ---------------------------------------------------------------------
  // _html_table
  // ---------------------------------------------------------------------

  const TableOpen: string := "<table cellpadding=\"7\">"
  const ThStart: string := "<th bgcolor=\"#8CAA39\"><font color=\"#FFFFFF\">"
  const TdOpen: string := "<td>"
  const OddColour: string := "#EEEEFF"
  const EvenColour: string := "#B0E0E6"

  /** The other row colour. */
  function Flip(colour: string): string
  {
    if colour == OddColour then EvenColour else OddColour
  }

  /** The colour loop of `_html_table` over the first cells of the rows,
      from a state `odd_row`, `previous_value`, `color`. A row whose first
      cell repeats the previous one keeps `color` when duplicates are
      highlighted; any other row takes the colour `odd_row` names and
      toggles it. */
  function Paint(firsts: seq<string>, highlight: bool, oddRow: bool, previous: Option<string>, colour: string): (r: seq<string>)
    ensures |r| == |firsts|
  {
    if |firsts| == 0 then []
    else
      var current := firsts[0];
      if highlight && previous == Some(current) then
        [colour] + Paint(firsts[1..], highlight, oddRow, Some(current), colour)
      else if oddRow then
        [OddColour] + Paint(firsts[1..], highlight, false, Some(current), OddColour)
      else
        [EvenColour] + Paint(firsts[1..], highlight, true, Some(current), EvenColour)
  }

  /** The loop starts with `odd_row` true and no previous value; `color`
      is unset then, and it is never read before the first row sets it. */
  function Colours(firsts: seq<string>, highlight: bool): (r: seq<string>)
    ensures |r| == |firsts|
  {
    Paint(firsts, highlight, true, None, OddColour)
  }

  /** The loop's state once a row has been coloured: the next fresh colour
      is the other one. */
  ghost predicate Steady(oddRow: bool, previous: Option<string>, colour: string)
  {
    previous.Some? ==> colour == (if oddRow then EvenColour else OddColour)
  }

  lemma {:induction false} PaintMeaning(firsts: seq<string>, highlight: bool, oddRow: bool, previous: Option<string>, colour: string)
    requires Steady(oddRow, previous, colour)
    ensures var r := Paint(firsts, highlight, oddRow, previous, colour);
      && (|firsts| > 0 ==> r[0] == if highlight && previous == Some(firsts[0]) then colour
                                   else if oddRow then OddColour else EvenColour)
      && (forall i :: 1 <= i < |firsts| ==>
            r[i] == if highlight && firsts[i] == firsts[i - 1] then r[i - 1] else Flip(r[i - 1]))
  {
    if |firsts| > 0 {
      var r := Paint(firsts, highlight, oddRow, previous, colour);
      var current := firsts[0];
      var tail := firsts[1..];
      var nextOdd := if highlight && previous == Some(current) then oddRow else !oddRow;
      var c0 := r[0];
      PaintMeaning(tail, highlight, nextOdd, Some(current), c0);
      var rest := Paint(tail, highlight, nextOdd, Some(current), c0);
      assert r == [c0] + rest;
      forall i | 1 <= i < |firsts|
        ensures r[i] == if highlight && firsts[i] == firsts[i - 1] then r[i - 1] else Flip(r[i - 1])
      {
        assert r[i] == rest[i - 1] && tail[i - 1] == firsts[i];
        if i >= 2 {
          assert r[i - 1] == rest[i - 2] && tail[i - 2] == firsts[i - 1];
        }
      }
    }
  }

  /** Row colours of `_html_table`: the first row is `#EEEEFF`; each later
      row keeps the previous colour when duplicates are highlighted and its
      first cell equals the previous row's, and takes the other colour
      otherwise. */
  lemma ColoursMeaning(firsts: seq<string>, highlight: bool)
    ensures var c := Colours(firsts, highlight);
      && (|firsts| > 0 ==> c[0] == OddColour)
      && (forall i :: 1 <= i < |firsts| ==>
            c[i] == if highlight && firsts[i] == firsts[i - 1] then c[i - 1] else Flip(c[i - 1]))
  {
    PaintMeaning(firsts, highlight, true, None, OddColour);
  }

  /** Without highlighting the colours alternate, `#EEEEFF` on the first,
      third, ... row and `#B0E0E6` on the others. */
  lemma ColoursAlternate(firsts: seq<string>)
    ensures forall i :: 0 <= i < |firsts| ==>
      Colours(firsts, false)[i] == if i % 2 == 0 then OddColour else EvenColour
  {
    var c := Colours(firsts, false);
    ColoursMeaning(firsts, false);
    forall i | 0 <= i < |firsts|
      ensures c[i] == if i % 2 == 0 then OddColour else EvenColour
    {
      AlternateAt(c, i);
    }
  }

  lemma {:induction false} AlternateAt(c: seq<string>, i: nat)
    requires i < |c| && |c| > 0 && c[0] == OddColour
    requires forall k :: 1 <= k < |c| ==> c[k] == Flip(c[k - 1])
    ensures c[i] == if i % 2 == 0 then OddColour else EvenColour
  {
    if i > 0 {
      AlternateAt(c, i - 1);
    }
  }

  /** The header row: the heading cells joined by the closing and opening
      header tags. */
  function HeaderHtml(heading: seq<string>): string
  {
    TableOpen + ThStart + Join("</font></th>\n " + ThStart, heading) + "</th>"
  }

  /** One table row in the given colour. */
  function RowHtml(colour: string, row: seq<string>): string
  {
    "\n <tr bgcolor=\"" + colour + "\">\n " + TdOpen + Join("</td>" + TdOpen, row) + "\n  </td>\n </tr>"
  }

  /** The rows in order, each in its colour. */
  function BodyHtml(rows: seq<seq<string>>, colours: seq<string>): string
    requires |colours| == |rows|
  {
    if |rows| == 0 then ""
    else BodyHtml(rows[..|rows| - 1], colours[..|rows| - 1]) + RowHtml(colours[|rows| - 1], rows[|rows| - 1])
  }

  /** The table before its whitespace is collapsed. */
  function RawTable(heading: seq<string>, rows: seq<seq<string>>, colours: seq<string>): (raw: string)
    requires |colours| == |rows|
    ensures HeaderHtml(heading) <= raw
    ensures |raw| >= 10 && raw[|raw| - 10..] == "\n</table>\n"
  {
    HeaderHtml(heading) + BodyHtml(rows, colours) + "\n</table>\n"
  }

  /** Every row has a first cell; `row[0]` raises IndexError otherwise. */
  predicate Filled(rows: seq<seq<string>>)
  {
    forall i :: 0 <= i < |rows| ==> |rows[i]| > 0
  }

  function Firsts(rows: seq<seq<string>>): (f: seq<string>)
    requires Filled(rows)
    ensures |f| == |rows| && forall i :: 0 <= i < |rows| ==> f[i] == rows[i][0]
  {
    seq(|rows|, i requires 0 <= i < |rows| => rows[i][0])
  }

  /** `_html_table`: the table with whitespace collapsed to single spaces;
      an empty row raises IndexError. The closing split and join at line
      breaks change nothing, since no line break survives the collapse. */
  function HtmlTable(heading: seq<string>, rows: seq<seq<string>>, highlight: bool): (r: Result<string>)
    ensures r.Ok? <==> Filled(rows)
    ensures r.Err? ==> r.fault == IndexError
    ensures r.Ok? ==> r.value == Collapse(RawTable(heading, rows, Colours(Firsts(rows), highlight)))
    ensures r.Ok? ==> Clean(r.value) && '\n' !in r.value
  {
    if !Filled(rows) then Err(IndexError)
    else
      var raw := RawTable(heading, rows, Colours(Firsts(rows), highlight));
      var html := Collapse(raw);
      CollapsedLines(raw);
      Ok(Join("\n", Split(html, '\n')))
  }

  /** A collapsed string is clean, has no line break left, and so survives
      splitting and re-joining at line breaks. */
  lemma CollapsedLines(raw: string)
    ensures Clean(Collapse(raw)) && '\n' !in Collapse(raw)
    ensures Join("\n", Split(Collapse(raw), '\n')) == Collapse(raw)
  {
    var html := Collapse(raw);
    CollapseClean(raw);
    JoinSplit(html, '\n');
    assert "\n" == ['\n'];
  }

  // ---------------------------------------------------------------------
  // historical_highs / historical_lows
  // ---------------------------------------------------------------------

  datatype Extreme = Highest | Lowest

  /** The look-back periods of the historical tables, in days. */
  const Periods: seq<int> := [60, 120, 180, 240]

  /** `list[-days - 1:-1]`: up to `days` entries before the newest, which is
      left out. */
  function Window<T>(s: seq<T>, days: int): seq<T>
  {
    PySeq.Slice(s, -days - 1, -1)
  }

  /** Where the window starts. */
  function Start(n: nat, days: nat): nat
  {
    if n - days - 1 < 0 then 0 else n - days - 1
  }

  lemma WindowRange<T>(s: seq<T>, days: nat)
    ensures |s| == 0 ==> Window(s, days) == []
    ensures |s| > 0 ==> Start(|s|, days) <= |s| - 1 && Window(s, days) == s[Start(|s|, days)..|s| - 1]
  {
    var w := Window(s, days);
    if |s| > 0 {
      var lo := Start(|s|, days);
      assert |w| == |s| - 1 - lo;
      forall k | 0 <= k < |w|
        ensures w[k] == s[lo + k]
      {
        PySeq.SliceElements(s, -(days as int) - 1, -1, k);
      }
    }
  }

  /** The more extreme of two values in the direction asked for. */
  predicate Beats(e: Extreme, a: real, b: real)
  {
    if e.Highest? then b <= a else a <= b
  }

  /** `max` or `min` of a non-empty window. */
  function Pick(w: seq<real>, e: Extreme): (v: real)
    requires |w| > 0
    ensures v in w
    ensures forall k :: 0 <= k < |w| ==> Beats(e, v, w[k])
  {
    if e.Highest? then PySeq.Max(w) else PySeq.Min(w)
  }

  /** One column of a historical table: the extreme value of the window and
      the timestamp of its first occurrence. An empty window makes `max`
      raise ValueError; a timestamp list shorter than the values makes the
      lookup raise IndexError. */
  function Historical(values: seq<real>, timestamps: seq<int>, days: int, e: Extreme): (r: Result<(real, int)>)
    ensures |Window(values, days)| == 0 <==> r == Err(ValueError)
    ensures r.Err? ==> r.fault == ValueError || r.fault == IndexError
  {
    var w := Window(values, days);
    var tw := Window(timestamps, days);
    if |w| == 0 then Err(ValueError)
    else
      var v := Pick(w, e);
      var index := PySeq.IndexOf(w, v).value;
      var t :- PySeq.At(tw, index);
      Ok((v, t))
  }

  /** On aligned value and timestamp lists a column exists exactly when
      there are at least two values: one before the newest. */
  lemma HistoricalExists(values: seq<real>, timestamps: seq<int>, days: nat, e: Extreme)
    requires days > 0 && |timestamps| == |values|
    ensures Historical(values, timestamps, days, e).Ok? <==> |values| >= 2
  {
    WindowRange(values, days);
    WindowRange(timestamps, days);
  }

  /** A column reports the extreme of the window that excludes the newest
      entry, with the timestamp of its earliest position i in that
      window. */
  lemma HistoricalPosition(values: seq<real>, timestamps: seq<int>, days: nat, e: Extreme) returns (i: nat)
    requires days > 0 && |timestamps| == |values| && |values| >= 2
    ensures var r := Historical(values, timestamps, days, e);
      && r.Ok?
      && Start(|values|, days) <= i < |values| - 1
      && r.value == (values[i], timestamps[i])
      && (forall j :: Start(|values|, days) <= j < i ==> values[j] != values[i])
      && (forall j :: Start(|values|, days) <= j < |values| - 1 ==> Beats(e, values[i], values[j]))
  {
    var n := |values|;
    var lo := Start(n, days);
    WindowRange(values, days);
    WindowRange(timestamps, days);
    var w := Window(values, days);
    var tw := Window(timestamps, days);
    var v := Pick(w, e);
    var index := PySeq.IndexOf(w, v).value;
    i := lo + index;
    assert w[index] == values[i] && tw[index] == timestamps[i];
    forall j | lo <= j < i
      ensures values[j] != values[i]
    {
      assert values[j] == w[..index][j - lo];
    }
    forall j | lo <= j < n - 1
      ensures Beats(e, values[i], values[j])
    {
      assert values[j] == w[j - lo];
    }
  }

  /** A longer look-back reaches at least as far: its high is at least,
      and its low at most, the shorter one's. */
  lemma HistoricalWidens(values: seq<real>, timestamps: seq<int>, d1: nat, d2: nat, e: Extreme)
    requires 0 < d1 <= d2 && |timestamps| == |values| && |values| >= 2
    ensures Historical(values, timestamps, d2, e).Ok? && Historical(values, timestamps, d1, e).Ok?
    ensures Beats(e, Historical(values, timestamps, d2, e).value.0, Historical(values, timestamps, d1, e).value.0)
  {
    var i1 := HistoricalPosition(values, timestamps, d1, e);
    var i2 := HistoricalPosition(values, timestamps, d2, e);
    assert Start(|values|, d2) <= Start(|values|, d1);
  }

  /** The results of a computation for each period in turn, stopping at
      the first error. */
  function Collect<A>(f: int -> Result<A>, periods: seq<int>): (r: Result<seq<A>>)
    ensures r.Ok? <==> forall k :: 0 <= k < |periods| ==> f(periods[k]).Ok?
    ensures r.Ok? ==> |r.value| == |periods| && forall k :: 0 <= k < |periods| ==> r.value[k] == f(periods[k]).value
    ensures r.Err? ==> exists k :: 0 <= k < |periods| && f(periods[k]) == Err(r.fault)
  {
    if |periods| == 0 then Ok([])
    else
      var first :- f(periods[0]);
      assert forall k :: 1 <= k < |periods| ==> periods[1..][k - 1] == periods[k];
      var rest :- Collect(f, periods[1..]);
      Ok([first] + rest)
  }

  /** The four columns of `historical_highs` or `historical_lows`. */
  function HistoricalColumns(values: seq<real>, timestamps: seq<int>, e: Extreme): (r: Result<seq<(real, int)>>)
    ensures r.Ok? <==> forall k :: 0 <= k < |Periods| ==> Historical(values, timestamps, Periods[k], e).Ok?
    ensures r.Ok? ==> |r.value| == 4
    ensures r.Ok? ==> forall k :: 0 <= k < 4 ==> r.value[k] == Historical(values, timestamps, Periods[k], e).value
  {
    Collect(d => Historical(values, timestamps, d, e), Periods)
  }

  /** On aligned lists the columns exist exactly when there are two
      values. */
  lemma HistoricalColumnsExist(values: seq<real>, timestamps: seq<int>, e: Extreme)
    requires |timestamps| == |values|
    ensures HistoricalColumns(values, timestamps, e).Ok? <==> |values| >= 2
  {
    HistoricalExists(values, timestamps, 60, e);
    forall k | 0 <= k < |Periods|
      ensures Historical(values, timestamps, Periods[k], e).Ok? <==> |values| >= 2
    {
      HistoricalExists(values, timestamps, Periods[k], e);
    }
  }

  /** The reported values grow more extreme from the 60-day column to the
      240-day column. */
  lemma HistoricalColumnsOrdered(values: seq<real>, timestamps: seq<int>, e: Extreme)
    requires |timestamps| == |values| && |values| >= 2
    ensures var r := HistoricalColumns(values, timestamps, e);
      r.Ok? && |r.value| == 4 && forall k :: 0 < k < 4 ==> Beats(e, r.value[k].0, r.value[k - 1].0)
  {
    HistoricalColumnsExist(values, timestamps, e);
    var r := HistoricalColumns(values, timestamps, e);
    forall k | 0 < k < 4
      ensures Beats(e, r.value[k].0, r.value[k - 1].0)
    {
      assert r.value[k] == Historical(values, timestamps, Periods[k], e).value;
      assert r.value[k - 1] == Historical(values, timestamps, Periods[k - 1], e).value;
      HistoricalWidens(values, timestamps, Periods[k - 1], Periods[k], e);
    }
  }

  // ---------------------------------------------------------------------
  // historical_predictions
  // ---------------------------------------------------------------------

  /** A stored prediction with its date already rendered: each prediction is
      the class the classifier stored, as an integer. */
  datatype Stored = Stored(timestring: string, highBayesian: int, highLinear: int, lowBayesian: int, lowLinear: int)

  /** The caption of a stored prediction: "Higher" for a positive class,
      "Lower" for anything else. */
  function Direction(prediction: int, extreme: string): (caption: string)
    ensures |caption| >= 6 && |caption| > |extreme| && caption[|caption| - |extreme|..] == extreme
    ensures caption[..6] == "Higher" <==> prediction > 0
  {
    if prediction > 0 then "Higher " + extreme else "Lower " + extreme
  }

  /** Whether a caption announces a rise. */
  predicate Rises(caption: string)
  {
    |caption| >= 6 && caption[..6] == "Higher"
  }

  /** The caption is read back as a rise exactly for a positive class. */
  lemma DirectionRises(prediction: int, extreme: string)
    ensures Rises(Direction(prediction, extreme)) <==> prediction > 0
  {
    var d := Direction(prediction, extreme);
    if prediction <= 0 {
      assert d[..6] == "Lower " || |d| < 6;
      assert d[0] == 'L';
    }
  }

  /** One row of the table: the date, then the Bayesian and linear high
      labels, then the Bayesian and linear low labels. */
  function PredictionRow(s: Stored): (row: seq<string>)
    ensures |row| == 5 && row[0] == s.timestring
    ensures Rises(row[1]) <==> s.highBayesian > 0
    ensures Rises(row[2]) <==> s.highLinear > 0
    ensures Rises(row[3]) <==> s.lowBayesian > 0
    ensures Rises(row[4]) <==> s.lowLinear > 0
  {
    DirectionRises(s.highBayesian, "High");
    DirectionRises(s.highLinear, "High");
    DirectionRises(s.lowBayesian, "Low");
    DirectionRises(s.lowLinear, "Low");
    [s.timestring, Direction(s.highBayesian, "High"), Direction(s.highLinear, "High"),
     Direction(s.lowBayesian, "Low"), Direction(s.lowLinear, "Low")]
  }

  /** Python's `<=` on tuples of strings: the first differing position
      decides, and a proper prefix comes first. */
  predicate RowLe(a: seq<string>, b: seq<string>)
  {
    if |a| == 0 then true
    else if |b| == 0 then false
    else if a[0] != b[0] then Config.LexLe(a[0], b[0])
    else RowLe(a[1..], b[1..])
  }

  lemma {:induction false} RowLeTotal(a: seq<string>, b: seq<string>)
    ensures RowLe(a, b) || RowLe(b, a)
  {
    if |a| > 0 && |b| > 0 {
      if a[0] != b[0] {
        Config.LexLeTotal(a[0], b[0]);
      } else {
        RowLeTotal(a[1..], b[1..]);
      }
    }
  }

  lemma {:induction false} RowLeTrans(a: seq<string>, b: seq<string>, c: seq<string>)
    requires RowLe(a, b) && RowLe(b, c)
    ensures RowLe(a, c)
  {
    if |a| > 0 && |b| > 0 && |c| > 0 {
      if a[0] == b[0] && b[0] == c[0] {
        RowLeTrans(a[1..], b[1..], c[1..]);
      } else if a[0] != b[0] && b[0] != c[0] {
        Config.LexLeTrans(a[0], b[0], c[0]);
        if a[0] == c[0] {
          Config.LexLeAntisym(a[0], b[0]);
        }
      }
    }
  }

  lemma {:induction false} RowLeAntisym(a: seq<string>, b: seq<string>)
    requires RowLe(a, b) && RowLe(b, a)
    ensures a == b
  {
    if |a| > 0 {
      if a[0] != b[0] {
        Config.LexLeAntisym(a[0], b[0]);
      }
      RowLeAntisym(a[1..], b[1..]);
      assert a == [a[0]] + a[1..] && b == [b[0]] + b[1..];
    }
  }

  /** The order of `sorted(rows, reverse=True)`. */
  predicate Descending(a: seq<string>, b: seq<string>)
  {
    RowLe(b, a)
  }

  lemma DescendingOrder(rows: seq<seq<string>>)
    ensures Sorting.TotalOn(Descending, rows)
    ensures Sorting.TransitiveOn(Descending, rows)
    ensures Sorting.AntisymmetricOn(Descending, rows)
  {
    forall i, j | 0 <= i < |rows| && 0 <= j < |rows|
      ensures Descending(rows[i], rows[j]) || Descending(rows[j], rows[i])
    {
      RowLeTotal(rows[i], rows[j]);
    }
    forall i, j, k | 0 <= i < |rows| && 0 <= j < |rows| && 0 <= k < |rows|
                     && Descending(rows[i], rows[j]) && Descending(rows[j], rows[k])
      ensures Descending(rows[i], rows[k])
    {
      RowLeTrans(rows[k], rows[j], rows[i]);
    }
    forall i, j | 0 <= i < |rows| && 0 <= j < |rows| && Descending(rows[i], rows[j]) && Descending(rows[j], rows[i])
      ensures rows[i] == rows[j]
    {
      RowLeAntisym(rows[i], rows[j]);
    }
  }

  /** `sorted(rows, reverse=True)`: the rows, largest first. */
  function SortedRows(rows: seq<seq<string>>): (r: seq<seq<string>>)
    ensures multiset(r) == multiset(rows)
    ensures Sorting.Ordered(Descending, r)
  {
    DescendingOrder(rows);
    Sorting.SortOrdered(Descending, rows);
    Sorting.Sort(Descending, rows)
  }

  /** Any descending arrangement of the rows is the one the table shows. */
  lemma SortedRowsUnique(rows: seq<seq<string>>, other: seq<seq<string>>)
    requires Sorting.Ordered(Descending, other) && multiset(other) == multiset(rows)
    ensures other == SortedRows(rows)
  {
    var s := SortedRows(rows);
    DescendingOrder(other);
    Sorting.OrderedUnique(Descending, other, s);
  }

  const PredictionHeading: seq<string> := ["Date", "Bayesian High", "Linear High", "Bayesian Low", "Linear Low"]
  const PredictionTitle: string := "<h2>Historical Predictions</h2>\n"

  function PredictionRows(stored: seq<Stored>): (rows: seq<seq<string>>)
    ensures |rows| == |stored|
    ensures forall k :: 0 <= k < |stored| ==> rows[k] == PredictionRow(stored[k])
  {
    seq(|stored|, k requires 0 <= k < |stored| => PredictionRow(stored[k]))
  }

  /** `historical_predictions` on the stored predictions of a pair: the
      title, then the table of their rows, newest date first when dates
      are rendered so that they sort as text. Every row has five cells, so
      the table cannot fail. */
  function HistoricalPredictions(stored: seq<Stored>): (r: string)
    ensures |r| >= |PredictionTitle| && r[..|PredictionTitle|] == PredictionTitle
    ensures var sorted := SortedRows(PredictionRows(stored));
      && Filled(sorted)
      && r[|PredictionTitle|..] == Collapse(RawTable(PredictionHeading, sorted, Colours(Firsts(sorted), false)))
  {
    var rows := PredictionRows(stored);
    var sorted := SortedRows(rows);
    assert Filled(sorted) by {
      forall i | 0 <= i < |sorted|
        ensures |sorted[i]| > 0
      {
        assert sorted[i] in multiset(rows);
        var k :| 0 <= k < |rows| && rows[k] == sorted[i];
      }
    }
    var table := HtmlTable(PredictionHeading, sorted, false);
    assert (PredictionTitle + table.value)[|PredictionTitle|..] == table.value;
    PredictionTitle + table.value
  }

  // ---------------------------------------------------------------------
  // bayesian / linear
  // ---------------------------------------------------------------------

  /** A reported facet: its caption and its value in percent. */
  datatype Line<T> = Line(caption: string, percent: T)

  /** The dictionary key a guess reads: -1 for a guess of -1, and the class
      1 for any other guess, a missing one included. */
  function FacetKey(guess: Option<int>): (k: Option<int>)
    ensures k == Some(-1) <==> guess == Some(-1)
    ensures k != Some(-1) ==> k == Some(1)
  {
    if guess == Some(-1) then Some(-1) else Some(1)
  }

  function BayesianLine(guess: Option<int>, facets: map<Option<int>, real>, lower: string, higher: string): (r: Result<Line<real>>)
    ensures r.Ok? <==> FacetKey(guess) in facets
    ensures r.Err? ==> r.fault == KeyError
    ensures r.Ok? ==> r.value.percent == facets[FacetKey(guess)] * 100.0
    ensures r.Ok? ==> r.value.caption == if guess == Some(-1) then lower else higher
  {
    var facet :- Facets.Lookup(facets, FacetKey(guess));
    Ok(Line(if guess == Some(-1) then lower else higher, facet * 100.0))
  }

  /** `bayesian`: the high line reads the high facet of the guessed class,
      the low line the low facet; a guess of -1 reports the "Lower" facet
      and any other guess, including no guess, the "Higher" one. A class
      missing from the dictionary raises KeyError, the high line first. */
  function BayesianLines(high: Option<int>, low: Option<int>, acc: Facets.BayesianAccuracy): (r: Result<(Line<real>, Line<real>)>)
    ensures r.Ok? <==> FacetKey(high) in acc.highs && FacetKey(low) in acc.lows
    ensures r.Err? ==> r.fault == KeyError
    ensures r.Ok? ==> r.value.0.caption == (if high == Some(-1) then "Lower high" else "Higher high")
    ensures r.Ok? ==> r.value.1.caption == (if low == Some(-1) then "Lower low" else "Higher low")
    ensures r.Ok? && high == Some(-1) ==> acc.LowerHighs() == Ok(r.value.0.percent / 100.0)
    ensures r.Ok? && high != Some(-1) ==> acc.HigherHighs() == Ok(r.value.0.percent / 100.0)
    ensures r.Ok? && low == Some(-1) ==> acc.LowerLows() == Ok(r.value.1.percent / 100.0)
    ensures r.Ok? && low != Some(-1) ==> acc.HigherLows() == Ok(r.value.1.percent / 100.0)
  {
    var h :- BayesianLine(high, acc.highs, "Lower high", "Higher high");
    var l :- BayesianLine(low, acc.lows, "Lower low", "Higher low");
    Ok((h, l))
  }

  /** numpy scaling by 100: inf and nan stay as they are. */
  function Percent(q: Facets.Quotient): (p: Facets.Quotient)
    ensures p.Finite? <==> q.Finite?
    ensures p.Finite? ==> p.value == q.value * 100.0
    ensures !p.Finite? ==> p == q
  {
    if q.Finite? then Facets.Finite(q.value * 100.0) else q
  }

  /** One line of the linear report: the caption and the facet in percent,
      or the facet's IndexError. */
  function LinearLine(caption: string, facet: Result<Facets.Quotient>): (r: Result<Line<Facets.Quotient>>)
    ensures r.Ok? <==> facet.Ok?
    ensures r.Err? ==> r.fault == facet.fault
    ensures r.Ok? ==> r.value == Line(caption, Percent(facet.value))
  {
    var q :- facet;
    Ok(Line(caption, Percent(q)))
  }

  /** `linear`: as for `bayesian`, with the facets of the confusion
      matrices. A guess of -1 reads entry (1, 1), which a matrix of one
      label lacks; any other guess reads entry (0, 0), which only an empty
      matrix lacks. A missing entry raises IndexError, the high line
      first. */
  function LinearLines(high: Option<int>, low: Option<int>, acc: Facets.LinearAccuracy): (r: Result<(Line<Facets.Quotient>, Line<Facets.Quotient>)>)
    requires acc.Valid()
    ensures r.Ok? <==>
      |acc.matrixHigh| >= (if high == Some(-1) then 2 else 1) && |acc.matrixLow| >= (if low == Some(-1) then 2 else 1)
    ensures r.Err? ==> r.fault == IndexError
    ensures r.Ok? && high == Some(-1) ==> r.value.0 == Line("Lower high", Percent(acc.LowerHighs().value))
    ensures r.Ok? && high != Some(-1) ==> r.value.0 == Line("Higher high", Percent(acc.HigherHighs().value))
    ensures r.Ok? && low == Some(-1) ==> r.value.1 == Line("Lower low", Percent(acc.LowerLows().value))
    ensures r.Ok? && low != Some(-1) ==> r.value.1 == Line("Higher low", Percent(acc.HigherLows().value))
  {
    var h :- if FacetKey(high) == Some(-1) then LinearLine("Lower high", acc.LowerHighs()) else LinearLine("Higher high", acc.HigherHighs());
    var l :- if FacetKey(low) == Some(-1) then LinearLine("Lower low", acc.LowerLows()) else LinearLine("Higher low", acc.HigherLows());
    Ok((h, l))
  }
}

=== FILE: series.dfy ===
/** The price history of one currency pair as the storage layer hands it to
    the feature code: parallel, index-aligned lists of timestamps, highs, lows,
    closes and volumes.
 */
module Series {

  datatype FxData = FxData(
    timestamps: seq<int>,
    highs: seq<real>,
    lows: seq<real>,
    closes: seq<real>,
    volumes: seq<real>)
  {
    /** The lists are index-aligned: entry i of each belongs to timestamps[i]. */
    ghost predicate Aligned() {
      && |highs| == |timestamps|
      && |lows| == |timestamps|
      && |closes| == |timestamps|
      && |volumes| == |timestamps|
    }

    /** The first n entries of every list: the history as it stood at index n - 1. */
    function Prefix(n: nat): (p: FxData)
      requires Aligned() && n <= |timestamps|
      ensures p.Aligned() && |p.timestamps| == n
    {
      FxData(timestamps[..n], highs[..n], lows[..n], closes[..n], volumes[..n])
    }
  }
}

=== FILE: sorting.dfy ===
/** Python's `sorted` over an abstract comparison. Python sorts by `<`
    only and keeps equal elements in their original order; on a comparison
    that is total, transitive and antisymmetric on the list, the result is
    the one ordered permutation of the list, whichever algorithm computes
    it. Insertion sort is that algorithm here.
 */
module Sorting {

  /** Every element is at most every later element. */
  ghost predicate Ordered<T>(le: (T, T) -> bool, xs: seq<T>)
  {
    forall i, j :: 0 <= i < j < |xs| ==> le(xs[i], xs[j])
  }

  ghost predicate TotalOn<T>(le: (T, T) -> bool, xs: seq<T>)
  {
    forall i, j :: 0 <= i < |xs| && 0 <= j < |xs| ==> le(xs[i], xs[j]) || le(xs[j], xs[i])
  }

  ghost predicate TransitiveOn<T>(le: (T, T) -> bool, xs: seq<T>)
  {
    forall i, j, k :: 0 <= i < |xs| && 0 <= j < |xs| && 0 <= k < |xs| && le(xs[i], xs[j]) && le(xs[j], xs[k]) ==>
      le(xs[i], xs[k])
  }

  ghost predicate AntisymmetricOn<T>(le: (T, T) -> bool, xs: seq<T>)
  {
    forall i, j :: 0 <= i < |xs| && 0 <= j < |xs| && le(xs[i], xs[j]) && le(xs[j], xs[i]) ==> xs[i] == xs[j]
  }

  /** x placed before the first element it does not exceed. */
  function Insert<T>(le: (T, T) -> bool, x: T, s: seq<T>): (r: seq<T>)
    ensures multiset(r) == multiset(s) + multiset{x}
  {
    if |s| == 0 then [x]
    else if le(x, s[0]) then [x] + s
    else
      assert s == [s[0]] + s[1..];
      [s[0]] + Insert(le, x, s[1..])
  }

  function Sort<T>(le: (T, T) -> bool, xs: seq<T>): (r: seq<T>)
    ensures multiset(r) == multiset(xs)
  {
    if |xs| == 0 then []
    else
      assert xs == [xs[0]] + xs[1..];
      Insert(le, xs[0], Sort(le, xs[1..]))
  }

  /** A list of at most one element is returned as it is, compared with
      nothing. */
  lemma SortShort<T>(le: (T, T) -> bool, xs: seq<T>)
    requires |xs| <= 1
    ensures Sort(le, xs) == xs
  {
  }

  lemma OrderedCons<T>(le: (T, T) -> bool, h: T, t: seq<T>)
    requires Ordered(le, t) && forall k :: 0 <= k < |t| ==> le(h, t[k])
    ensures Ordered(le, [h] + t)
  {
    forall i, j | 0 <= i < j < |[h] + t|
      ensures le(([h] + t)[i], ([h] + t)[j])
    {
      assert ([h] + t)[j] == t[j - 1];
      if i > 0 {
        assert ([h] + t)[i] == t[i - 1];
      }
    }
  }

  lemma OrderedTail<T>(le: (T, T) -> bool, a: seq<T>)
    requires Ordered(le, a) && |a| > 0
    ensures Ordered(le, a[1..])
  {
    forall p, q | 0 <= p < q < |a[1..]|
      ensures le(a[1..][p], a[1..][q])
    {
      assert a[1..][p] == a[p + 1] && a[1..][q] == a[q + 1];
    }
  }

  /** Each element of a list of the given elements is one of them. */
  lemma Member<T>(xs: seq<T>, ys: seq<T>, k: int)
    requires multiset(xs) <= multiset(ys) && 0 <= k < |xs|
    ensures exists i :: 0 <= i < |ys| && ys[i] == xs[k]
  {
    assert xs[k] in multiset(xs);
    assert xs[k] in multiset(ys);
    assert xs[k] in ys;
  }

  lemma {:induction false} InsertOrdered<T>(le: (T, T) -> bool, x: T, s: seq<T>)
    requires Ordered(le, s) && TotalOn(le, [x] + s) && TransitiveOn(le, [x] + s)
    ensures Ordered(le, Insert(le, x, s))
  {
    if |s| == 0 {
    } else if le(x, s[0]) {
      InsertFront(le, x, s);
    } else {
      var t := s[1..];
      DropSecond(le, x, s);
      OrderedTail(le, s);
      InsertOrdered(le, x, t);
      InsertAbove(le, x, s);
      OrderedCons(le, s[0], Insert(le, x, t));
    }
  }

  /** x at most the head of an ordered list is at most all of it. */
  lemma InsertFront<T>(le: (T, T) -> bool, x: T, s: seq<T>)
    requires Ordered(le, s) && TransitiveOn(le, [x] + s) && |s| > 0 && le(x, s[0])
    ensures Ordered(le, [x] + s)
  {
    var xs := [x] + s;
    forall k | 0 <= k < |s|
      ensures le(x, s[k])
    {
      if k > 0 {
        assert xs[0] == x && xs[1] == s[0] && xs[k + 1] == s[k];
        assert le(xs[0], xs[1]) && le(xs[1], xs[k + 1]);
      }
    }
    OrderedCons(le, x, s);
  }

  /** The order properties survive dropping the list's head after x. */
  lemma DropSecond<T>(le: (T, T) -> bool, x: T, s: seq<T>)
    requires |s| > 0
    ensures TotalOn(le, [x] + s) ==> TotalOn(le, [x] + s[1..])
    ensures TransitiveOn(le, [x] + s) ==> TransitiveOn(le, [x] + s[1..])
  {
    var xs := [x] + s;
    var xt := [x] + s[1..];
    forall k | 0 <= k < |xt|
      ensures exists i :: 0 <= i < |xs| && xs[i] == xt[k]
    {
      if k == 0 {
        assert xs[0] == xt[0];
      } else {
        assert xt[k] == s[k] == xs[k + 1];
      }
    }
    assert Within(xt, xs);
    OnSubset(le, xt, xs);
  }

  /** When x does not go first, the head of s is at most every element of
      the insertion into the rest. */
  lemma InsertAbove<T>(le: (T, T) -> bool, x: T, s: seq<T>)
    requires Ordered(le, s) && TotalOn(le, [x] + s) && |s| > 0 && !le(x, s[0])
    ensures forall k :: 0 <= k < |Insert(le, x, s[1..])| ==> le(s[0], Insert(le, x, s[1..])[k])
  {
    var xs := [x] + s;
    var t := s[1..];
    var xt := [x] + t;
    var r := Insert(le, x, t);
    forall k | 0 <= k < |r|
      ensures le(s[0], r[k])
    {
      Member(r, xt, k);
      var i :| 0 <= i < |xt| && xt[i] == r[k];
      if i == 0 {
        assert xs[0] == x && xs[1] == s[0];
        assert !le(xs[0], xs[1]);
      } else {
        assert r[k] == t[i - 1] == s[i];
      }
    }
  }

  lemma {:induction false} SortOrdered<T>(le: (T, T) -> bool, xs: seq<T>)
    requires TotalOn(le, xs) && TransitiveOn(le, xs)
    ensures Ordered(le, Sort(le, xs))
  {
    if |xs| > 0 {
      var t := xs[1..];
      assert forall k :: 0 <= k < |t| ==> t[k] == xs[k + 1];
      SortOrdered(le, t);
      var r := Sort(le, t);
      var xr := [xs[0]] + r;
      forall k | 0 <= k < |xr|
        ensures exists i :: 0 <= i < |xs| && xs[i] == xr[k]
      {
        if k == 0 {
          assert xs[0] == xr[0];
        } else {
          Member(r, t, k - 1);
          var i :| 0 <= i < |t| && t[i] == r[k - 1];
          assert xs[i + 1] == xr[k];
        }
      }
      OnSubset(le, xr, xs);
      InsertOrdered(le, xs[0], r);
    }
  }

  /** Every element of ys occurs in xs. */
  ghost predicate Within<T>(ys: seq<T>, xs: seq<T>)
  {
    forall k :: 0 <= k < |ys| ==> exists i :: 0 <= i < |xs| && xs[i] == ys[k]
  }

  /** The order properties carry over to a list made of elements of
      another. */
  lemma OnSubset<T>(le: (T, T) -> bool, ys: seq<T>, xs: seq<T>)
    requires Within(ys, xs)
    ensures TotalOn(le, xs) ==> TotalOn(le, ys)
    ensures TransitiveOn(le, xs) ==> TransitiveOn(le, ys)
    ensures AntisymmetricOn(le, xs) ==> AntisymmetricOn(le, ys)
  {
    if TotalOn(le, xs) {
      TotalOnSubset(le, ys, xs);
    }
    if TransitiveOn(le, xs) {
      TransitiveOnSubset(le, ys, xs);
    }
    if AntisymmetricOn(le, xs) {
      AntisymmetricOnSubset(le, ys, xs);
    }
  }

  lemma TotalOnSubset<T>(le: (T, T) -> bool, ys: seq<T>, xs: seq<T>)
    requires Within(ys, xs) && TotalOn(le, xs)
    ensures TotalOn(le, ys)
  {
    forall p, q | 0 <= p < |ys| && 0 <= q < |ys|
      ensures le(ys[p], ys[q]) || le(ys[q], ys[p])
    {
      var i :| 0 <= i < |xs| && xs[i] == ys[p];
      var j :| 0 <= j < |xs| && xs[j] == ys[q];
    }
  }

  lemma TransitiveOnSubset<T>(le: (T, T) -> bool, ys: seq<T>, xs: seq<T>)
    requires Within(ys, xs) && TransitiveOn(le, xs)
    ensures TransitiveOn(le, ys)
  {
    forall p, q, r | 0 <= p < |ys| && 0 <= q < |ys| && 0 <= r < |ys| && le(ys[p], ys[q]) && le(ys[q], ys[r])
      ensures le(ys[p], ys[r])
    {
      var i :| 0 <= i < |xs| && xs[i] == ys[p];
      var j :| 0 <= j < |xs| && xs[j] == ys[q];
      var k :| 0 <= k < |xs| && xs[k] == ys[r];
    }
  }

  lemma AntisymmetricOnSubset<T>(le: (T, T) -> bool, ys: seq<T>, xs: seq<T>)
    requires Within(ys, xs) && AntisymmetricOn(le, xs)
    ensures AntisymmetricOn(le, ys)
  {
    forall p, q | 0 <= p < |ys| && 0 <= q < |ys| && le(ys[p], ys[q]) && le(ys[q], ys[p])
      ensures ys[p] == ys[q]
    {
      var i :| 0 <= i < |xs| && xs[i] == ys[p];
      var j :| 0 <= j < |xs| && xs[j] == ys[q];
    }
  }

  /** Two ordered lists with the same elements start with the same one:
      each head is at most the other. */
  lemma OrderedHeads<T>(le: (T, T) -> bool, a: seq<T>, b: seq<T>)
    requires Ordered(le, a) && Ordered(le, b) && multiset(a) == multiset(b) && |a| > 0
    requires AntisymmetricOn(le, a)
    ensures |b| > 0 && a[0] == b[0]
  {
    Member(a, b, 0);
    Member(b, a, 0);
    var i :| 0 <= i < |b| && b[i] == a[0];
    var j :| 0 <= j < |a| && a[j] == b[0];
    if i > 0 && j > 0 {
      assert le(b[0], b[i]) && le(a[0], a[j]);
    }
  }

  /** An ordered list is fixed by its elements when the comparison is
      antisymmetric on them. */
  lemma {:induction false} OrderedUnique<T>(le: (T, T) -> bool, a: seq<T>, b: seq<T>)
    requires Ordered(le, a) && Ordered(le, b) && multiset(a) == multiset(b)
    requires AntisymmetricOn(le, a)
    ensures a == b
  {
    if |a| > 0 {
      OrderedHeads(le, a, b);
      assert a == [a[0]] + a[1..] && b == [b[0]] + b[1..];
      assert multiset(a) == multiset{a[0]} + multiset(a[1..]);
      assert multiset(b) == multiset{a[0]} + multiset(b[1..]);
      assert multiset(a[1..]) == multiset(a) - multiset{a[0]} == multiset(b[1..]);
      OrderedTail(le, a);
      OrderedTail(le, b);
      forall k | 0 <= k < |a[1..]|
        ensures exists i :: 0 <= i < |a| && a[i] == a[1..][k]
      {
        assert a[k + 1] == a[1..][k];
      }
      OnSubset(le, a[1..], a);
      OrderedUnique(le, a[1..], b[1..]);
    }
  }
}

=== FILE: tally.dfy ===
/** The accuracy bookkeeping of `Bayesian.accuracy` (both classifier
    modules). Each training vector contributes one observation: its true
    class and the classifier's prediction, `None` when it abstained. The
    dictionaries keyed by class, with the extra `None` key for the totals,
    become maps keyed by `Option<int>`. The classes are visited in the
    order their keys were first inserted, which Python guarantees for
    dictionaries from version 3.7 on; the key order is kept as a sequence
    beside the maps.
 */
module Tally {
  import opened Wrappers
  import opened Arith

  /** One training vector: its class and the prediction for it. */
  type Obs = (int, Option<int>)

  /** The two dictionaries of the counting loop, and the order in which keys
      first entered `cls_count` (the order the second loop visits them). */
  datatype Tallies = Tallies(correct: map<Option<int>, nat>, count: map<Option<int>, nat>, order: seq<Option<int>>)

  function Get(m: map<Option<int>, nat>, k: Option<int>): nat
  {
    if k in m then m[k] else 0
  }

  /** One iteration of the counting loop: an abstention counts nowhere; a
      definitive prediction counts for its true class, and also as correct
      when it names that class. */
  function Record(t: Tallies, o: Obs): Tallies
  {
    if o.1.None? then t
    else
      var cls := Some(o.0);
      var correct := if o.1 == cls then t.correct[cls := Get(t.correct, cls) + 1] else t.correct;
      var order := if cls in t.count then t.order else t.order + [cls];
      Tallies(correct, t.count[cls := Get(t.count, cls) + 1], order)
  }

  /** The counting loop over all observations, in order. Only classes are
      keys, every class with a correct tally also has a count, and the key
      order lists exactly the counted classes. */
  function Count(obs: seq<Obs>): (t: Tallies)
    ensures None !in t.count && None !in t.correct
    ensures t.correct.Keys <= t.count.Keys
    ensures forall k :: k in t.order <==> k in t.count
  {
    if |obs| == 0 then Tallies(map[], map[], [])
    else Record(Count(obs[..|obs| - 1]), obs[|obs| - 1])
  }

  /** Number of definitive predictions made for vectors of class c. */
  function Definitive(obs: seq<Obs>, c: int): nat
  {
    if |obs| == 0 then 0
    else Definitive(obs[..|obs| - 1], c) + (if obs[|obs| - 1].0 == c && obs[|obs| - 1].1.Some? then 1 else 0)
  }

  /** Number of correct predictions for vectors of class c. */
  function Hits(obs: seq<Obs>, c: int): (n: nat)
    ensures n <= Definitive(obs, c)
  {
    if |obs| == 0 then 0
    else Hits(obs[..|obs| - 1], c) + (if obs[|obs| - 1].0 == c && obs[|obs| - 1].1 == Some(c) then 1 else 0)
  }

  /** Number of definitive predictions overall. */
  function DefinitiveTotal(obs: seq<Obs>): nat
  {
    if |obs| == 0 then 0
    else DefinitiveTotal(obs[..|obs| - 1]) + (if obs[|obs| - 1].1.Some? then 1 else 0)
  }

  /** Number of correct predictions overall. */
  function HitsTotal(obs: seq<Obs>): (n: nat)
    ensures n <= DefinitiveTotal(obs)
  {
    if |obs| == 0 then 0
    else HitsTotal(obs[..|obs| - 1]) + (if obs[|obs| - 1].1 == Some(obs[|obs| - 1].0) then 1 else 0)
  }

  /** The class counts hold what they claim: a class has a count exactly
      when it received a definitive prediction, and then the count is the
      number of them. `None` is never a key. */
  lemma {:induction false} CountCounts(obs: seq<Obs>)
    ensures forall c :: Some(c) in Count(obs).count <==> Definitive(obs, c) > 0
    ensures forall c :: Get(Count(obs).count, Some(c)) == Definitive(obs, c)
    ensures None !in Count(obs).count
  {
    if |obs| > 0 {
      CountCounts(obs[..|obs| - 1]);
    }
  }

  /** Likewise for the correct predictions. */
  lemma {:induction false} CountCorrect(obs: seq<Obs>)
    ensures forall c :: Some(c) in Count(obs).correct <==> Hits(obs, c) > 0
    ensures forall c :: Get(Count(obs).correct, Some(c)) == Hits(obs, c)
    ensures None !in Count(obs).correct
  {
    if |obs| > 0 {
      CountCorrect(obs[..|obs| - 1]);
    }
  }

  /** The key order lists each counted class once. */
  lemma {:induction false} CountOrder(obs: seq<Obs>)
    ensures forall k :: k in Count(obs).order <==> k in Count(obs).count
    ensures forall i, j :: 0 <= i < j < |Count(obs).order| ==> Count(obs).order[i] != Count(obs).order[j]
  {
    if |obs| > 0 {
      CountOrder(obs[..|obs| - 1]);
    }
  }

  /** The tallies hold what they claim, for counts, correct predictions and
      key order together. */
  lemma CountMeaning(obs: seq<Obs>)
    ensures forall c :: Some(c) in Count(obs).count <==> Definitive(obs, c) > 0
    ensures forall c :: Get(Count(obs).count, Some(c)) == Definitive(obs, c)
    ensures forall c :: Some(c) in Count(obs).correct <==> Hits(obs, c) > 0
    ensures forall c :: Get(Count(obs).correct, Some(c)) == Hits(obs, c)
    ensures None !in Count(obs).count && None !in Count(obs).correct
    ensures forall k :: k in Count(obs).order <==> k in Count(obs).count
    ensures forall i, j :: 0 <= i < j < |Count(obs).order| ==> Count(obs).order[i] != Count(obs).order[j]
  {
    CountCounts(obs);
    CountCorrect(obs);
    CountOrder(obs);
  }

  /** Observations in which the classifier abstained change nothing. */
  lemma AbstentionsIgnored(obs: seq<Obs>, c: int)
    ensures Count(obs + [(c, None)]) == Count(obs)
  {
    assert (obs + [(c, None)])[..|obs|] == obs;
  }

  // ---------------------------------------------------------------------
  // The per-class accuracy loop
  // ---------------------------------------------------------------------

  /** The dictionaries while the second loop runs. */
  datatype State = State(correct: map<Option<int>, nat>, count: map<Option<int>, nat>, acc: map<Option<int>, real>)

  /** The ratio `correct / count`, scaled (1 for the `classifier` module, 100
      for the `classifier2d` module); it lies between 0 and the scale when the
      hits are at most the count. */
  function Scaled(scale: real, hits: nat, total: nat): (r: real)
    requires total > 0 && scale >= 0.0
    ensures hits <= total ==> 0.0 <= r <= scale
    ensures r * total as real == scale * hits as real
  {
    var q := hits as real / total as real;
    ScaledFacts(scale, hits as real, total as real, q);
    scale * q
  }

  lemma ScaledFacts(scale: real, h: real, t: real, q: real)
    requires t > 0.0 && scale >= 0.0 && h >= 0.0 && q == h / t
    ensures h <= t ==> 0.0 <= scale * q <= scale
    ensures scale * q * t == scale * h
  {
    DivTimes(h, t);
    assert scale * q * t == scale * (q * t);
    if h <= t {
      DivMono(h, t, t);
      DivMono(0.0, h, t);
      DivSelf(t);
      MulBounds(scale, q);
    }
  }

  lemma MulBounds(s: real, x: real)
    requires s >= 0.0 && 0.0 <= x <= 1.0
    ensures 0.0 <= s * x <= s
  {
  }

  /** One iteration for key k: record its accuracy when its count is not
      zero (KeyError when it has no correct entry), then add its tallies to
      the `None` totals. */
  function Step(s: State, k: Option<int>, scale: real): (r: Result<State>)
    requires k in s.count && None in s.correct && None in s.count
    requires scale >= 0.0
    ensures r.Ok? <==> k in s.correct
    ensures r.Err? ==> r.fault == KeyError
    ensures r.Ok? ==> None in r.value.correct && None in r.value.count
    ensures r.Ok? ==> r.value.count.Keys == s.count.Keys && r.value.correct.Keys == s.correct.Keys
  {
    if k !in s.correct then Err(KeyError)
    else
      var acc := if s.count[k] != 0 then s.acc[k := Scaled(scale, s.correct[k], s.count[k])] else s.acc;
      Ok(State(s.correct[None := s.correct[None] + s.correct[k]],
               s.count[None := s.count[None] + s.count[k]],
               acc))
  }

  /** The second loop over a list of keys, stopping at the first KeyError. */
  function Loop(keys: seq<Option<int>>, s: State, scale: real): (r: Result<State>)
    requires forall k :: k in keys ==> k in s.count
    requires None in s.correct && None in s.count
    requires scale >= 0.0
    ensures r.Ok? <==> forall k :: k in keys ==> k in s.correct
    ensures r.Err? ==> r.fault == KeyError
    ensures r.Ok? ==> None in r.value.correct && None in r.value.count
    ensures r.Ok? ==> r.value.count.Keys == s.count.Keys && r.value.correct.Keys == s.correct.Keys
    decreases |keys|
  {
    if |keys| == 0 then Ok(s)
    else
      var next :- Step(s, keys[0], scale);
      Loop(keys[1..], next, scale)
  }

  function SumOf(keys: seq<Option<int>>, m: map<Option<int>, nat>): nat
  {
    if |keys| == 0 then 0 else Get(m, keys[0]) + SumOf(keys[1..], m)
  }

  /** Over class keys (not `None`), the loop succeeds and adds the class
      tallies of correct predictions to the `None` total, leaving every class
      entry alone. */
  lemma {:induction false} LoopCorrect(keys: seq<Option<int>>, s: State, scale: real)
    requires forall k :: k in keys ==> k in s.count && k in s.correct && k != None
    requires None in s.correct && None in s.count
    requires scale >= 0.0
    ensures Loop(keys, s, scale).Ok?
    ensures Loop(keys, s, scale).value.correct == s.correct[None := s.correct[None] + SumOf(keys, s.correct)]
    decreases |keys|
  {
    if |keys| > 0 {
      var next := Step(s, keys[0], scale).value;
      LoopUnfold(keys, s, scale);
      var first := s.correct[None] + s.correct[keys[0]];
      LoopCorrect(keys[1..], next, scale);
      SumOfFrame(keys[1..], next.correct, s.correct);
      var total := first + SumOf(keys[1..], s.correct);
      assert total == s.correct[None] + SumOf(keys, s.correct);
      UpdateTwice(s.correct, None, first, total);
    }
  }

  /** Likewise for the counts of definitive predictions. */
  lemma {:induction false} LoopCount(keys: seq<Option<int>>, s: State, scale: real)
    requires forall k :: k in keys ==> k in s.count && k in s.correct && k != None
    requires None in s.correct && None in s.count
    requires scale >= 0.0
    ensures Loop(keys, s, scale).Ok?
    ensures Loop(keys, s, scale).value.count == s.count[None := s.count[None] + SumOf(keys, s.count)]
    decreases |keys|
  {
    if |keys| > 0 {
      var next := Step(s, keys[0], scale).value;
      LoopUnfold(keys, s, scale);
      var first := s.count[None] + s.count[keys[0]];
      LoopCount(keys[1..], next, scale);
      SumOfFrame(keys[1..], next.count, s.count);
      var total := first + SumOf(keys[1..], s.count);
      assert total == s.count[None] + SumOf(keys, s.count);
      UpdateTwice(s.count, None, first, total);
    }
  }

  /** The first pass of the loop over class keys, spelled out. */
  lemma LoopUnfold(keys: seq<Option<int>>, s: State, scale: real)
    requires forall k :: k in keys ==> k in s.count && k in s.correct && k != None
    requires None in s.correct && None in s.count
    requires scale >= 0.0 && |keys| > 0
    ensures var next := Step(s, keys[0], scale).value;
      && Step(s, keys[0], scale).Ok?
      && Loop(keys, s, scale) == Loop(keys[1..], next, scale)
      && next.correct == s.correct[None := s.correct[None] + s.correct[keys[0]]]
      && next.count == s.count[None := s.count[None] + s.count[keys[0]]]
      && (forall k :: k in keys[1..] ==> k in next.count && k in next.correct && k != None)
      && None in next.correct && None in next.count
  {
    assert keys[0] in keys;
    var next := Step(s, keys[0], scale).value;
    assert next.correct == s.correct[None := s.correct[None] + s.correct[keys[0]]];
    assert next.count == s.count[None := s.count[None] + s.count[keys[0]]];
    assert forall j :: j in keys[1..] ==> j in keys;
  }

  lemma UpdateTwice(m: map<Option<int>, nat>, k: Option<int>, a: nat, b: nat)
    ensures m[k := a][k := b] == m[k := b]
  {
  }

  /** A sum over keys only reads the entries of those keys. */
  lemma {:induction false} SumOfFrame(keys: seq<Option<int>>, m1: map<Option<int>, nat>, m2: map<Option<int>, nat>)
    requires forall k :: k in keys ==> Get(m1, k) == Get(m2, k)
    ensures SumOf(keys, m1) == SumOf(keys, m2)
    decreases |keys|
  {
    if |keys| > 0 {
      assert forall j :: j in keys[1..] ==> j in keys;
      SumOfFrame(keys[1..], m1, m2);
    }
  }

  /** Over class keys, the loop records the scaled accuracy of each class
      with a non-zero count and keeps every other entry. */
  lemma {:induction false} LoopAccuracies(keys: seq<Option<int>>, s: State, scale: real)
    requires forall k :: k in keys ==> k in s.count && k in s.correct && k != None
    requires None in s.correct && None in s.count
    requires scale >= 0.0
    ensures Loop(keys, s, scale).Ok?
    ensures
      var t := Loop(keys, s, scale).value;
      && (forall k :: k in keys && s.count[k] != 0 ==>
            k in t.acc && t.acc[k] == Scaled(scale, s.correct[k], s.count[k]))
      && (forall k :: k !in keys && k in s.acc ==> k in t.acc && t.acc[k] == s.acc[k])
      && (forall k :: k in t.acc ==> k in s.acc || k in keys)
    decreases |keys|
  {
    if |keys| > 0 {
      var k := keys[0];
      var next := Step(s, k, scale).value;
      assert forall j :: j in keys[1..] ==> j in keys;
      assert forall j :: j in keys[1..] ==> next.count[j] == s.count[j] && next.correct[j] == s.correct[j];
      LoopAccuracies(keys[1..], next, scale);
      var t := Loop(keys, s, scale).value;
      assert t == Loop(keys[1..], next, scale).value;
      forall j | j in keys && s.count[j] != 0
        ensures j in t.acc && t.acc[j] == Scaled(scale, s.correct[j], s.count[j])
      {
        if j != k {
          assert j in keys[1..];
        }
      }
    }
  }

  // ---------------------------------------------------------------------
  // Sums over the key order
  // ---------------------------------------------------------------------

  lemma {:induction false} SumOfAppend(keys: seq<Option<int>>, k: Option<int>, m: map<Option<int>, nat>)
    ensures SumOf(keys + [k], m) == SumOf(keys, m) + Get(m, k)
    decreases |keys|
  {
    if |keys| == 0 {
      assert keys + [k] == [k];
    } else {
      assert (keys + [k])[1..] == keys[1..] + [k];
      SumOfAppend(keys[1..], k, m);
    }
  }

  /** Adding one to the entry of a key that occurs once in the key list adds
      one to the sum. */
  lemma {:induction false} SumOfBump(keys: seq<Option<int>>, m: map<Option<int>, nat>, k: Option<int>)
    requires k in keys
    requires forall i, j :: 0 <= i < j < |keys| ==> keys[i] != keys[j]
    ensures SumOf(keys, m[k := Get(m, k) + 1]) == SumOf(keys, m) + 1
    decreases |keys|
  {
    var m2 := m[k := Get(m, k) + 1];
    if keys[0] == k {
      assert forall j :: j in keys[1..] ==> j != k;
      SumOfFrame(keys[1..], m2, m);
    } else {
      assert k in keys[1..];
      SumOfBump(keys[1..], m, k);
    }
  }

  /** The sums of the tallies over the key order are the overall numbers of
      definitive and of correct predictions. */
  lemma {:induction false} CountTotals(obs: seq<Obs>)
    ensures SumOf(Count(obs).order, Count(obs).count) == DefinitiveTotal(obs)
    ensures SumOf(Count(obs).order, Count(obs).correct) == HitsTotal(obs)
  {
    if |obs| > 0 {
      var front := obs[..|obs| - 1];
      var o := obs[|obs| - 1];
      var t := Count(front);
      CountTotals(front);
      CountMeaning(front);
      if o.1.Some? {
        var cls := Some(o.0);
        var t2 := Count(obs);
        assert t2 == Record(t, o);
        if cls in t.count {
          SumOfBump(t.order, t.count, cls);
          if o.1 == cls {
            SumOfBump(t.order, t.correct, cls);
          }
        } else {
          assert cls !in t.order;
          assert cls !in t.correct by {
            assert Hits(front, o.0) <= Definitive(front, o.0) == 0;
          }
          SumOfAppend(t.order, cls, t2.count);
          SumOfFrame(t.order, t2.count, t.count);
          SumOfAppend(t.order, cls, t2.correct);
          SumOfFrame(t.order, t2.correct, t.correct);
        }
      }
    }
  }

  // ---------------------------------------------------------------------
  // What `accuracy` returns
  // ---------------------------------------------------------------------

  /** The loop over a concatenation is the loop over the first part followed
      by the loop over the second. */
  lemma {:induction false} LoopAppend(a: seq<Option<int>>, b: seq<Option<int>>, s: State, scale: real)
    requires forall k :: k in a + b ==> k in s.count
    requires None in s.correct && None in s.count
    requires scale >= 0.0
    ensures Loop(a, s, scale).Ok? ==> Loop(a + b, s, scale) == Loop(b, Loop(a, s, scale).value, scale)
    ensures Loop(a, s, scale).Err? ==> Loop(a + b, s, scale) == Loop(a, s, scale)
    decreases |a|
  {
    if |a| == 0 {
      assert a + b == b;
    } else {
      assert (a + b)[1..] == a[1..] + b;
      assert forall k :: k in a[1..] + b ==> k in a + b;
      if Step(s, a[0], scale).Ok? {
        LoopAppend(a[1..], b, Step(s, a[0], scale).value, scale);
      }
    }
  }

  /** Every class with a definitive prediction has a correct one: the
      condition under which the second loop raises no KeyError. */
  ghost predicate EveryClassHit(obs: seq<Obs>)
  {
    forall c :: Definitive(obs, c) > 0 ==> Hits(obs, c) > 0
  }

  /** The state the second loop starts from: the tallies with a zero `None`
      entry added to both. */
  function Begin(obs: seq<Obs>): (s: State)
    ensures None in s.correct && None in s.count && s.acc == map[]
    ensures s.correct[None] == 0 && s.count[None] == 0
    ensures forall k :: k != None ==> (k in s.count <==> k in Count(obs).count) && (k in s.correct <==> k in Count(obs).correct)
    ensures forall k :: k in Count(obs).order ==> k in s.count && k != None
  {
    CountMeaning(obs);
    var t := Count(obs);
    State(t.correct[None := 0], t.count[None := 0], map[])
  }

  /** The second loop of `accuracy` over the classes, in dictionary order;
      it raises KeyError exactly when some class was never hit. */
  function ClassPass(obs: seq<Obs>, scale: real): (r: Result<State>)
    requires scale >= 0.0
    ensures r.Ok? <==> EveryClassHit(obs)
    ensures r.Err? ==> r.fault == KeyError
  {
    ClassesHit(obs);
    Loop(Count(obs).order, Begin(obs), scale)
  }

  /** The whole second loop: the classes and then `None` itself, which was
      inserted into the dictionary last. */
  function Visit(obs: seq<Obs>, scale: real): (r: Result<State>)
    requires scale >= 0.0
    ensures r.Ok? <==> EveryClassHit(obs)
    ensures r.Err? ==> r.fault == KeyError
    ensures r.Ok? ==> None in r.value.correct && None in r.value.count
  {
    ClassesHit(obs);
    Loop(Count(obs).order + [None], Begin(obs), scale)
  }

  /** The classes that need an entry in `correct` are those with a
      definitive prediction; every one has it when every class was hit. */
  lemma ClassesHit(obs: seq<Obs>)
    ensures EveryClassHit(obs) <==> forall k :: k in Count(obs).order ==> k in Begin(obs).correct
  {
    CountMeaning(obs);
    var t := Count(obs);
    if EveryClassHit(obs) {
      forall k | k in t.order
        ensures k in Begin(obs).correct
      {
        assert Definitive(obs, k.value) > 0;
      }
    } else {
      var c :| Definitive(obs, c) > 0 && Hits(obs, c) == 0;
      assert Some(c) in t.order && Some(c) !in Begin(obs).correct;
    }
  }

  lemma VisitSplit(obs: seq<Obs>, scale: real)
    requires scale >= 0.0
    ensures ClassPass(obs, scale).Ok? ==> Visit(obs, scale) == Step(ClassPass(obs, scale).value, None, scale)
    ensures ClassPass(obs, scale).Err? ==> Visit(obs, scale) == ClassPass(obs, scale)
  {
    var start := Begin(obs);
    LoopAppend(Count(obs).order, [None], start, scale);
  }

  /** The state after the class keys and after the `None` key. The loop
      visits `None` too: it records the overall accuracy from the totals so
      far and then adds the totals to themselves, doubling both. */
  lemma NoneKeyDoubled(obs: seq<Obs>, scale: real)
    requires scale >= 0.0 && EveryClassHit(obs)
    ensures Visit(obs, scale).Ok?
    ensures Visit(obs, scale).value.correct[None] == 2 * HitsTotal(obs)
    ensures Visit(obs, scale).value.count[None] == 2 * DefinitiveTotal(obs)
  {
    var t := Count(obs);
    var start := Begin(obs);
    CountMeaning(obs);
    CountTotals(obs);
    ClassesHit(obs);
    LoopCorrect(t.order, start, scale);
    LoopCount(t.order, start, scale);
    VisitSplit(obs, scale);
    SumOfFrame(t.order, start.correct, t.correct);
    SumOfFrame(t.order, start.count, t.count);
  }

  /** When every class was hit the loop succeeds with both totals doubled. */
  lemma VisitTotals(obs: seq<Obs>, scale: real)
    requires scale >= 0.0
    ensures EveryClassHit(obs) ==>
      Visit(obs, scale).Ok? && Visit(obs, scale).value.count[None] == 2 * DefinitiveTotal(obs)
  {
    if EveryClassHit(obs) {
      NoneKeyDoubled(obs, scale);
    }
  }

  /** `accuracy` with its scale: per-class and overall accuracy, or the
      exception the Python code raises. */
  function Accuracy(obs: seq<Obs>, scale: real): (r: Result<map<Option<int>, real>>)
    requires scale >= 0.0
    ensures r.Ok? <==> EveryClassHit(obs) && DefinitiveTotal(obs) > 0
    ensures !EveryClassHit(obs) ==> r == Err(KeyError)
    ensures EveryClassHit(obs) && DefinitiveTotal(obs) == 0 ==> r == Err(ZeroDivisionError)
    ensures r.Ok? ==> None in r.value
  {
    VisitTotals(obs, scale);
    var s :- Visit(obs, scale);
    if s.count[None] == 0 then Err(ZeroDivisionError)
    else Ok(s.acc[None := Scaled(scale, s.correct[None], s.count[None])])
  }

  /** Halving both tallies leaves the ratio unchanged, so the doubled `None`
      totals still give the overall accuracy. */
  lemma ScaledDouble(scale: real, hits: nat, total: nat)
    requires total > 0 && scale >= 0.0
    ensures Scaled(scale, 2 * hits, 2 * total) == Scaled(scale, hits, total)
  {
    var r1 := Scaled(scale, 2 * hits, 2 * total);
    var r2 := Scaled(scale, hits, total);
    assert r1 * (2 * total) as real == 2.0 * (scale * hits as real);
    assert r1 * total as real == r2 * total as real;
    MulCancel(r1, r2, total as real);
  }

  lemma MulCancel(a: real, b: real, c: real)
    requires c > 0.0 && a * c == b * c
    ensures a == b
  {
  }

  /** When `accuracy` raises: KeyError from the second loop when a class
      has definitive predictions but no correct one, ZeroDivisionError from
      the final division when no prediction is definitive. */
  lemma AccuracyOutcome(obs: seq<Obs>, scale: real)
    requires scale >= 0.0
    ensures Accuracy(obs, scale).Ok? <==> EveryClassHit(obs) && DefinitiveTotal(obs) > 0
    ensures !EveryClassHit(obs) ==> Accuracy(obs, scale) == Err(KeyError)
    ensures EveryClassHit(obs) && DefinitiveTotal(obs) == 0 ==> Accuracy(obs, scale) == Err(ZeroDivisionError)
  {
    ClassesHit(obs);
    VisitSplit(obs, scale);
    if EveryClassHit(obs) {
      NoneKeyDoubled(obs, scale);
    }
  }

  /** On success the result is the class pass's entries plus the overall
      share under `None`. */
  lemma AccuracyFinal(obs: seq<Obs>, scale: real)
    requires scale >= 0.0 && EveryClassHit(obs) && DefinitiveTotal(obs) > 0
    ensures ClassPass(obs, scale).Ok?
    ensures Accuracy(obs, scale) ==
      Ok(ClassPass(obs, scale).value.acc[None := Scaled(scale, HitsTotal(obs), DefinitiveTotal(obs))])
  {
    ClassesHit(obs);
    VisitSplit(obs, scale);
    NoneKeyDoubled(obs, scale);
    var s1 := ClassPass(obs, scale).value;
    var s := Visit(obs, scale).value;
    var x := Scaled(scale, HitsTotal(obs), DefinitiveTotal(obs));
    ScaledDouble(scale, HitsTotal(obs), DefinitiveTotal(obs));
    assert Accuracy(obs, scale) == Ok(s.acc[None := x]);
    assert s.acc == s1.acc || s.acc == s1.acc[None := s.acc[None]];
    assert s.acc[None := x] == s1.acc[None := x];
  }

  /** The `None` entry is the overall share of correct predictions. */
  lemma AccuracyOverall(obs: seq<Obs>, scale: real)
    requires scale >= 0.0
    ensures Accuracy(obs, scale).Ok? ==>
      && DefinitiveTotal(obs) > 0
      && None in Accuracy(obs, scale).value
      && Accuracy(obs, scale).value[None] == Scaled(scale, HitsTotal(obs), DefinitiveTotal(obs))
  {
    AccuracyOutcome(obs, scale);
    if Accuracy(obs, scale).Ok? {
      AccuracyFinal(obs, scale);
    }
  }

  /** There is one entry per class that received a definitive prediction,
      holding its share of correct ones. */
  lemma AccuracyClasses(obs: seq<Obs>, scale: real)
    requires scale >= 0.0
    ensures Accuracy(obs, scale).Ok? ==>
      var acc := Accuracy(obs, scale).value;
      && (forall c :: Some(c) in acc <==> Definitive(obs, c) > 0)
      && (forall c :: Some(c) in acc ==> acc[Some(c)] == Scaled(scale, Hits(obs, c), Definitive(obs, c)))
  {
    AccuracyOutcome(obs, scale);
    if Accuracy(obs, scale).Ok? {
      AccuracyFinal(obs, scale);
      CountMeaning(obs);
      ClassesHit(obs);
      var t := Count(obs);
      var start := Begin(obs);
      LoopAccuracies(t.order, start, scale);
      var acc := Accuracy(obs, scale).value;
      forall c
        ensures Some(c) in acc <==> Definitive(obs, c) > 0
        ensures Definitive(obs, c) > 0 ==> acc[Some(c)] == Scaled(scale, Hits(obs, c), Definitive(obs, c))
      {
        if Definitive(obs, c) > 0 {
          assert Some(c) in t.order;
        }
      }
    }
  }

  /** What `accuracy` returns, in one statement: the error cases, the
      per-class entries and the overall entry, all times the scale. */
  lemma AccuracyMeaning(obs: seq<Obs>, scale: real)
    requires scale >= 0.0
    ensures Accuracy(obs, scale).Ok? <==> EveryClassHit(obs) && DefinitiveTotal(obs) > 0
    ensures !EveryClassHit(obs) ==> Accuracy(obs, scale) == Err(KeyError)
    ensures EveryClassHit(obs) && DefinitiveTotal(obs) == 0 ==> Accuracy(obs, scale) == Err(ZeroDivisionError)
    ensures Accuracy(obs, scale).Ok? ==>
      var acc := Accuracy(obs, scale).value;
      && None in acc
      && acc[None] == Scaled(scale, HitsTotal(obs), DefinitiveTotal(obs))
      && (forall c :: Some(c) in acc <==> Definitive(obs, c) > 0)
      && (forall c :: Some(c) in acc ==> acc[Some(c)] == Scaled(scale, Hits(obs, c), Definitive(obs, c)))
  {
    AccuracyOutcome(obs, scale);
    AccuracyOverall(obs, scale);
    AccuracyClasses(obs, scale);
  }

  /** Every accuracy lies between 0 and the scale. */
  lemma AccuracyBounds(obs: seq<Obs>, scale: real)
    requires scale >= 0.0
    ensures Accuracy(obs, scale).Ok? ==>
      forall k :: k in Accuracy(obs, scale).value ==> 0.0 <= Accuracy(obs, scale).value[k] <= scale
  {
    AccuracyMeaning(obs, scale);
    if Accuracy(obs, scale).Ok? {
      var acc := Accuracy(obs, scale).value;
      forall k | k in acc
        ensures 0.0 <= acc[k] <= scale
      {
        if k.Some? {
          assert acc[k] == Scaled(scale, Hits(obs, k.value), Definitive(obs, k.value));
        }
      }
    }
  }
}

=== FILE: wrappers.dfy ===
/** Failure-compatible result types shared by every module of the model.

    The Python code signals failure by raising; each exception class that the
    modelled code can raise becomes one `Fault`, and a computation that may raise
    returns a `Result`. `Exit` stands for the logger's fatal path, which ends the
    process.
 */
module Wrappers {

  datatype Fault =
    | ValueError          // max()/min() of an empty list, list.index() of a missing item
    | IndexError          // list[i] outside the list
    | ZeroDivisionError   // division by zero on Python numbers
    | KeyError            // dict[k] for a missing key
    | TypeError           // an operation applied to a value of the wrong type
    | AttributeError      // a method called on a value whose type lacks it
    | Exit                // the logger's "die" path, which terminates the process

  datatype Result<+T> = Ok(value: T) | Err(fault: Fault) {

    predicate IsFailure() {
      Err?
    }

    function PropagateFailure<U>(): Result<U>
      requires Err?
    {
      Err(fault)
    }

    function Extract(): T
      requires Ok?
    {
      value
    }
  }

  /** Python's `None` next to a value of type T. */
  datatype Option<+T> = None | Some(value: T)
}
